=== FILE: README.md ===
# xPL SDK core in Dafny

A model of the core of the xPL SDK, a C++ library for writing xPL home-automation
devices. xPL messages are plain text:

```
xpl-cmnd
{
hop=1
source=acme-lamp.hall
target=*
}
control.basic
{
device=lamp
current=on
}
```

A message has three header fields, `hop`, `source` and `target`. A
`vendor-device.instance` address names one device; `*` means every device.
The model covers four parts of the library.

- **String utilities** (`StringUtils`). `StringReadLine` returns the next
  non-blank, trimmed line and the position after it. `StringSplit` cuts a
  string at the first occurrence of a delimiter and trims both halves.
  The characters `Lower`, `Trim` and `IsSpace` work on are ASCII.
- **The message codec of the Poco port** (`XplMsg`). This covers the
  checked setters, the parser `ParseFromString`, the writer `GetRawData`
  with its cache, and `operator ==`.
- **The original Windows codec** (`WinMsg`). Its setters are stricter.
  `Create` parses a buffer into a new message. `GetRawData` computes a
  buffer size and writes the text.
- **The device** (`XplDevice`). This covers:
  - the identity and the complete ID;
  - the config item registry;
  - `Configure`;
  - the heartbeat schedule, with rapid heartbeats while waiting for a hub;
  - admission of received messages (`IsMsgForThisApp`);
  - the answers to `config.*` and `hbeat.request` commands;
  - `HandleRx`, `SendMsg` and `Init`;
  - the run loop's heartbeat step.

Both codecs use the line reader and frame layout in `WireFormat`, and the item
store of `xplMsgItem`s in `MsgItems`. `Numbers` holds `atol`, decimal text and
the 32-bit conversion. `SplitWidth` models `StringSplit` as written on a
platform with a 64-bit `size_t`. It is the one finding below.

Everything is pure functions over immutable datatypes. The following are
parameters of the functions instead of hidden state:

- time: `now`, the timestamp in microseconds that `Timestamp::epochMicroseconds` gives;
- the address printer `XPLAddress::toString`: `show`;
- the filter test `xplFilter::Allow`: `allow`;
- the value splitter of `XplMsgItem::AddValue`: `split`;
- the property file `LoadConfig` reads: `store`, a `Store` value.

What the device would send or hand to its observers comes back as a list of
`Action`s.

## Model

| member | source | states |
|---|---|---|
| StringUtils.ReadLine | src/XplStringUtils.cpp:54-95 | The line is one line of trimmed text with no line break or NUL. The position never moves backwards and stays within the string. A non-empty line means the position advanced. |
| StringUtils.ReadLineMeets | src/XplStringUtils.cpp:54-95 | The result meets the independent description `IsNextLine`: blank lines are skipped, and the line is the trimmed text before the next break. The position is just past the break, or the end of the data. |
| StringUtils.ReadLineUnique | src/XplStringUtils.cpp:54-95 | Only one (line, position) pair meets `IsNextLine`, so `ReadLine` is exactly that description. |
| StringUtils.ReadLineAtEnd | src/XplStringUtils.cpp:61-83 | At the end of the data, or at a NUL character, the reader returns an empty line and stays where it is. |
| StringUtils.ReadLineExhausted | src/XplStringUtils.cpp:54-95 | Once the reader has returned an empty line, reading again from the new position returns an empty line and does not move. |
| StringUtils.ReadLineEmptyConsumesAll | src/XplStringUtils.cpp:54-95 | In text without NUL characters, an empty line means everything from the start position was blank and has been consumed. |
| StringUtils.ReadLineOfLine | src/XplStringUtils.cpp:54-95 | A trimmed line followed by a newline is read back exactly. The position is just past the newline. |
| StringUtils.Split | src/XplStringUtils.cpp:107-126 | The result is absent exactly when the delimiter does not occur. Otherwise the left part has no delimiter, both parts are trimmed, and together they are shorter than the input. |
| StringUtils.SplitJoin | src/XplStringUtils.cpp:107-126 | Splitting `l + d + r` gives back `l` and `r`, when `l` has no `d` and both parts are trimmed. This is the inverse of joining. |
| StringUtils.SplitParts | src/XplStringUtils.cpp:107-126 | Like `Split`, but reports a missing delimiter as two empty parts. The callers leave their output strings empty in that case. |
| StringUtils.Lower | src/XplMsg.cpp:506 | Each character is lowered on its own and the length is kept. |
| StringUtils.LowerIsLower | src/XplMsg.cpp:506-523 | Lowering yields lower-case text and is idempotent. Already lower-case text is unchanged. |
| StringUtils.Trim | src/XplStringUtils.cpp:119-120 | The result has no white space at either end. It is empty exactly when the input is all white space. |
| Numbers.AtolDecimal | src/XplMsg.cpp:147 | `atol` reads back the number that decimal printing wrote. |
| Numbers.ToUint32 | src/XplDevice.cpp:350 | Conversion to `uint32` keeps values in range and wraps negative values by adding 2^32. |
| Numbers.ToInt32 | src/XplMsg.cpp:432 | Conversion to a 32-bit `int` keeps values in range, maps 2^31 to 2^32 - 1 to their negative two's-complement readings, and always agrees with the input modulo 2^32. |
| Numbers.Atol | src/XplMsg.cpp:147 | A string of digits reads as its decimal value. Blank text reads as 0. A negative result needs a leading '-' after the skipped white space. |
| Numbers.Decimal | src/XplMsg.cpp:310 | Decimal text is a non-empty string of digits. It is one digit long exactly when the number is below 10. |
| SplitWidth.SplitLp64 | src/XplStringUtils.cpp:115-116 | As written with a 64-bit `size_t`: the same as `Split` when the delimiter occurs. When it does not occur, the call reports success with both parts equal to the trimmed input. |
| SplitWidth.MissingDelimiterReportsSplit | src/XplStringUtils.cpp:115-125 | On "abc" with no '.', the code as written reports the split ("abc", "abc"), while the intended `Split` reports none. |
| SplitWidth.MissingDashPassesEmptinessCheck | src/XplMsg.cpp:543-551 | For any address text without '-' that is not all blanks, the as-written split yields two non-empty parts. So the emptiness test after it does not refuse the text, although the intended split finds no vendor. |
| WireFormat.ReadNameValuePair | src/XplMsg.cpp:702-723 | The pair comes from the next line. It is that line split at the first '='. A line without '=' becomes a name with an empty value. |
| WireFormat.ReadHeader | src/XplMsg.cpp:132-158 | A header holds only `hop`, `source` and `target` items and ends after the closing brace. Any other name fails with an invalid-header error. |
| WireFormat.ReadBody | src/XplMsg.cpp:182-202 | Body names are non-empty and never "}". The body ends after the closing brace. Running out of lines fails. |
| WireFormat.ReadFrame | src/XplMsg.cpp:117-202 | Parsing fails with "opening brace not found" when the line after the type, or the line after the schema, is not "{". A header that does not read fails with "invalid header item", and a body that does not read fails with "unterminated body". On success the header holds only header names and the body has no empty names. |
| WireFormat.HeaderAtEnd | src/XplMsg.cpp:138-157 | Reading a header at the end of the data fails: there is no closing brace. |
| WireFormat.BodyAtEnd | src/XplMsg.cpp:186-194 | Reading a body at the end of the data fails: the body is unterminated. |
| WireFormat.NoBraceNoFrame | src/XplMsg.cpp:132-158 | Text without any '}' never parses. |
| WireFormat.ReadFrameOf | src/XplMsg.cpp:117-202 | When the reader's steps find the type line, "{", the header, the schema line, "{" and the body in turn, the frame reads as exactly those parts. |
| WireFormat.FrameRoundTrip | src/XplMsg.cpp:221-248 | Parsing the text the writer produces for a writable frame gives back the same frame, and consumes all of the text. |
| MsgItems.FindExact | src/XplMsg.cpp:270-278 | The first item whose name equals the given name, compared case-sensitively, or none when no item has it. |
| MsgItems.GetMsgItem | src/XplMsg.cpp:349-366 | The lookup lowers the asked name. The result is absent exactly when no item has the lowered name; otherwise it is an item with that name. |
| MsgItems.GetMsgItemAt | src/XplMsg.cpp:375-388 | The item at an index, absent exactly when the index is out of range. |
| MsgItems.GetValue | src/XplMsg.cpp:397-411 | The value at an index of the named item. It is empty when the item is missing or the index is out of range. |
| MsgItems.GetIntValue | src/XplMsg.cpp:420-434 | `atoi` of the value as a 32-bit `int`: 0 for a missing value, and n for the decimal text of any n below 2^31. |
| MsgItems.AddIntValue | src/XplMsg.cpp:302-311 | A 32-bit number is added as its `%d` text, and that text reads back as the number. |
| MsgItems.GetCompleteValue | src/XplMsg.cpp:443-464 | All values of the named item joined with the delimiter. It is empty when the item is missing. |
| MsgItems.CompleteValueSplits | src/XplMsg.cpp:443-464 | Splitting the complete value at the delimiter gives back the item's values, when none contains the delimiter. |
| MsgItems.AddValue | src/XplMsg.cpp:257-293 | A value goes to the first item whose name matches exactly, or to a new item named in lower case at the end. The value is split at the delimiter first. |
| MsgItems.AddValueThenGetValue | src/XplMsg.cpp:257-293 | After adding a value under a lower-case name, each piece of it is read back at the next indices of that item. |
| MsgItems.AddValueKeepsOthers | src/XplMsg.cpp:257-293 | Adding a value under one name leaves the lookup of every other name unchanged. |
| MsgItems.MixedCaseDuplicates | src/XplMsg.cpp:269-290 | Adding under "Power" when "power" exists creates a second item called "power", because the match is case-sensitive. |
| MsgItems.AddIntValueThenGetIntValue | src/XplMsg.cpp:302-311 | A 32-bit integer added in decimal is read back as the same integer, negative ones included. |
| MsgItems.SetValue | src/XplMsg.cpp:320-340 | Succeeds exactly when an item has the name and the index is below its number of values. It then replaces that one value of the first such item and leaves every other item as it was. A failure changes nothing. The item names and their number are kept. |
| MsgItems.SetValueThenGetValue | src/XplMsg.cpp:320-340 | A value set at an existing index is read back at that index. |
| MsgItems.SetValuePastEnd | src/XplMsg.cpp:320-340 | Setting past the last value fails and changes nothing. |
| MsgItems.SplitAllJoin | src/XplMsg.cpp:443-464 | Splitting a joined list at the delimiter gives back the list, when no element contains the delimiter. |
| XplMsg.SetHop | src/XplMsg.cpp:473-489 | A hop count is accepted exactly when it is at most 9. A refused count keeps the old one. The cached text is dropped either way. |
| XplMsg.SetType | src/XplMsg.cpp:498-524 | Accepts "cmnd", "stat" and "trig", with or without the "xpl-" prefix and in any case. It stores the full lower-case type. Anything else is refused and leaves the type alone. |
| XplMsg.SetTypeIgnoresCase | src/XplMsg.cpp:498-524 | Two spellings that differ only in case set the same type. |
| XplMsg.FullTypeAccepted | src/XplMsg.cpp:498-524 | The completed type is a message type exactly when the spelling is one of the accepted ones. |
| XplMsg.SetSource | src/XplMsg.cpp:533-566 | A source needs a '-'. Its vendor has 1-8 characters, its device 1-8 and its instance 1-16. Device and instance are stored lower-case. With the intended split, text without '-' is refused and nothing changes (the code as written differs: see Findings). |
| XplMsg.SetSourceAddress | src/XplMsg.cpp:568-576 | The overload taking an address stores it as given and drops the cached text. Nothing else changes. |
| XplMsg.SetSourceOfParts | src/XplMsg.cpp:533-566 | A well-formed address text sets exactly those parts, with device and instance lowered. |
| XplMsg.SetSourceRefusedKeepsVendor | src/XplMsg.cpp:543-559 | "acme-lamp" is refused because there is no instance. The vendor "acme" has already been stored by then. |
| XplMsg.SetTarget | src/XplMsg.cpp:585-633 | "*" sets the broadcast flag. Other text must be an address whose device has 1-8 characters and whose instance has 1-16; any vendor length is allowed. Text without '-' is refused. |
| XplMsg.SetTargetAddress | src/XplMsg.cpp:635-642 | The overload taking an address stores it as given and drops the cached text. Nothing else changes. |
| XplMsg.SetTargetOfParts | src/XplMsg.cpp:585-633 | A well-formed target text sets exactly those parts. |
| XplMsg.LongVendorSourceVersusTarget | src/XplMsg.cpp:543-633 | A 9-character vendor is refused as a source but accepted as a target. |
| XplMsg.SplitAddressText | src/XplMsg.cpp:543-554 | The address text `v-d.i` splits back into `v`, `d` and `i`. |
| XplMsg.SetSchemaClass | src/XplMsg.cpp:652-668 | Accepts 1-8 characters and stores them lower-case; otherwise refused. |
| XplMsg.SetSchemaType | src/XplMsg.cpp:677-693 | Accepts 1-8 characters and stores them lower-case; otherwise refused. |
| XplMsg.AddMsgValue | src/XplMsg.cpp:257-293 | Adding a value changes only the items, as `MsgItems.AddValue` says, and drops the cached text. |
| XplMsg.SetMsgValue | src/XplMsg.cpp:320-340 | Setting a value changes only the items, as `MsgItems.SetValue` says, and drops the cached text. |
| XplMsg.Parse | src/XplMsg.cpp:117-210 | Parsing succeeds exactly when the frame reads, with the reader's error otherwise. A parsed message caches the input as its text. |
| XplMsg.ParseKeepsRefusedType | src/XplMsg.cpp:121-122 | A type line the setter refuses does not stop the parse. The message keeps an empty type. |
| XplMsg.ParseWithoutHop | src/XplMsg.cpp:117-210 | A message without a `hop` line keeps the hop of the object it was parsed into. |
| XplMsg.GetRawData | src/XplMsg.cpp:221-248 | Cached text is returned unchanged. Otherwise the message is written out and the text cached. The text is never empty. |
| XplMsg.Render | src/XplMsg.cpp:225-244 | The text is never empty and is the frame's lines, each ended by a line feed: the type, "{", hop, source and target, "}", the schema, "{", the body lines in item and value order, and "}". |
| XplMsg.GetRawDataIdempotent | src/XplMsg.cpp:221-248 | A second call returns the same text and the same message. |
| XplMsg.ParseCachesInput | src/XplMsg.cpp:204-205 | The text of a parsed message is the input itself, not a rewrite. |
| XplMsg.Equal | src/XplMsg.cpp:744-760 | Two messages are equal exactly when their texts are, and both end up with their text cached. A message equals itself. |
| XplMsg.ParsedEqual | src/XplMsg.cpp:744-760 | Two parsed messages are equal exactly when their inputs were identical, because the cached inputs are compared. |
| XplMsg.ParseRendered | src/XplMsg.cpp:117-248 | Round trip: parsing the written text of a well-formed message gives back the message, with that text cached. Broadcast targets, written as "*", are included. |
| XplMsg.FromFrameOfCanonical | src/XplMsg.cpp:132-202 | Applying the header and body of a well-formed message's frame rebuilds the message, including a broadcast target. |
| WinMsg.SetHop | xplsds_winorig/Src/xplMsg.cpp:524-540 | Accepts a hop count of at most 9 and drops the buffer either way. |
| WinMsg.SetType | xplsds_winorig/Src/xplMsg.cpp:549-569 | Only the full spellings "xpl-cmnd", "xpl-stat" and "xpl-trig" are accepted, in any case. A refusal leaves the type alone. |
| WinMsg.ShortTypeRefused | xplsds_winorig/Src/xplMsg.cpp:549-569 | "trig" is refused here but accepted by the Poco codec. |
| WinMsg.SetSource | xplsds_winorig/Src/xplMsg.cpp:578-611 | Accepted exactly for a vendor of 1-8, a device of 1-8 and an instance of 1-16 characters. The whole text is stored lower-case. A refusal leaves the source as it was, and either way the cached buffer is released. |
| WinMsg.AcceptedTextParts | xplsds_winorig/Src/xplMsg.cpp:578-611 | Accepted text splits into parts within those limits. |
| WinMsg.PartsTextAccepted | xplsds_winorig/Src/xplMsg.cpp:578-611 | The text of parts within those limits is accepted. |
| WinMsg.SetTarget | xplsds_winorig/Src/xplMsg.cpp:620-660 | "*" is always accepted. Other text follows the source address limits, the vendor's included. |
| WinMsg.LongVendorTargetRefused | xplsds_winorig/Src/xplMsg.cpp:620-660 | A 9-character vendor is refused as a target here but accepted by the Poco codec. |
| WinMsg.SetSchemaClass | xplsds_winorig/Src/xplMsg.cpp:669-685 | Accepts 1-8 characters and stores them lower-case. |
| WinMsg.SetSchemaType | xplsds_winorig/Src/xplMsg.cpp:694-710 | Accepts 1-8 characters and stores them lower-case. |
| WinMsg.AddValue | xplsds_winorig/Src/xplMsg.cpp:308-344 | Changes only the items, as `MsgItems.AddValue` says, and drops the buffer. |
| WinMsg.SetValue | xplsds_winorig/Src/xplMsg.cpp:371-391 | Changes only the items, as `MsgItems.SetValue` says, and drops the buffer. |
| WinMsg.Create | xplsds_winorig/Src/xplMsg.cpp:91-206 | A message is created exactly when the frame reads. Its hop is a single digit, and it keeps the parsed text with its length as the buffer size. |
| WinMsg.CreateFrom | xplsds_winorig/Src/xplMsg.cpp:215-233 | Each field holds its argument when the setter accepts it, lowered, and is empty otherwise. The hop is 1 and there are no items. |
| WinMsg.GetRawData | xplsds_winorig/Src/xplMsg.cpp:242-299 | An existing buffer is returned as it is. Otherwise the text is written and the size is computed from the field lengths, truncated to 32 bits. |
| WinMsg.SizeMatchesText | xplsds_winorig/Src/xplMsg.cpp:250-294 | The computed size is the text's length plus its terminator exactly when the hop is a single digit. |
| WinMsg.CreatedSizeOmitsTerminator | xplsds_winorig/Src/xplMsg.cpp:196-197 | After `Create` the size is the text's length without the terminator, unlike a size `GetRawData` computes. |
| WinMsg.Equal | xplsds_winorig/Src/xplMsg.cpp:763-780 | Equal exactly when the texts are equal. Both buffers are filled. |
| WinMsg.HopStaysDigit | xplsds_winorig/Src/xplMsg.cpp:524-540 | No sequence of setter calls takes the hop out of 0-9. |
| WinMsg.CreateRendered | xplsds_winorig/Src/xplMsg.cpp:91-299 | Round trip: creating from the written text of a well-formed message gives back the message, with that text as its buffer. |
| XplDevice.CompleteIdOf | src/XplDevice.cpp:908-911 | The complete ID is lower-case. |
| XplDevice.CompleteIdIsSource | src/XplDevice.cpp:908-911 | For valid parts, the complete ID is a source address the message accepts, with the device's parts. |
| XplDevice.SetCompleteId | src/XplDevice.cpp:908-911 | The complete ID becomes the lower-cased `vendor-device.instance` of the current parts, and nothing else changes. |
| XplDevice.New | src/XplDevice.cpp:71-107 | A new device has lower-cased vendor and device, the instance "default", config mode, the hub wait, 40 rapid heartbeats, an interval of 5, and no items or filters. It satisfies the invariant. |
| XplDevice.SetInstanceId | src/XplDevice.h:325-329 | Sets the instance and recomputes the complete ID, keeping the invariant. |
| XplDevice.GetConfigItem | src/XplDevice.cpp:450-466 | Absent exactly when no item has the name; otherwise an item with that name. |
| XplDevice.AddConfigItem | src/XplDevice.cpp:391-415 | Succeeds exactly before `Init` when the name is new, and appends the item. Item names stay distinct. A refusal changes nothing. |
| XplDevice.RemoveConfigItem | src/XplDevice.cpp:424-441 | Succeeds exactly when an item has the name. It removes the first such item and keeps the rest in order. With distinct names, the name is gone afterwards. |
| XplDevice.AddThenGet | src/XplDevice.cpp:391-466 | An item just added is what a lookup of its name returns. |
| XplDevice.AddThenRemove | src/XplDevice.cpp:391-441 | Removing an item just added restores the device exactly. |
| XplDevice.ClampInterval | src/XplDevice.cpp:350-357 | The interval is the closest value in 5-30: values below 5 give 5, values above 30 give 30, and values in range are kept. |
| XplDevice.IntervalOf | src/XplDevice.cpp:346-358 | The configured interval is always 5-30. It is the text's number when that is in range, 5 for 0-4, and 30 for larger numbers. A negative number is first read as a `uint32`, so a small negative one gives 30. |
| XplDevice.NegativeIntervalIsThirty | src/XplDevice.cpp:349-357 | A negative interval wraps to a large `uint32` and becomes 30, not 5. |
| XplDevice.Configure | src/XplDevice.cpp:332-382 | `newconf` renames the instance. `interval` sets the clamped interval. `filter` rebuilds the filters from its values, and without it the filters are cleared. Nothing else changes and the invariant is kept. |
| XplDevice.SetNextHeartbeatTime | src/XplDevice.cpp:577-621 | Offsets are in timestamp units (microseconds), as the code adds them. While waiting for a hub, the next heartbeat is 3000 units away while rapid heartbeats remain, each using one up, and 30000 after that. Otherwise it is 60000 in config mode, and the interval times 60000 once configured. Only the time and the counter change. |
| XplDevice.Beat | src/XplDevice.cpp:938-950 | The heartbeat carries the complete ID, the interval and the version. It is a config heartbeat exactly in config mode. |
| XplDevice.RapidSchedule | src/XplDevice.cpp:589-604 | While waiting, the k-th heartbeat is rapid exactly while k is below the counter. |
| XplDevice.FortyRapidPulses | src/XplDevice.cpp:59-91 | A new device sends exactly 40 rapid heartbeats before switching to the slow rate. |
| XplDevice.Tick | src/XplDevice.cpp:920-964 | After `Init`, once the scheduled time has come, the loop sends the heartbeat of the current mode and schedules the next strictly later. Otherwise nothing happens. |
| XplDevice.TickSpacing | src/XplDevice.cpp:935-950 | Two loop heartbeats are never closer than `FastOffset`, 3000 timestamp units. |
| XplDevice.IsMsgForThisApp | src/XplDevice.cpp:485-568 | A message is admitted exactly when it is not the device's own, is addressed to it by broadcast, complete ID or group, and passes a filter, or there are no filters. Seeing its own message while waiting ends the hub wait and reschedules. |
| XplDevice.GroupMatch | src/XplDevice.cpp:510-546 | Group addressing matches exactly the reference description `InGroup`. |
| XplDevice.GroupTarget | src/XplDevice.cpp:515-546 | "xpl-group.g" addresses the device exactly when g is one of its group values. |
| XplDevice.UndottedTargetRefused | src/XplDevice.cpp:506-523 | A target other than "*" or the complete ID that has no '.' is never admitted. |
| XplDevice.ConfigResponse | src/XplDevice.cpp:658-701 | Every config item takes its non-empty values from the response. The device then configures itself and leaves config mode. It saves, notifies and sends a heartbeat with the new identity, then reschedules; outside the hub wait the next heartbeat is one interval away. Vendor, device, version, filtering and the hub wait are unchanged. |
| XplDevice.Reconfigure | src/XplDevice.cpp:661-687 | The response's values replace the items' values and the device leaves config mode. Vendor, device, version, rapid counter, hub wait and schedule are unchanged, and the invariant is kept. |
| XplDevice.ResponseSetsItem | src/XplDevice.cpp:661-680 | After a response each existing item holds that response's non-empty values for its name. |
| XplDevice.ResponseInterval | src/XplDevice.cpp:346-358 | After a response the interval is the clamped first `interval` value of the response. With no such value it is 5. |
| XplDevice.ResponseRenames | src/XplDevice.cpp:338-342 | A response with a `newconf` value gives the device that instance name. |
| XplDevice.ResponseFilters | src/XplDevice.cpp:363-380 | After a response the filters are the response's non-empty `filter` values. |
| XplDevice.HandleMsgForUs | src/XplDevice.cpp:630-726 | Only commands are handled. A `config.current` or `config.list` request is answered, and so is a `config.response`; these return true. `hbeat.request` sends a heartbeat and reschedules, but returns false. Any other message, including `config.current` or `config.list` without `command=request`, changes nothing and sends nothing. Nothing is published or transmitted. |
| XplDevice.HandleRx | src/XplDevice.cpp:967-999 | A received message is published exactly when filtering is off or the device admits it. An admitted message first goes to `HandleMsgForUs`, on the device as the filter left it. The result is that handler's device, and its actions followed by the publication. A refused message gives the filter's device and no actions. |
| XplDevice.OwnMessageNotDispatched | src/XplDevice.cpp:491-503 | With filtering on, the device's own message is not published, and it ends the hub wait. |
| XplDevice.SendMsg | src/XplDevice.cpp:833-864 | Sending works exactly outside config mode. |
| XplDevice.ConfiguredDeviceSends | src/XplDevice.cpp:658-843 | After a `config.response` the device may send. |
| XplDevice.Init | src/XplDevice.cpp:154-176 | `Init` succeeds exactly once. It loads the store and marks the device initialised. The device is in config mode afterwards exactly when the store has no instance. The invariant and the rapid counter are kept. |
| XplDevice.LoadConfig | src/XplDevice.cpp:209-284 | Without a stored instance the device stays in config mode and nothing else changes. With one, it leaves config mode, and its items are the restored ones when the store lists items. It then configures itself from those items. A `newconf` item sets the instance, otherwise the stored instance is kept. An `interval` item sets the clamped interval. The filters are rebuilt from the `filter` item, or emptied without one. Identity parts, version, schedule and hub wait are unchanged, and the invariant is kept. |
| XplDevice.RestoreEntry | src/XplDevice.cpp:255-272 | A stored entry with a value count appends its present values, in index order, to the item of that name. An entry without a count, or for an unknown name, changes nothing. Names and the number of items are kept. |
| XplDevice.StoredValues | src/XplDevice.cpp:264-270 | At most n values. When all n indices are present they are exactly the stored values, in order. |
| XplDevice.Saved | src/XplDevice.cpp:293-322 | The saved store holds the instance and one entry per item. The `configItems` property is present exactly when there are items. |
| XplDevice.SaveThenLoad | src/XplDevice.cpp:193-322 | Round trip, for a device that loads the file it saved (same complete ID, so the same `ConfigFileName`): loading what was saved into a device that registered the same distinctly named items appends each item's saved values to the values it was registered with. The device leaves config mode, and without a `newconf` item the instance is restored too. |
| XplDevice.SaveThenLoadBlank | src/XplDevice.cpp:193-322 | For a device that loads the file it saved, items registered without values get back exactly the saved values. |
| XplDevice.RenamedSaveMissed | src/XplDevice.cpp:683-686 | A `config.response` whose `newconf` differs from "default" renames the device before the save, so it is saved under a file name other than the one a newly constructed device (instance "default", line 101) of the same vendor and device reads. |
| XplDevice.InstanceNamesFile | src/XplDevice.cpp:193 | Instances that differ after lower-casing give different property file names. |
| XplDevice.DefaultHidesSaved | src/XplDevice.cpp:260-270 | An item registered with the default "1" and saved as "2" reloads as ["1", "2"], so `GetValue()` still reads the default. |
| XplDevice.RestoreAppends | src/XplDevice.cpp:246-272 | Restoring every saved entry appends each item's values to the registered item of the same name, in order. |
| XplDevice.InitCloses | src/XplDevice.cpp:154-402 | After `Init`, neither a second `Init` nor adding a config item succeeds. |
| XplDevice.Apply | src/XplDevice.cpp:154-999 | Each operation keeps the invariant and never increases the rapid counter. The operations are `Init`, receiving, the loop's heartbeat step, adding or removing a config item, and renaming. The invariant is an interval of 5-30 and a complete ID matching the parts. |
| XplDevice.StaysValid | src/XplDevice.cpp:59-999 | Across any sequence of operations, `Init` included, the invariant holds and the rapid counter never grows. So a new device never sends more than 40 rapid heartbeats. |

## Left out

- Classes outside the modelled files: `XplMsgItem`, `XPLAddress`, `xplFilter`, `XplConfigItem`, `PropertyFileConfiguration`, and the communications and UDP layers. The model fixes their observable behaviour:
  - a message item is a name and a list of values. Its `AddValue` appends the pieces `split` cuts the value into. Its indexed `GetValue` gives "" past the last value, and its indexed `SetValue` gives false there and changes nothing;
  - a config item is a name and a list of values. `ClearValues` empties the list, `AddValue` appends one value and `GetValue()` gives the first value or "";
  - the property file is the `Store` value: the instance, whether `configItems` is present, and each entry's value count and present values;
  - a filter's decision is the parameter `allow`;
  - an address's printed form is the parameter `show`;
  - the value splitter is the parameter `split`.
- `assert(0)` in the source is treated as in a release build, so execution continues past it.
- XplMsg.SetSourceAddress, XplMsg.SetTargetAddress: the overloads taking an `XPLAddress` store it as given; its own checks are not part of this model.
- Text is a sequence of `char`, and each `char` stands for one byte of a `std::string`. The 8- and 16-character limits and the sizes `strlen` gives are byte counts.
- Numbers.Atol: reads an optional sign and leading digits. Overflow of `long` is not modelled.
- MsgItems.GetIntValue: text whose number does not fit in 32 bits reads as the number's low 32 bits, as `(int) strtol` does in the usual C libraries. The C standard leaves that case undefined, and overflow of `long` before it is not modelled.
- SplitWidth.SplitLp64: requires the input to be shorter than 2^32 - 1 characters. Beyond that, the 32-bit position wraps in ways this model does not follow.
- WinMsg.GetRawData: `sprintf` stops at a NUL character inside a field. The model assumes fields hold no NUL.
- WinMsg.Create: positions are 32-bit integers in the C++ code. The model does not bound the input length.
- I/O and threads: sockets, the thread start-up, the interrupt event and the sleep in the run loop are out. The heartbeat step of the loop is `XplDevice.Tick`.
- `GetConfigFileLocation` and the reading and writing of the property file: file handling. The file's name is modelled as `XplDevice.ConfigFileName`, the complete ID at the time of the call plus ".conf". `XplDevice.LoadConfig` works on the `Store` read from that file, and `XplDevice.Saved` is the store `SaveConfig` writes to it. The response handler's save appears as the `SaveConfig` action.
- XplDevice.SaveThenLoad: the round trip is stated only for a saving and a loading device with the same complete ID. The property file is chosen by the complete ID at the time of the call. A `config.response` with `newconf` renames the device before `SaveConfig`, so the save goes to the file of the new instance. The next start constructs the instance "default" and reads the file of that name, so the saved configuration is not found. `XplDevice.RenamedSaveMissed` shows this.
- XplDevice.LoadConfig: a `numValues` property that is not a number makes `getInt` throw, and that is not modelled; value counts are natural numbers. Item names containing '.' would not read back as single keys, and the store does not model key parsing.
- XplDevice.SaveThenLoad: the round trip restores the saved values exactly only for items registered without values. `LoadConfig` appends stored values to the registered ones, so an item registered with a default keeps the default first, and `GetValue()` reads it. `XplDevice.DefaultHidesSaved` shows this for "comport". Whether the SDK meant to clear the defaults first is not clear from the code, so the model follows the code.
- `SendConfigList`, `SendConfigCurrent`: the content of these messages is not modelled. They appear as the `ConfigList` and `ConfigCurrent` actions.
- `IsInConfigMode`, `IsWaitingForHub` and the other getters: these are field reads (`configRequired`, `waitingForHub`).
- Time arithmetic: `int64` overflow of the heartbeat time is not modelled, since `now` is unbounded.
- Time units: `SetNextHeartbeatTime` adds the intervals times 1000 to a microsecond timestamp. So the next heartbeat falls 3, 30 or 60 milliseconds ahead, or the interval times 60 milliseconds, where the comments mean seconds and minutes. The run loop passes the microsecond difference to `tryWait`, which reads it as milliseconds, so it sleeps the intended seconds. The event that could cut the wait short is set only on shutdown, so the heartbeats keep the intended spacing. The model keeps the timestamp units the code computes and leaves out the wait.
- The constructor's `bConfigInRegistry` argument and the destructor are out.
- Split: every caller of `StringSplit` in the model uses the intended `StringUtils.Split` (through `StringUtils.SplitParts`), not `SplitWidth.SplitLp64`. Those callers are `WireFormat.ReadNameValuePair`, `XplMsg.SetSource`, `XplMsg.SetTarget`, the schema line in `XplMsg.FromFrame`, `WinMsg.SetSource`, `WinMsg.SetTarget`, the schema line in `WinMsg.FromFrame`, and the group target test in `XplDevice.IsMsgForThisApp`. This is the code's behaviour with a 32-bit `size_t`. With a 64-bit one, text without the delimiter is treated as described under Findings. The Windows SDK's own `StringSplit` is not part of this model and is taken to behave as the intended split.

## Findings

| source | as written | input that shows it | evidently intended | confidence | as-written member | corrected member |
|---|---|---|---|---|---|---|
| src/XplStringUtils.cpp:115-116 | The result of `find_first_of` is cast to `uint32` before the comparison with `string::npos`. With a 64-bit `size_t`, `npos` never equals a `uint32`, so "not found" becomes position 2^32 - 1. The left part is the whole string and the right part starts at the wrapped `pos + 1 = 0`. | "abc" split at '.' returns true with ("abc", "abc"). "acmelamp" as a source then passes the emptiness checks. | Report false when the delimiter is absent. | medium (not executed) | SplitWidth.MissingDelimiterReportsSplit | StringUtils.SplitJoin |

=== FILE: device.dfy ===
/**
 * The device logic of `XplDevice`: identity, the config-item registry,
 * `Configure`, the heartbeat schedule, message admission and the handling
 * of received messages. The device is an immutable record; every member
 * function returns the new record. The current time is a parameter, what
 * the device transmits is returned as a list of `Action`s, and the two
 * collaborators whose code is not part of this model are parameters:
 * `xplFilter::Allow` (`allow`) and `XPLAddress::toString` (`show`).
 */
module XplDevice {
  import opened Wrappers
  import opened StringUtils
  import opened Numbers
  import opened MsgItems
  import XplMsg

  /** The left part of a group target, `xpl-group.<group>`. */
  const XplGroup: string := "xpl-group"

  /** The spacing of rapid heartbeats while no hub has answered, meant as seconds. */
  const RapidFastInterval: nat := 3
  /** How long the rapid heartbeats are meant to last, in seconds. */
  const RapidTimeout: nat := 120
  /** The spacing once the rapid heartbeats are used up, meant as seconds. */
  const RapidSlowInterval: nat := 30
  /** The number of rapid heartbeats: 120 / 3 = 40. */
  const RapidPulses: nat := RapidTimeout / RapidFastInterval

  /**
   * The offsets added to the current time, as the code writes them: the
   * interval constants times 1000. The time is a timestamp in microseconds,
   * so the next heartbeat is 3, 30 or 60 milliseconds ahead (the interval
   * times 60 milliseconds once configured). The run loop's wait reads the
   * difference as milliseconds, which is what spaces the heartbeats in
   * seconds; that wait is not part of this model.
   */
  const FastOffset: int := RapidFastInterval * 1000
  const SlowOffset: int := RapidSlowInterval * 1000
  const ConfigModeOffset: int := 60 * 1000

  function NormalOffset(interval: uint32): int {
    interval * 60 * 1000
  }

  /**
   * An `XplConfigItem`, as far as the device uses it: a name and a list of
   * values, the same shape as a message item. `ClearValues` empties the
   * list and `AddValue` appends one value.
   */
  type ConfigItem = Item

  /** An `xplFilter`, built from one value of the `filter` config item. */
  datatype Filter = Filter(text: string)

  /** `xplFilter::Allow`. */
  type Allow = (Filter, XplMsg.Msg) -> bool

  /**
   * What the device hands to the communications layer or to its observers.
   * `ConfigCurrent` and `ConfigList` stand for the `config.current` and
   * `config.list` messages; `Publish` is the re-posting of a received
   * message to the application.
   */
  datatype Action =
    | Heartbeat(id: string, interval: uint32, version: string)
    | ConfigHeartbeat(id: string, interval: uint32, version: string)
    | ConfigCurrent
    | ConfigList
    | SaveConfig
    | ConfigNotice
    | Transmit(msg: XplMsg.Msg)
    | Publish(msg: XplMsg.Msg)

  /** The fields of an `XplDevice` that its logic reads or writes. */
  datatype Device = Device(
    vendorId: string,
    deviceId: string,
    instanceId: string,
    completeId: string,
    version: string,
    nextHeartbeat: int,
    heartbeatInterval: uint32,
    rapidCounter: uint32,
    waitingForHub: bool,
    configRequired: bool,
    configItems: seq<ConfigItem>,
    filters: seq<Filter>,
    filterMsgs: bool,
    initialised: bool)

  // ----- Identity ----------------------------------------------------------------------

  /** The complete ID: `vendor-device.instance`, lower-cased as a whole. */
  function CompleteIdOf(vendor: string, device: string, instance: string): (r: string)
    ensures IsLower(r)
  {
    LowerIsLower(XplMsg.AddressText(vendor, device, instance));
    Lower(XplMsg.AddressText(vendor, device, instance))
  }

  /**
   * The state every operation keeps: the interval within [5, 30], the rapid
   * counter at most its starting value, and the complete ID in step with
   * its three parts.
   */
  predicate Valid(d: Device) {
    && 5 <= d.heartbeatInterval <= 30
    && d.rapidCounter <= RapidPulses
    && d.completeId == CompleteIdOf(d.vendorId, d.deviceId, d.instanceId)
  }

  /** `SetCompleteId`. */
  function SetCompleteId(d: Device): (r: Device)
    ensures IsLower(r.completeId)
    ensures r == d.(completeId := CompleteIdOf(d.vendorId, d.deviceId, d.instanceId))
  {
    d.(completeId := CompleteIdOf(d.vendorId, d.deviceId, d.instanceId))
  }

  /** `SetInstanceId`: the instance is stored as given; the complete ID follows it. */
  function SetInstanceId(d: Device, instance: string): (r: Device)
    ensures r.instanceId == instance && IsLower(r.completeId)
    ensures r == d.(instanceId := instance, completeId := r.completeId)
    ensures Valid(d) ==> Valid(r)
  {
    SetCompleteId(d.(instanceId := instance))
  }

  /**
   * The constructor: vendor and device lower-cased, instance "default",
   * config mode, waiting for a hub with all 40 rapid heartbeats to come, a
   * five-minute interval and no config items or filters.
   */
  function New(vendor: string, device: string, version: string, filterMsgs: bool): (r: Device)
    ensures Valid(r)
    ensures r.vendorId == Lower(vendor) && r.deviceId == Lower(device) && r.instanceId == "default"
    ensures r.configRequired && r.waitingForHub && !r.initialised
    ensures r.rapidCounter == 40 && r.heartbeatInterval == 5 && r.nextHeartbeat == 0
    ensures r.configItems == [] && r.filters == []
  {
    SetCompleteId(Device(Lower(vendor), Lower(device), "default", [], version,
                         0, 5, RapidPulses as uint32, true, true, [], [], filterMsgs, false))
  }

  /**
   * The complete ID is an address `SetSource` accepts, and it stores back the
   * device's own vendor, device and instance (lower-cased).
   */
  lemma CompleteIdIsSource(d: Device, m: XplMsg.Msg)
    requires Valid(d)
    requires XplMsg.IsAddressParts(d.vendorId, d.deviceId, Lower(d.instanceId), 8)
    requires IsLower(d.vendorId) && IsLower(d.deviceId)
    ensures XplMsg.SetSource(m, d.completeId)
      == (true, m.(source := XplMsg.Address(d.vendorId, d.deviceId, Lower(d.instanceId), m.source.bcast)))
  {
    var v, dv, i := d.vendorId, d.deviceId, d.instanceId;
    LowerAddressText(v, dv, i);
    LowerOfLower(v);
    LowerOfLower(dv);
    LowerIsLower(i);
    LowerOfLower(Lower(i));
    assert d.completeId == XplMsg.AddressText(v, dv, Lower(i));
    XplMsg.SetSourceOfParts(m, v, dv, Lower(i));
  }

  /** Lower-casing an address lower-cases each part; the separators are unchanged. */
  lemma LowerAddressText(v: string, dv: string, i: string)
    ensures Lower(XplMsg.AddressText(v, dv, i)) == XplMsg.AddressText(Lower(v), Lower(dv), Lower(i))
  {
    LowerConcat(v + "-" + dv + ".", i);
    LowerConcat(v + "-" + dv, ".");
    LowerConcat(v + "-", dv);
    LowerConcat(v, "-");
    SeparatorsLower();
  }

  lemma SeparatorsLower()
    ensures Lower("-") == "-" && Lower(".") == "."
  {
    assert LowerChar('-') == '-' && LowerChar('.') == '.';
  }

  // ----- The config-item registry ----------------------------------------------------

  /** `GetConfigItem`: the item called `name`, or NULL. */
  function GetConfigItem(items: seq<ConfigItem>, name: string): (r: Option<ConfigItem>)
    ensures r.None? <==> forall j | 0 <= j < |items| :: items[j].name != name
    ensures r.Some? ==> r.value.name == name && r.value in items
  {
    match FindExact(items, name)
    case None => None
    case Some(i) => Some(items[i])
  }

  /** No two config items share a name. */
  predicate DistinctNames(items: seq<ConfigItem>) {
    forall j, k | 0 <= j < k < |items| :: items[j].name != items[k].name
  }

  /**
   * `AddConfigItem`: refused once the device is initialised, and refused
   * for a name already registered; otherwise appended.
   */
  function AddConfigItem(d: Device, item: ConfigItem): (r: (bool, Device))
    ensures r.0 <==> !d.initialised && forall j | 0 <= j < |d.configItems| :: d.configItems[j].name != item.name
    ensures r.0 ==> r.1 == d.(configItems := d.configItems + [item])
    ensures !r.0 ==> r.1 == d
    ensures DistinctNames(d.configItems) ==> DistinctNames(r.1.configItems)
  {
    if d.initialised then (false, d)
    else if GetConfigItem(d.configItems, item.name).Some? then (false, d)
    else (true, d.(configItems := d.configItems + [item]))
  }

  /** `RemoveConfigItem`: the first item with the name is erased; false when there is none. */
  function RemoveConfigItem(d: Device, name: string): (r: (bool, Device))
    ensures r.0 <==> exists j | 0 <= j < |d.configItems| :: d.configItems[j].name == name
    ensures !r.0 ==> r.1 == d
    ensures r.0 ==> r.1 == d.(configItems := r.1.configItems) && |r.1.configItems| == |d.configItems| - 1
    ensures r.0 ==> var i := FindExact(d.configItems, name).value;
      r.1.configItems == d.configItems[..i] + d.configItems[i + 1..]
    ensures DistinctNames(d.configItems) ==> DistinctNames(r.1.configItems)
    ensures DistinctNames(d.configItems) ==> GetConfigItem(r.1.configItems, name).None?
  {
    match FindExact(d.configItems, name)
    case None => (false, d)
    case Some(i) =>
      EraseKeepsDistinct(d.configItems, i);
      (true, d.(configItems := EraseAt(d.configItems, i)))
  }

  /** The list without its element at `i`. */
  function EraseAt(items: seq<ConfigItem>, i: nat): (r: seq<ConfigItem>)
    requires i < |items|
    ensures r == items[..i] + items[i + 1..]
    ensures |r| == |items| - 1
    ensures forall j | 0 <= j < |r| :: r[j] == items[if j < i then j else j + 1]
  {
    items[..i] + items[i + 1..]
  }

  /** Erasing from a list of distinct names keeps them distinct and drops the erased name. */
  lemma EraseKeepsDistinct(items: seq<ConfigItem>, i: nat)
    requires i < |items|
    ensures DistinctNames(items) ==> DistinctNames(EraseAt(items, i))
    ensures DistinctNames(items) ==>
      forall j | 0 <= j < |EraseAt(items, i)| :: EraseAt(items, i)[j].name != items[i].name
  {
    if DistinctNames(items) {
      var r := EraseAt(items, i);
      forall j, k | 0 <= j < k < |r|
        ensures r[j].name != r[k].name
      {
        assert r[j] == items[if j < i then j else j + 1];
        assert r[k] == items[if k < i then k else k + 1];
      }
    }
  }

  /** A registered item is found again under its name. */
  lemma AddThenGet(d: Device, item: ConfigItem)
    requires AddConfigItem(d, item).0
    ensures GetConfigItem(AddConfigItem(d, item).1.configItems, item.name) == Some(item)
  {
    var items := d.configItems + [item];
    assert FindExact(items, item.name) == Some(|d.configItems|) by {
      FindExactAppend(d.configItems, item, item.name);
    }
  }

  /** Removing the item just registered gives back the registry as it was. */
  lemma AddThenRemove(d: Device, item: ConfigItem)
    requires AddConfigItem(d, item).0
    ensures RemoveConfigItem(AddConfigItem(d, item).1, item.name) == (true, d)
  {
    var items := d.configItems + [item];
    FindExactAppend(d.configItems, item, item.name);
    assert items[..|d.configItems|] + items[|d.configItems| + 1..] == d.configItems;
  }


  // ----- Configure ---------------------------------------------------------------------

  /** `XplConfigItem::GetValue()`: the first value, "" when there is none. */
  function FirstValue(item: ConfigItem): string {
    if |item.values| > 0 then item.values[0] else ""
  }

  /** The distance between two numbers. */
  function Dist(a: int, b: int): nat {
    if a <= b then b - a else a - b
  }

  /** The closest interval in [5, 30]. */
  function ClampInterval(n: uint32): (r: uint32)
    ensures 5 <= r <= 30
    ensures forall k: int | 5 <= k <= 30 :: Dist(r, n) <= Dist(k, n)
    ensures 5 <= n <= 30 ==> r == n
    ensures n < 5 ==> r == 5
    ensures n > 30 ==> r == 30
  {
    if n < 5 then 5 else if n > 30 then 30 else n
  }

  /** The interval `Configure` takes from a value: `atol`, stored in a `uint32`, then clamped. */
  function IntervalOf(value: string): (r: uint32)
    ensures 5 <= r <= 30
    ensures ToUint32(Atol(value)) < 5 ==> r == 5
    ensures ToUint32(Atol(value)) > 30 ==> r == 30
    ensures 5 <= Atol(value) <= 30 ==> r == Atol(value)
    ensures 0 <= Atol(value) < 5 ==> r == 5
    ensures 30 < Atol(value) < 0x1_0000_0000 ==> r == 30
    ensures -0x1_0000_0000 + 31 <= Atol(value) < 0 ==> r == 30
  {
    ClampInterval(ToUint32(Atol(value)))
  }

  /** One filter per value, in order. */
  function FiltersOf(values: seq<string>): (r: seq<Filter>)
    ensures |r| == |values|
    ensures forall k | 0 <= k < |values| :: r[k].text == values[k]
    decreases |values|
  {
    if |values| == 0 then [] else [Filter(values[0])] + FiltersOf(values[1..])
  }

  /** The `newconf` step of `Configure`: its value becomes the instance. */
  function AdoptInstance(d: Device): (r: Device)
    ensures r == d.(instanceId := r.instanceId, completeId := r.completeId)
    ensures GetConfigItem(d.configItems, "newconf").None? ==> r == d
    ensures GetConfigItem(d.configItems, "newconf").Some? ==>
      r == SetInstanceId(d, FirstValue(GetConfigItem(d.configItems, "newconf").value))
    ensures Valid(d) ==> Valid(r)
  {
    match GetConfigItem(d.configItems, "newconf")
    case None => d
    case Some(item) => SetInstanceId(d, FirstValue(item))
  }

  /** The `interval` step of `Configure`. */
  function AdoptInterval(d: Device): (r: Device)
    ensures r == d.(heartbeatInterval := r.heartbeatInterval)
    ensures GetConfigItem(d.configItems, "interval").None? ==> r == d
    ensures GetConfigItem(d.configItems, "interval").Some? ==>
      r.heartbeatInterval == IntervalOf(FirstValue(GetConfigItem(d.configItems, "interval").value))
    ensures Valid(d) ==> Valid(r)
  {
    match GetConfigItem(d.configItems, "interval")
    case None => d
    case Some(item) => d.(heartbeatInterval := IntervalOf(FirstValue(item)))
  }

  /** The filter step of `Configure`: the old filters are dropped, one new filter per value. */
  function RebuildFilters(d: Device): (r: Device)
    ensures r == d.(filters := r.filters)
    ensures GetConfigItem(d.configItems, "filter").None? ==> r.filters == []
    ensures GetConfigItem(d.configItems, "filter").Some? ==>
      var values := GetConfigItem(d.configItems, "filter").value.values;
      |r.filters| == |values| && forall k | 0 <= k < |values| :: r.filters[k] == Filter(values[k])
  {
    match GetConfigItem(d.configItems, "filter")
    case None => d.(filters := [])
    case Some(item) => d.(filters := FiltersOf(item.values))
  }

  /**
   * `Configure`: a `newconf` item sets the instance, an `interval` item the
   * heartbeat interval, and the filters are rebuilt from the `filter` item.
   */
  function Configure(d: Device): (r: Device)
    ensures r == d.(instanceId := r.instanceId, completeId := r.completeId,
                    heartbeatInterval := r.heartbeatInterval, filters := r.filters)
    ensures GetConfigItem(d.configItems, "newconf").None? ==> r.instanceId == d.instanceId && r.completeId == d.completeId
    ensures GetConfigItem(d.configItems, "newconf").Some? ==>
      r.instanceId == FirstValue(GetConfigItem(d.configItems, "newconf").value)
      && r.completeId == CompleteIdOf(d.vendorId, d.deviceId, r.instanceId)
    ensures GetConfigItem(d.configItems, "interval").None? ==> r.heartbeatInterval == d.heartbeatInterval
    ensures GetConfigItem(d.configItems, "interval").Some? ==>
      r.heartbeatInterval == IntervalOf(FirstValue(GetConfigItem(d.configItems, "interval").value))
    ensures GetConfigItem(d.configItems, "filter").None? ==> r.filters == []
    ensures GetConfigItem(d.configItems, "filter").Some? ==>
      var values := GetConfigItem(d.configItems, "filter").value.values;
      |r.filters| == |values| && forall k | 0 <= k < |values| :: r.filters[k] == Filter(values[k])
    ensures Valid(d) ==> Valid(r)
  {
    var d1 := AdoptInstance(d);
    var d2 := AdoptInterval(d1);
    assert d2.configItems == d1.configItems == d.configItems;
    RebuildFilters(d2)
  }

  /**
   * A negative interval does not become 5: stored in a `uint32` it wraps to
   * a large number, which is clamped to 30.
   */
  lemma NegativeIntervalIsThirty(value: string)
    requires -0x1_0000_0000 + 31 <= Atol(value) < 0
    ensures IntervalOf(value) == 30
  {
  }

  // ----- Heartbeat schedule ------------------------------------------------------------

  /**
   * `SetNextHeartbeatTime`: while waiting for a hub, a rapid heartbeat as
   * long as the counter lasts (each one uses it up), then the slow rate;
   * otherwise the config-mode offset, and the interval's offset once
   * configured. All offsets are in timestamp units (microseconds).
   */
  function SetNextHeartbeatTime(d: Device, now: int): (r: Device)
    ensures r == d.(nextHeartbeat := r.nextHeartbeat, rapidCounter := r.rapidCounter)
    ensures r.rapidCounter <= d.rapidCounter
    ensures r.rapidCounter < d.rapidCounter <==> d.waitingForHub && r.nextHeartbeat == now + FastOffset
    ensures d.waitingForHub ==> r.nextHeartbeat == now + FastOffset || r.nextHeartbeat == now + SlowOffset
    ensures d.waitingForHub && d.rapidCounter != 0 ==>
      r == d.(rapidCounter := d.rapidCounter - 1, nextHeartbeat := now + FastOffset)
    ensures d.waitingForHub && d.rapidCounter == 0 ==> r == d.(nextHeartbeat := now + SlowOffset)
    ensures !d.waitingForHub ==> r.nextHeartbeat == now + (if d.configRequired then ConfigModeOffset else NormalOffset(d.heartbeatInterval))
    ensures Valid(d) ==> now + FastOffset <= r.nextHeartbeat <= now + NormalOffset(30) && Valid(r)
  {
    if d.waitingForHub then
      if d.rapidCounter != 0 then
        d.(rapidCounter := d.rapidCounter - 1, nextHeartbeat := now + FastOffset)
      else
        d.(nextHeartbeat := now + SlowOffset)
    else if d.configRequired then
      d.(nextHeartbeat := now + ConfigModeOffset)
    else
      d.(nextHeartbeat := now + NormalOffset(d.heartbeatInterval))
  }

  /** The heartbeat of the device's current mode: a config heartbeat until it is configured. */
  function Beat(d: Device): (a: Action)
    ensures (a.Heartbeat? || a.ConfigHeartbeat?) && (a.ConfigHeartbeat? <==> d.configRequired)
    ensures a.id == d.completeId && a.interval == d.heartbeatInterval && a.version == d.version
  {
    if d.configRequired then ConfigHeartbeat(d.completeId, d.heartbeatInterval, d.version)
    else Heartbeat(d.completeId, d.heartbeatInterval, d.version)
  }

  /**
   * One pass of the device thread's loop at time `now`: once the scheduled
   * time has come, the heartbeat of the current mode goes out and the next
   * one is scheduled. The loop does nothing before `Init`.
   */
  function Tick(d: Device, now: int): (r: (Device, seq<Action>))
    ensures r.1 != [] <==> d.initialised && d.nextHeartbeat <= now
    ensures r.1 != [] ==> r.1 == [Beat(d)] && r.0 == SetNextHeartbeatTime(d, now)
    ensures r.1 == [] ==> r.0 == d
    ensures Valid(d) ==> Valid(r.0)
    ensures Valid(d) && r.1 != [] ==> now < r.0.nextHeartbeat
  {
    if d.initialised && d.nextHeartbeat <= now then (SetNextHeartbeatTime(d, now), [Beat(d)])
    else (d, [])
  }

  /** Two heartbeats from the loop are never closer together than `FastOffset` timestamp units. */
  lemma TickSpacing(d: Device, now: int, later: int)
    requires Valid(d) && Tick(d, now).1 != []
    requires later < now + FastOffset
    ensures Tick(Tick(d, now).0, later).1 == []
  {
  }

  /** The heartbeat times chosen by successive calls at the given times, with nothing else in between. */
  function Pulses(d: Device, times: seq<int>): (r: seq<int>)
    ensures |r| == |times|
    decreases |times|
  {
    if |times| == 0 then []
    else
      var d1 := SetNextHeartbeatTime(d, times[0]);
      [d1.nextHeartbeat] + Pulses(d1, times[1..])
  }

  /** While waiting for a hub, the first `rapidCounter` calls are rapid and every later one slow. */
  lemma {:induction false} RapidSchedule(d: Device, times: seq<int>)
    requires d.waitingForHub
    ensures forall k | 0 <= k < |times| ::
      Pulses(d, times)[k] == times[k] + (if k < d.rapidCounter then FastOffset else SlowOffset)
    decreases |times|
  {
    if |times| > 0 {
      var d1 := SetNextHeartbeatTime(d, times[0]);
      RapidSchedule(d1, times[1..]);
      forall k | 1 <= k < |times|
        ensures Pulses(d, times)[k] == times[k] + (if k < d.rapidCounter then FastOffset else SlowOffset)
      {
        assert Pulses(d, times)[k] == Pulses(d1, times[1..])[k - 1];
        assert times[1..][k - 1] == times[k];
      }
    }
  }

  /** A new device sends exactly 40 rapid heartbeats before the first slow one. */
  lemma FortyRapidPulses(vendor: string, device: string, version: string, filterMsgs: bool, times: seq<int>)
    ensures forall k | 0 <= k < |times| ::
      (Pulses(New(vendor, device, version, filterMsgs), times)[k] == times[k] + FastOffset <==> k < 40)
  {
    RapidSchedule(New(vendor, device, version, filterMsgs), times);
  }

  // ----- Admission -----------------------------------------------------------------------

  /** The index of the first filter that allows `m`; `|filters|` when none does. */
  function FirstAllowing(filters: seq<Filter>, m: XplMsg.Msg, allow: Allow): (i: nat)
    ensures i <= |filters|
    ensures forall j | 0 <= j < i :: !allow(filters[j], m)
    ensures i < |filters| ==> allow(filters[i], m)
    decreases |filters|
  {
    if |filters| == 0 then 0
    else if allow(filters[0], m) then 0
    else 1 + FirstAllowing(filters[1..], m, allow)
  }

  /** The index of `v` among `values`; `|values|` when it is absent. */
  function IndexOfValue(values: seq<string>, v: string): (i: nat)
    ensures i <= |values|
    ensures i < |values| <==> v in values
    decreases |values|
  {
    if |values| == 0 then 0
    else if values[0] == v then 0
    else 1 + IndexOfValue(values[1..], v)
  }

  /** A target of the form `xpl-group.<group>` with `group` among the values of the `group` item. */
  predicate InGroup(d: Device, target: string) {
    var (left, group) := SplitParts(target, '.');
    && left == XplGroup
    && GetConfigItem(d.configItems, "group").Some?
    && group in GetConfigItem(d.configItems, "group").value.values
  }

  /** The targets the device answers to: all devices, itself, or one of its groups. */
  predicate Addressed(d: Device, target: string) {
    target == "*" || target == d.completeId || InGroup(d, target)
  }

  /** With no filters everything passes; otherwise some filter must allow the message. */
  predicate Passes(filters: seq<Filter>, m: XplMsg.Msg, allow: Allow) {
    filters == [] || exists k | 0 <= k < |filters| :: allow(filters[k], m)
  }

  /**
   * `IsMsgForThisApp`. A message from the device itself is refused; the
   * first one seen while waiting for a hub ends the wait and reschedules
   * the heartbeat. Any other message must be addressed to the device and
   * pass the filters.
   */
  function IsMsgForThisApp(d: Device, m: XplMsg.Msg, now: int, show: XplMsg.Show, allow: Allow): (r: (bool, Device))
    ensures r.0 <==> show(m.source) != d.completeId && Addressed(d, show(m.target)) && Passes(d.filters, m, allow)
    ensures show(m.source) == d.completeId && d.waitingForHub ==>
      r.1 == SetNextHeartbeatTime(d.(waitingForHub := false), now)
    ensures !(show(m.source) == d.completeId && d.waitingForHub) ==> r.1 == d
  {
    if show(m.source) == d.completeId then
      if d.waitingForHub then (false, SetNextHeartbeatTime(d.(waitingForHub := false), now))
      else (false, d)
    else
      var target := show(m.target);
      if target != "*" && target != d.completeId && !GroupMatch(d, target) then (false, d)
      else
        var i := FirstAllowing(d.filters, m, allow);
        if i != 0 && i == |d.filters| then (false, d) else (true, d)
  }

  /** The group test of `IsMsgForThisApp`, step by step as the code takes it. */
  function GroupMatch(d: Device, target: string): (r: bool)
    ensures r <==> InGroup(d, target)
  {
    var (left, group) := SplitParts(target, '.');
    if left != XplGroup then false
    else match GetConfigItem(d.configItems, "group")
      case None => false
      case Some(item) => IndexOfValue(item.values, group) != |item.values|
  }

  /** `xpl-group.<g>` names the group `g`, for a trimmed `g`. */
  lemma GroupTarget(d: Device, g: string)
    requires IsTrimmed(g)
    ensures InGroup(d, XplGroup + "." + g) <==>
      GetConfigItem(d.configItems, "group").Some? && g in GetConfigItem(d.configItems, "group").value.values
  {
    GroupIsLineText();
    assert XplGroup + "." + g == XplGroup + ['.'] + g;
    SplitJoin(XplGroup, '.', g);
  }

  lemma GroupIsLineText()
    ensures '.' !in XplGroup && IsTrimmed(XplGroup)
  {
    assert XplGroup == ['x', 'p', 'l', '-', 'g', 'r', 'o', 'u', 'p'];
  }

  /** A target that is not "*" or the device, and has no '.', is refused. */
  lemma UndottedTargetRefused(d: Device, m: XplMsg.Msg, now: int, show: XplMsg.Show, allow: Allow)
    requires show(m.target) != "*" && show(m.target) != d.completeId && '.' !in show(m.target)
    ensures !IsMsgForThisApp(d, m, now, show, allow).0
  {
    GroupIsLineText();
  }

  // ----- Handling received messages --------------------------------------------------

  /** The values of a list that are not empty, in order. */
  function NonEmpty(values: seq<string>): (r: seq<string>)
    ensures |r| <= |values|
    ensures forall k | 0 <= k < |r| :: r[k] != []
    ensures forall v :: v in r <==> v in values && v != []
    ensures (forall k | 0 <= k < |values| :: values[k] != []) ==> r == values
    decreases |values|
  {
    if |values| == 0 then []
    else if values[0] == [] then NonEmpty(values[1..])
    else [values[0]] + NonEmpty(values[1..])
  }

  /** The values a `config.response` gives the config item called `name`. */
  function ResponseValues(m: XplMsg.Msg, name: string): seq<string> {
    match GetMsgItem(m.items, name)
    case None => []
    case Some(item) => NonEmpty(item.values)
  }

  /** Every config item cleared, then refilled from the message item of the same name. */
  function Refill(items: seq<ConfigItem>, m: XplMsg.Msg): (r: seq<ConfigItem>)
    ensures |r| == |items|
    ensures forall k | 0 <= k < |items| :: r[k] == Item(items[k].name, ResponseValues(m, items[k].name))
    decreases |items|
  {
    if |items| == 0 then []
    else [Item(items[0].name, ResponseValues(m, items[0].name))] + Refill(items[1..], m)
  }

  /**
   * The `config.response` branch of `HandleMsgForUs`: refill the items,
   * configure, save, leave config mode, notify, send a heartbeat and
   * reschedule.
   */
  function ConfigResponse(d: Device, m: XplMsg.Msg, now: int): (r: (Device, seq<Action>))
    ensures !r.0.configRequired
    ensures |r.0.configItems| == |d.configItems|
    ensures forall k | 0 <= k < |d.configItems| ::
      r.0.configItems[k] == Item(d.configItems[k].name, ResponseValues(m, d.configItems[k].name))
    ensures r.1 == [SaveConfig, ConfigNotice, Heartbeat(r.0.completeId, r.0.heartbeatInterval, d.version)]
    ensures forall a | a in r.1 :: !a.Publish? && !a.Transmit?
    ensures r.0 == SetNextHeartbeatTime(Reconfigure(d, m), now)
    ensures !d.waitingForHub ==> r.0.nextHeartbeat == now + NormalOffset(r.0.heartbeatInterval)
    ensures r.0.vendorId == d.vendorId && r.0.deviceId == d.deviceId && r.0.version == d.version
    ensures r.0.filterMsgs == d.filterMsgs && r.0.waitingForHub == d.waitingForHub && r.0.initialised == d.initialised
    ensures Valid(d) ==> Valid(r.0)
    ensures r.0.rapidCounter <= d.rapidCounter
  {
    var d2 := Reconfigure(d, m);
    var d3 := SetNextHeartbeatTime(d2, now);
    (d3, [SaveConfig, ConfigNotice, Heartbeat(d2.completeId, d2.heartbeatInterval, d2.version)])
  }

  /** The device state after a response's values are stored and `Configure` has run, out of config mode. */
  function Reconfigure(d: Device, m: XplMsg.Msg): (r: Device)
    ensures r.configItems == Refill(d.configItems, m)
    ensures !r.configRequired
    ensures r.version == d.version && r.rapidCounter == d.rapidCounter && r.waitingForHub == d.waitingForHub
    ensures r.vendorId == d.vendorId && r.deviceId == d.deviceId && r.filterMsgs == d.filterMsgs
    ensures r.nextHeartbeat == d.nextHeartbeat && r.initialised == d.initialised
    ensures Valid(d) ==> Valid(r)
  {
    var d0 := d.(configItems := Refill(d.configItems, m));
    assert Valid(d) ==> Valid(d0);
    Configure(d0).(configRequired := false)
  }

  /**
   * After a `config.response`, looking a registered item up gives exactly
   * the non-empty values the message carried under that name, in order.
   */
  lemma ResponseSetsItem(d: Device, m: XplMsg.Msg, now: int, name: string)
    requires GetConfigItem(d.configItems, name).Some?
    ensures GetConfigItem(ConfigResponse(d, m, now).0.configItems, name) == Some(Item(name, ResponseValues(m, name)))
  {
    var items := ConfigResponse(d, m, now).0.configItems;
    FindExactSameNames(d.configItems, items, name);
  }


  /**
   * A `config.response` that carries a value for a registered `newconf`
   * item renames the device, and the heartbeat it sends already carries the
   * new complete ID.
   */
  lemma ResponseRenames(d: Device, m: XplMsg.Msg, now: int)
    requires GetConfigItem(d.configItems, "newconf").Some? && ResponseValues(m, "newconf") != []
    ensures var (d1, acts) := ConfigResponse(d, m, now);
      && d1.instanceId == ResponseValues(m, "newconf")[0]
      && acts[2].id == CompleteIdOf(d.vendorId, d.deviceId, d1.instanceId)
  {
    ResponseSetsItem(d, m, now, "newconf");
  }

  /**
   * A `config.response` for a device with an `interval` item sets the
   * interval from the first non-empty `interval` value of the message,
   * clamped to [5, 30]; with no such value the empty text reads as 0 and
   * the interval becomes 5.
   */
  lemma ResponseInterval(d: Device, m: XplMsg.Msg, now: int)
    requires GetConfigItem(d.configItems, "interval").Some?
    ensures var vs := ResponseValues(m, "interval");
      ConfigResponse(d, m, now).0.heartbeatInterval == IntervalOf(if vs == [] then "" else vs[0])
    ensures ResponseValues(m, "interval") == [] ==> ConfigResponse(d, m, now).0.heartbeatInterval == 5
  {
    ResponseSetsItem(d, m, now, "interval");
  }

  /**
   * A `config.response` for a device with a `filter` item leaves one filter
   * per non-empty `filter` value of the message, in order.
   */
  lemma ResponseFilters(d: Device, m: XplMsg.Msg, now: int)
    requires GetConfigItem(d.configItems, "filter").Some?
    ensures var filters := ConfigResponse(d, m, now).0.filters;
      && |filters| == |ResponseValues(m, "filter")|
      && forall k | 0 <= k < |filters| :: filters[k] == Filter(ResponseValues(m, "filter")[k])
  {
    ResponseSetsItem(d, m, now, "filter");
  }

  lemma SchemaNamesDiffer()
    ensures "config" != "hbeat"
    ensures "current" != "list" && "current" != "response" && "list" != "response"
    ensures "current" != "request" && "list" != "request" && "response" != "request"
  {
    assert "config"[0] != "hbeat"[0];
    assert "current"[0] != "list"[0] && "current"[0] != "response"[0] && "list"[0] != "response"[0];
    assert "current"[0] != "request"[0] && "list"[0] != "request"[0] && "response"[2] != "request"[2];
  }

  /** An `xpl-cmnd` message of the given schema. */
  predicate IsCommand(m: XplMsg.Msg, schemaClass: string, schemaType: string) {
    m.msgType == "xpl-cmnd" && m.schemaClass == schemaClass && m.schemaType == schemaType
  }

  /** The `command` value of a request, compared without case. */
  predicate IsRequest(m: XplMsg.Msg) {
    Lower(GetValue(m.items, "command", 0)) == "request"
  }

  /**
   * `HandleMsgForUs`: `config.current` and `config.list` requests are
   * answered, a `config.response` configures the device, and an
   * `hbeat.request` is answered with a heartbeat of the current kind. The
   * result is true for the three config messages it answers, and false for
   * everything else, the heartbeat request included.
   */
  function HandleMsgForUs(d: Device, m: XplMsg.Msg, now: int): (r: (bool, Device, seq<Action>))
    ensures r.0 <==>
      || (IsCommand(m, "config", "current") && IsRequest(m))
      || (IsCommand(m, "config", "list") && IsRequest(m))
      || IsCommand(m, "config", "response")
    ensures IsCommand(m, "config", "current") && IsRequest(m) ==> r == (true, d, [ConfigCurrent])
    ensures IsCommand(m, "config", "list") && IsRequest(m) ==> r == (true, d, [ConfigList])
    ensures IsCommand(m, "config", "response") ==> (r.1, r.2) == ConfigResponse(d, m, now)
    ensures IsCommand(m, "hbeat", "request") ==>
      && r.1 == SetNextHeartbeatTime(d, now)
      && r.2 == [Beat(d)]
    ensures m.msgType != "xpl-cmnd" ==> r == (false, d, [])
    ensures !r.0 && !IsCommand(m, "hbeat", "request") ==> r == (false, d, [])
    ensures forall a | a in r.2 :: !a.Publish? && !a.Transmit?
    ensures Valid(d) ==> Valid(r.1)
    ensures r.1.rapidCounter <= d.rapidCounter
  {
    SchemaNamesDiffer();
    if m.msgType == "xpl-cmnd" then
      if m.schemaClass == "config" then
        if m.schemaType == "current" then
          if IsRequest(m) then (true, d, [ConfigCurrent]) else (false, d, [])
        else if m.schemaType == "list" then
          if IsRequest(m) then (true, d, [ConfigList]) else (false, d, [])
        else if m.schemaType == "response" then
          var (d1, acts) := ConfigResponse(d, m, now);
          (true, d1, acts)
        else (false, d, [])
      else if m.schemaClass == "hbeat" && m.schemaType == "request" then
        (false, SetNextHeartbeatTime(d, now), [Beat(d)])
      else (false, d, [])
    else (false, d, [])
  }

  /**
   * `HandleRx`: with filtering off every message is dispatched; with it on,
   * only those `IsMsgForThisApp` admits. A dispatched message goes to
   * `HandleMsgForUs` and is then published, whatever that returned.
   */
  function HandleRx(d: Device, m: Option<XplMsg.Msg>, now: int, show: XplMsg.Show, allow: Allow): (r: (Device, seq<Action>))
    ensures m.None? ==> r == (d, [])
    ensures m.Some? ==>
      (Publish(m.value) in r.1 <==> !d.filterMsgs || IsMsgForThisApp(d, m.value, now, show, allow).0)
    ensures r.1 != [] ==> m.Some? && r.1[|r.1| - 1] == Publish(m.value)
    ensures forall k | 0 <= k < |r.1| - 1 :: !r.1[k].Publish?
    ensures m.Some? ==>
      var (admitted, d1) := if !d.filterMsgs then (true, d) else IsMsgForThisApp(d, m.value, now, show, allow);
      && (admitted ==> r == (HandleMsgForUs(d1, m.value, now).1, HandleMsgForUs(d1, m.value, now).2 + [Publish(m.value)]))
      && (!admitted ==> r == (d1, []))
    ensures Valid(d) ==> Valid(r.0)
    ensures r.0.rapidCounter <= d.rapidCounter
  {
    match m
    case None => (d, [])
    case Some(msg) =>
      var (admitted, d1) := if !d.filterMsgs then (true, d) else IsMsgForThisApp(d, msg, now, show, allow);
      if admitted then
        var (_, d2, acts) := HandleMsgForUs(d1, msg, now);
        (d2, acts + [Publish(msg)])
      else (d1, [])
  }

  /** With filtering on, the device's own messages are never dispatched. */
  lemma OwnMessageNotDispatched(d: Device, m: XplMsg.Msg, now: int, show: XplMsg.Show, allow: Allow)
    requires d.filterMsgs && show(m.source) == d.completeId
    ensures HandleRx(d, Some(m), now, show, allow).1 == []
    ensures d.waitingForHub ==> !HandleRx(d, Some(m), now, show, allow).0.waitingForHub
  {
  }

  // ----- Sending and initialisation --------------------------------------------------

  /** `SendMsg`: refused in config mode, otherwise transmitted at once. */
  function SendMsg(d: Device, m: XplMsg.Msg): (r: (bool, seq<Action>))
    ensures r.0 <==> !d.configRequired
    ensures r.1 == if r.0 then [Transmit(m)] else []
  {
    if d.configRequired then (false, []) else (true, [Transmit(m)])
  }

  /** Once a `config.response` has been handled, the application may send. */
  lemma ConfiguredDeviceSends(d: Device, resp: XplMsg.Msg, now: int, m: XplMsg.Msg)
    requires IsCommand(resp, "config", "response")
    ensures SendMsg(HandleMsgForUs(d, resp, now).1, m) == (true, [Transmit(m)])
  {
  }

  // ----- The saved configuration ------------------------------------------------------

  /**
   * One entry under `configItems` in the property file: the
   * `configItems.<name>.numValues` property (an entry without it is
   * skipped) and those of the properties `configItems.<name>.value<i>` that
   * are present.
   */
  datatype StoredItem = StoredItem(name: string, numValues: Option<nat>, values: map<nat, string>)

  /**
   * The property file as `LoadConfig` sees it: the `instanceId` property,
   * whether a `configItems` property is present, and the entries under
   * `configItems` in the order the store lists them.
   */
  datatype Store = Store(instanceId: Option<string>, hasItems: bool, entries: seq<StoredItem>)

  /** The values `value0` to `value<n-1>` that are present, in index order. */
  function StoredValues(values: map<nat, string>, n: nat): (r: seq<string>)
    ensures |r| <= n
    ensures (forall k | 0 <= k < n :: k in values) ==> |r| == n && forall k | 0 <= k < n :: r[k] == values[k]
    decreases n
  {
    if n == 0 then []
    else StoredValues(values, n - 1) + (if n - 1 in values then [values[n - 1]] else [])
  }

  /**
   * One stored entry: its values are appended to the config item of that
   * name. An entry without `numValues`, or one whose name no item carries,
   * changes nothing.
   */
  function RestoreEntry(items: seq<ConfigItem>, e: StoredItem): (r: seq<ConfigItem>)
    ensures |r| == |items| && forall j | 0 <= j < |items| :: r[j].name == items[j].name
    ensures e.numValues.None? || FindExact(items, e.name).None? ==> r == items
    ensures e.numValues.Some? && FindExact(items, e.name).Some? ==>
      var i := FindExact(items, e.name).value;
      && r[i].values == items[i].values + StoredValues(e.values, e.numValues.value)
      && forall j | 0 <= j < |items| && j != i :: r[j] == items[j]
  {
    if e.numValues.None? then items
    else match FindExact(items, e.name)
      case None => items
      case Some(i) => items[i := items[i].(values := items[i].values + StoredValues(e.values, e.numValues.value))]
  }

  /** The stored entries, restored in turn. */
  function Restore(items: seq<ConfigItem>, es: seq<StoredItem>): (r: seq<ConfigItem>)
    ensures |r| == |items| && forall j | 0 <= j < |items| :: r[j].name == items[j].name
    decreases |es|
  {
    if |es| == 0 then items else Restore(RestoreEntry(items, es[0]), es[1..])
  }

  /**
   * `LoadConfig`: config mode unless the store holds an `instanceId`. With
   * one, the device leaves config mode, takes that instance, restores the
   * stored values into its items when the `configItems` property is
   * present, and configures itself from them.
   */
  function LoadConfig(d: Device, store: Store): (r: Device)
    ensures store.instanceId.None? ==> r == d.(configRequired := true)
    ensures store.instanceId.Some? ==> !r.configRequired
    ensures store.instanceId.Some? ==>
      r.configItems == if store.hasItems then Restore(d.configItems, store.entries) else d.configItems
    ensures store.instanceId.Some? && GetConfigItem(r.configItems, "newconf").None? ==>
      r.instanceId == store.instanceId.value
    ensures store.instanceId.Some? && GetConfigItem(r.configItems, "newconf").Some? ==>
      r.instanceId == FirstValue(GetConfigItem(r.configItems, "newconf").value)
    ensures store.instanceId.Some? ==> r.completeId == CompleteIdOf(d.vendorId, d.deviceId, r.instanceId)
    ensures store.instanceId.Some? && GetConfigItem(r.configItems, "interval").None? ==>
      r.heartbeatInterval == d.heartbeatInterval
    ensures store.instanceId.Some? && GetConfigItem(r.configItems, "interval").Some? ==>
      r.heartbeatInterval == IntervalOf(FirstValue(GetConfigItem(r.configItems, "interval").value))
    ensures store.instanceId.Some? && GetConfigItem(r.configItems, "filter").None? ==> r.filters == []
    ensures store.instanceId.Some? && GetConfigItem(r.configItems, "filter").Some? ==>
      var values := GetConfigItem(r.configItems, "filter").value.values;
      |r.filters| == |values| && forall k | 0 <= k < |values| :: r.filters[k] == Filter(values[k])
    ensures r.vendorId == d.vendorId && r.deviceId == d.deviceId && r.version == d.version
    ensures r.rapidCounter == d.rapidCounter && r.waitingForHub == d.waitingForHub
    ensures r.nextHeartbeat == d.nextHeartbeat && r.filterMsgs == d.filterMsgs && r.initialised == d.initialised
    ensures Valid(d) ==> Valid(r)
  {
    match store.instanceId
    case None => d.(configRequired := true)
    case Some(instance) => Configure(Restored(d, instance, store))
  }

  /** The steps of `LoadConfig` before `Configure`: out of config mode, the stored instance, the stored values. */
  function Restored(d: Device, instance: string, store: Store): (r: Device)
    ensures r == d.(configRequired := false, instanceId := instance, completeId := r.completeId, configItems := r.configItems)
    ensures r.completeId == CompleteIdOf(d.vendorId, d.deviceId, instance)
    ensures r.configItems == if store.hasItems then Restore(d.configItems, store.entries) else d.configItems
    ensures Valid(d) ==> Valid(r)
  {
    var d1 := SetInstanceId(d.(configRequired := false), instance);
    var d2 := if store.hasItems then d1.(configItems := Restore(d1.configItems, store.entries)) else d1;
    assert Valid(d) ==> Valid(d2);
    d2
  }

  /**
   * The name of the property file `GetConfigFileLocation` gives: the
   * complete ID at the time of the call, plus ".conf". `LoadConfig` reads,
   * and `SaveConfig` writes, the file of the device as it is then.
   */
  function ConfigFileName(d: Device): string {
    d.completeId + ".conf"
  }

  /**
   * A `config.response` that renames the device through `newconf` is saved
   * under the new complete ID, but the next start builds the instance
   * "default" and reads the file of that name, so it does not find the save.
   */
  lemma RenamedSaveMissed(d: Device, m: XplMsg.Msg, now: int)
    requires IsLower(d.vendorId) && IsLower(d.deviceId)
    requires GetConfigItem(d.configItems, "newconf").Some? && ResponseValues(m, "newconf") != []
    requires Lower(ResponseValues(m, "newconf")[0]) != "default"
    ensures ConfigFileName(ConfigResponse(d, m, now).0) != ConfigFileName(New(d.vendorId, d.deviceId, d.version, d.filterMsgs))
  {
    var (d1, acts) := ConfigResponse(d, m, now);
    var restarted := New(d.vendorId, d.deviceId, d.version, d.filterMsgs);
    var instance := ResponseValues(m, "newconf")[0];
    ResponseRenames(d, m, now);
    assert d1.completeId == CompleteIdOf(d.vendorId, d.deviceId, instance);
    LowerOfLower(d.vendorId);
    LowerOfLower(d.deviceId);
    assert restarted.completeId == CompleteIdOf(d.vendorId, d.deviceId, "default");
    DefaultIsLower();
    InstanceNamesFile(d.vendorId, d.deviceId, instance, "default");
  }

  /** The instance a new device starts with is already lower case. */
  lemma DefaultIsLower()
    ensures Lower("default") == "default"
  {
    var s := "default";
    assert IsLower(s) by {
      forall i | 0 <= i < |s| ensures !('A' <= s[i] <= 'Z') {
        assert s == ['d', 'e', 'f', 'a', 'u', 'l', 't'];
      }
    }
    LowerOfLower(s);
  }

  /** Instances that differ after lower-casing give different file names. */
  lemma InstanceNamesFile(vendor: string, device: string, i1: string, i2: string)
    requires Lower(i1) != Lower(i2)
    ensures CompleteIdOf(vendor, device, i1) + ".conf" != CompleteIdOf(vendor, device, i2) + ".conf"
  {
    var p := vendor + "-" + device + ".";
    assert XplMsg.AddressText(vendor, device, i1) == p + i1;
    assert XplMsg.AddressText(vendor, device, i2) == p + i2;
    LowerConcat(p, i1);
    LowerConcat(p, i2);
    Cancel(Lower(p), Lower(i1), Lower(i2), ".conf");
  }

  /** A shared prefix and suffix cancel. */
  lemma Cancel(u: string, x: string, y: string, s: string)
    ensures u + x + s == u + y + s ==> x == y
  {
    if u + x + s == u + y + s {
      assert |x| == |y|;
      assert x == (u + x + s)[|u|..|u| + |x|];
    }
  }

  /** What `SaveConfig` writes: the instance, and every item with its values, if there is any item. */
  function Saved(d: Device): (r: Store)
    ensures r.instanceId == Some(d.instanceId) && (r.hasItems <==> |d.configItems| > 0)
    ensures |r.entries| == |d.configItems|
  {
    Store(Some(d.instanceId), |d.configItems| > 0, Entries(d.configItems))
  }

  /** One entry per item: its name, its number of values and each value under its index. */
  function Entries(items: seq<ConfigItem>): (r: seq<StoredItem>)
    ensures |r| == |items|
    ensures forall j | 0 <= j < |items| :: r[j] == Entry(items[j])
  {
    seq(|items|, j requires 0 <= j < |items| => Entry(items[j]))
  }

  function Entry(it: ConfigItem): StoredItem {
    StoredItem(it.name, Some(|it.values|), map k | 0 <= k < |it.values| :: it.values[k])
  }

  /** The items as the application registers them before `Init`: the same names, no values yet. */
  function Blank(items: seq<ConfigItem>): (r: seq<ConfigItem>)
    ensures |r| == |items| && forall j | 0 <= j < |items| :: r[j] == Item(items[j].name, [])
  {
    seq(|items|, j requires 0 <= j < |items| => Item(items[j].name, []))
  }

  /** Two item lists with the same names in the same order. */
  predicate SameNames(a: seq<ConfigItem>, b: seq<ConfigItem>) {
    |a| == |b| && forall j | 0 <= j < |a| :: a[j].name == b[j].name
  }

  /**
   * Saving then loading into a device that has registered the same items:
   * each item gets the saved values appended to the values it was
   * registered with. The device leaves config mode and, without a
   * `newconf` item, takes the saved instance.
   */
  lemma SaveThenLoad(d: Device, e: Device)
    requires ConfigFileName(e) == ConfigFileName(d)
    requires DistinctNames(d.configItems) && SameNames(e.configItems, d.configItems)
    ensures var r := LoadConfig(e, Saved(d)).configItems;
      |r| == |d.configItems| &&
      forall j | 0 <= j < |r| :: r[j] == Item(d.configItems[j].name, e.configItems[j].values + d.configItems[j].values)
    ensures !LoadConfig(e, Saved(d)).configRequired
    ensures GetConfigItem(d.configItems, "newconf").None? ==> LoadConfig(e, Saved(d)).instanceId == d.instanceId
  {
    var r := LoadConfig(e, Saved(d)).configItems;
    LoadedItems(d, e);
    if |d.configItems| > 0 {
      RestoreAppends(d.configItems, e.configItems);
    }
    if GetConfigItem(d.configItems, "newconf").None? {
      assert GetConfigItem(r, "newconf").None?;
    }
  }

  /**
   * Items registered without values get exactly the saved values back,
   * so the whole list is restored.
   */
  lemma SaveThenLoadBlank(d: Device, e: Device)
    requires ConfigFileName(e) == ConfigFileName(d)
    requires DistinctNames(d.configItems) && e.configItems == Blank(d.configItems)
    ensures LoadConfig(e, Saved(d)).configItems == d.configItems
  {
    LoadedItems(d, e);
    if |d.configItems| > 0 {
      RestoreBlank(d.configItems);
    }
  }

  /** Restoring the saved entries into blank items gives the items back. */
  lemma RestoreBlank(items: seq<ConfigItem>)
    requires DistinctNames(items)
    ensures Restore(Blank(items), Entries(items)) == items
  {
    var r := Restore(Blank(items), Entries(items));
    RestoreAppends(items, Blank(items));
    forall j | 0 <= j < |r| ensures r[j] == items[j] {
      assert Blank(items)[j].values == [];
    }
  }

  /**
   * An item registered with a default, as the example application does with
   * "comport" and "1": after a restart the saved "2" comes after the
   * default, and `GetValue()` still reads "1".
   */
  lemma DefaultHidesSaved(d: Device, e: Device)
    requires ConfigFileName(e) == ConfigFileName(d)
    requires d.configItems == [Item("comport", ["2"])] && e.configItems == [Item("comport", ["1"])]
    ensures LoadConfig(e, Saved(d)).configItems == [Item("comport", ["1", "2"])]
    ensures FirstValue(GetConfigItem(LoadConfig(e, Saved(d)).configItems, "comport").value) == "1"
  {
    LoadedItems(d, e);
    var r := Restore(e.configItems, Entries(d.configItems));
    RestoreAppends(d.configItems, e.configItems);
    assert ["1"] + ["2"] == ["1", "2"];
    assert |r| == 1 && r[0] == Item("comport", ["1", "2"]);
    assert FindExact(r, "comport") == Some(0);
  }

  /** The items `LoadConfig` leaves after reading a saved store: the restored ones, or the same when nothing was saved. */
  lemma LoadedItems(d: Device, e: Device)
    ensures LoadConfig(e, Saved(d)).configItems ==
      if |d.configItems| > 0 then Restore(e.configItems, Entries(d.configItems)) else e.configItems
  {
  }

  /** Restoring every saved entry appends each item's values to the registered item of the same name. */
  lemma RestoreAppends(items: seq<ConfigItem>, pre: seq<ConfigItem>)
    requires DistinctNames(items) && SameNames(pre, items)
    ensures var r := Restore(pre, Entries(items));
      |r| == |items| && forall j | 0 <= j < |items| :: r[j] == Item(items[j].name, pre[j].values + items[j].values)
  {
    RestoreFrom(items, pre, pre, 0);
    assert Entries(items)[0..] == Entries(items);
  }

  /**
   * Restoring the entries of `items` from index `k` on, into a list that
   * already holds the merged items before `k` and the registered ones
   * (`pre`) from `k` on, appends each item's values to its registered ones.
   */
  lemma {:induction false} RestoreFrom(items: seq<ConfigItem>, pre: seq<ConfigItem>, cur: seq<ConfigItem>, k: nat)
    requires DistinctNames(items) && SameNames(pre, items) && k <= |items| && |cur| == |items|
    requires forall j | 0 <= j < k :: cur[j] == Item(items[j].name, pre[j].values + items[j].values)
    requires forall j | k <= j < |items| :: cur[j] == pre[j]
    ensures var r := Restore(cur, Entries(items)[k..]);
      forall j | 0 <= j < |items| :: r[j] == Item(items[j].name, pre[j].values + items[j].values)
    decreases |items| - k
  {
    var es := Entries(items)[k..];
    if k == |items| {
      assert Restore(cur, es) == cur;
    } else {
      assert es[0] == Entry(items[k]) && es[1..] == Entries(items)[k + 1..];
      var next := RestoreEntry(cur, Entry(items[k]));
      RestoreStep(items, pre, cur, k);
      assert Restore(cur, es) == Restore(next, es[1..]);
      RestoreFrom(items, pre, next, k + 1);
    }
  }

  /** Restoring the entry of item `k` appends its values to the registered item `k` and touches no other. */
  lemma RestoreStep(items: seq<ConfigItem>, pre: seq<ConfigItem>, cur: seq<ConfigItem>, k: nat)
    requires DistinctNames(items) && SameNames(pre, items) && k < |items| && |cur| == |items|
    requires forall j | 0 <= j < |items| :: cur[j].name == items[j].name
    requires cur[k] == pre[k]
    ensures var next := RestoreEntry(cur, Entry(items[k]));
      && next[k] == Item(items[k].name, pre[k].values + items[k].values)
      && forall j | 0 <= j < |items| && j != k :: next[j] == cur[j]
  {
    FindDistinct(cur, k);
    EntryValues(items[k]);
  }

  /** A saved entry gives back the item's values. */
  lemma EntryValues(it: ConfigItem)
    ensures StoredValues(Entry(it).values, |it.values|) == it.values
  {
  }

  /** In a list of distinct names, each item's name is found at its own index. */
  lemma FindDistinct(items: seq<ConfigItem>, k: nat)
    requires DistinctNames(items) && k < |items|
    ensures FindExact(items, items[k].name) == Some(k)
  {
  }

  /**
   * `Init`: refused when already initialised. Otherwise config mode is set,
   * the saved configuration in `store` is loaded, and the device is marked
   * initialised. It keeps the invariant and the rapid counter.
   */
  function Init(d: Device, store: Store): (r: (bool, Device))
    ensures r.0 <==> !d.initialised
    ensures !r.0 ==> r.1 == d
    ensures r.0 ==> r.1 == LoadConfig(d.(configRequired := true), store).(initialised := true)
    ensures r.0 ==> r.1.initialised && (r.1.configRequired <==> store.instanceId.None?)
    ensures Valid(d) ==> Valid(r.1)
    ensures r.1.rapidCounter == d.rapidCounter
  {
    if d.initialised then (false, d)
    else (true, LoadConfig(d.(configRequired := true), store).(initialised := true))
  }

  /** After `Init`, neither a second `Init` nor a new config item is accepted. */
  lemma InitCloses(d: Device, store: Store, store2: Store, item: ConfigItem)
    requires Init(d, store).0
    ensures !Init(Init(d, store).1, store2).0
    ensures !AddConfigItem(Init(d, store).1, item).0
  {
  }

  // ----- Invariant over any sequence of operations ---------------------------------------

  /** The operations the device undergoes after construction. */
  datatype Op =
    | Start(store: Store)
    | Receive(msg: Option<XplMsg.Msg>, now: int)
    | Pulse(now: int)
    | AddItem(item: ConfigItem)
    | RemoveItem(name: string)
    | SetInstance(instance: string)

  function Apply(d: Device, op: Op, show: XplMsg.Show, allow: Allow): (r: Device)
    ensures Valid(d) ==> Valid(r)
    ensures r.rapidCounter <= d.rapidCounter
  {
    match op
    case Start(store) => Init(d, store).1
    case Receive(msg, now) => HandleRx(d, msg, now, show, allow).0
    case Pulse(now) => Tick(d, now).0
    case AddItem(item) => AddConfigItem(d, item).1
    case RemoveItem(name) => RemoveConfigItem(d, name).1
    case SetInstance(instance) => SetInstanceId(d, instance)
  }

  function ApplyAll(d: Device, ops: seq<Op>, show: XplMsg.Show, allow: Allow): Device
    decreases |ops|
  {
    if |ops| == 0 then d else ApplyAll(Apply(d, ops[0], show, allow), ops[1..], show, allow)
  }

  /**
   * Whatever happens to a new device, its interval stays within [5, 30],
   * its complete ID matches its parts, and it never sends more than 40
   * rapid heartbeats.
   */
  lemma {:induction false} StaysValid(d: Device, ops: seq<Op>, show: XplMsg.Show, allow: Allow)
    requires Valid(d)
    ensures Valid(ApplyAll(d, ops, show, allow))
    ensures ApplyAll(d, ops, show, allow).rapidCounter <= d.rapidCounter
    decreases |ops|
  {
    if |ops| > 0 {
      StaysValid(Apply(d, ops[0], show, allow), ops[1..], show, allow);
    }
  }
}

=== FILE: msg_items.dfy ===
/**
 * The body of an xPL message: an ordered list of named items, each holding an
 * ordered list of values. `AddValue`, `SetValue`, `GetMsgItem`, `GetValue`,
 * `GetIntValue` and `GetCompleteValue` are written identically in both
 * codecs (`XplMsg` and the original `xplMsg`), so they are modelled once here.
 *
 * The item class itself (`XplMsgItem`) is not part of this model. Its
 * `AddValue` may cut a value at the delimiter; that cut is the parameter
 * `split`. Its indexed `GetValue`/`SetValue` are taken to read and replace
 * the value at that index, giving "" and false past the last value.
 */
module MsgItems {
  import opened Wrappers
  import opened StringUtils
  import opened Numbers

  datatype Item = Item(name: string, values: seq<string>)

  /** The values `XplMsgItem::AddValue(value, delimiter)` appends for one call. */
  type Splitter = (string, char) -> seq<string>

  /** The default delimiter of `AddValue` and `GetCompleteValue`. */
  const Comma: char := ','

  // ----- The item class, as far as the message uses it ---------------------------

  function ItemAddValue(item: Item, value: string, delim: char, split: Splitter): Item {
    Item(item.name, item.values + split(value, delim))
  }

  function ItemValue(item: Item, index: int): string {
    if 0 <= index < |item.values| then item.values[index] else ""
  }

  function ItemSetValue(item: Item, value: string, index: int): (bool, Item) {
    if 0 <= index < |item.values| then (true, Item(item.name, item.values[index := value]))
    else (false, item)
  }

  // ----- Looking items up ----------------------------------------------------------

  /** The first item whose name is exactly `name`. */
  function FindExact(items: seq<Item>, name: string): (r: Option<nat>)
    ensures r.Some? ==> r.value < |items| && items[r.value].name == name
    ensures r.Some? ==> forall j | 0 <= j < r.value :: items[j].name != name
    ensures r.None? <==> forall j | 0 <= j < |items| :: items[j].name != name
    decreases |items|
  {
    if |items| == 0 then None
    else if items[0].name == name then Some(0)
    else match FindExact(items[1..], name)
      case None => None
      case Some(i) => Some(i + 1)
  }

  /** `GetMsgItem(name)`: the first item whose name is the lower-cased `name`. */
  function GetMsgItem(items: seq<Item>, name: string): (r: Option<Item>)
    ensures r.None? <==> forall j | 0 <= j < |items| :: items[j].name != Lower(name)
    ensures r.Some? ==> r.value.name == Lower(name) && r.value in items
  {
    match FindExact(items, Lower(name))
    case None => None
    case Some(i) => Some(items[i])
  }

  /** `GetMsgItem(index)`: NULL past the last item. */
  function GetMsgItemAt(items: seq<Item>, index: uint32): (r: Option<Item>)
    ensures r.Some? <==> index < |items|
    ensures r.Some? ==> r.value == items[index]
  {
    if index >= |items| then None else Some(items[index])
  }

  /** `GetValue`: the value at `index` of the item called `name`, "" for an absent item. */
  function GetValue(items: seq<Item>, name: string, index: uint32): (r: string)
    ensures GetMsgItem(items, name).None? ==> r == []
    ensures GetMsgItem(items, name).Some? && index < |GetMsgItem(items, name).value.values| ==>
      r == GetMsgItem(items, name).value.values[index]
  {
    match GetMsgItem(items, name)
    case None => ""
    case Some(item) => ItemValue(item, index)
  }

  /**
   * `GetIntValue`: 0 for an empty or absent value, otherwise `atoi` of the
   * value, a 32-bit `int`: the number `atol` reads, cut to its low 32 bits.
   */
  function GetIntValue(items: seq<Item>, name: string, index: uint32): (r: int32)
    ensures GetValue(items, name, index) == [] ==> r == 0
    ensures forall n: nat | n < 0x8000_0000 :: GetValue(items, name, index) == Decimal(n) ==> r == n
  {
    var value := GetValue(items, name, index);
    forall n: nat | n < 0x8000_0000 && value == Decimal(n) ensures ToInt32(Atol(value)) == n {
      AtolDecimal(n);
    }
    if value == [] then 0 else ToInt32(Atol(value))
  }

  /** The text the `GetCompleteValue` loop builds: the values with `d` between neighbours. */
  function Join(vs: seq<string>, d: char): string
    decreases |vs|
  {
    if |vs| == 0 then []
    else if |vs| == 1 then vs[0]
    else vs[0] + [d] + Join(vs[1..], d)
  }

  /** `GetCompleteValue`: all values of the item called `name`, joined by `delim`. */
  function GetCompleteValue(items: seq<Item>, name: string, delim: char): (r: string)
    ensures GetMsgItem(items, name).None? ==> r == []
    ensures GetMsgItem(items, name).Some? ==> r == Join(GetMsgItem(items, name).value.values, delim)
  {
    match GetMsgItem(items, name)
    case None => []
    case Some(item) => Join(item.values, delim)
  }

  // ----- Changing items --------------------------------------------------------------

  /**
   * `AddValue`: the item whose name is exactly `name` (not lower-cased) gets
   * the new values; without one, a new item with the lower-cased name is
   * appended. The other items keep their place and contents.
   */
  function AddValue(items: seq<Item>, name: string, value: string, delim: char, split: Splitter): (r: seq<Item>)
    ensures FindExact(items, name).Some? ==>
      var i := FindExact(items, name).value;
      && |r| == |items|
      && r[i] == Item(name, items[i].values + split(value, delim))
      && forall j | 0 <= j < |items| && j != i :: r[j] == items[j]
    ensures FindExact(items, name).None? ==>
      r == items + [Item(Lower(name), split(value, delim))]
  {
    match FindExact(items, name)
    case Some(i) => items[i := ItemAddValue(items[i], value, delim, split)]
    case None =>
      assert [] + split(value, delim) == split(value, delim);
      items + [ItemAddValue(Item(Lower(name), []), value, delim, split)]
  }

  /** `AddValue(name, int)`: the number rendered with `%d`, then added as text. */
  function AddIntValue(items: seq<Item>, name: string, value: int32, split: Splitter): (r: seq<Item>)
    ensures var text := SignedDecimal(value); Atol(text) == value && r == AddValue(items, name, text, Comma, split)
  {
    AddValue(items, name, SignedDecimal(value), Comma, split)
  }

  /** `%d` of a signed number; `atol` reads it back. */
  function SignedDecimal(n: int): (s: string)
    ensures s != [] && Atol(s) == n
  {
    if n < 0 then
      AtolNegative(-n);
      "-" + Decimal(-n)
    else
      AtolDecimal(n);
      Decimal(n)
  }

  /** Only the numbers 0 to 9 print as a single character. */
  lemma SignedDecimalLength(n: int)
    ensures |SignedDecimal(n)| == 1 <==> 0 <= n <= 9
  {
    if n < 0 {
      var digits := Decimal(-n);
      assert SignedDecimal(n) == "-" + digits;
      assert |"-" + digits| == 1 + |digits|;
    }
  }

  lemma AtolNegative(m: nat)
    ensures Atol("-" + Decimal(m)) == -(m as int)
  {
    var d := Decimal(m);
    var s := "-" + d;
    assert DropSpace(s) == s;
    assert s[1..] == d;
    LeadingDigitsOfDigits(d);
    DecimalValue(m);
  }

  /**
   * A number added with `AddValue(name, int)` under a lower-case name is what
   * `GetIntValue` reads back, when the item class keeps the text as one value.
   */
  lemma AddIntValueThenGetIntValue(items: seq<Item>, name: string, value: int32, split: Splitter)
    requires IsLower(name) && CountOf(items, name) < 0x1_0000_0000
    requires split(SignedDecimal(value), Comma) == [SignedDecimal(value)]
    ensures GetIntValue(AddIntValue(items, name, value, split), name, CountOf(items, name)) == value
  {
    var v := SignedDecimal(value);
    AddValueThenGetValue(items, name, v, Comma, split, 0);
    IntOfSigned(AddIntValue(items, name, value, split), name, CountOf(items, name), value);
  }

  /** The `%d` text of a 32-bit number reads back as that number. */
  lemma IntOfSigned(items: seq<Item>, name: string, index: uint32, value: int32)
    requires GetValue(items, name, index) == SignedDecimal(value)
    ensures GetIntValue(items, name, index) == value
  {
    IntOfNonEmpty(items, name, index, SignedDecimal(value));
  }

  /** A non-empty value reads back as its `atol`. */
  lemma IntOfNonEmpty(items: seq<Item>, name: string, index: uint32, v: string)
    requires GetValue(items, name, index) == v && v != []
    ensures GetIntValue(items, name, index) == ToInt32(Atol(v))
  {
  }

  /**
   * `SetValue`: the first item whose name is exactly `name` replaces the
   * value at `index`; false and nothing changed when there is no such item
   * or no such value.
   */
  function SetValue(items: seq<Item>, name: string, value: string, index: uint32): (r: (bool, seq<Item>))
    ensures FindExact(items, name).None? ==> r == (false, items)
    ensures |r.1| == |items|
    ensures r.0 <==> FindExact(items, name).Some? && index < |items[FindExact(items, name).value].values|
    ensures !r.0 ==> r.1 == items
    ensures r.0 ==> var i := FindExact(items, name).value;
      && r.1[i].values == items[i].values[index := value]
      && forall j | 0 <= j < |items| && j != i :: r.1[j] == items[j]
    ensures forall j | 0 <= j < |items| :: r.1[j].name == items[j].name
  {
    match FindExact(items, name)
    case None => (false, items)
    case Some(i) =>
      var (ok, item) := ItemSetValue(items[i], value, index);
      (ok, items[i := item])
  }

  // ----- Properties ---------------------------------------------------------------------

  /** How many values the item called exactly `name` holds (0 when there is none). */
  function CountOf(items: seq<Item>, name: string): nat {
    match FindExact(items, name)
    case Some(i) => |items[i].values|
    case None => 0
  }

  /** The first match of a name is unaffected by changes that keep every name. */
  lemma {:induction false} FindExactSameNames(a: seq<Item>, b: seq<Item>, name: string)
    requires |a| == |b| && forall j | 0 <= j < |a| :: a[j].name == b[j].name
    ensures FindExact(a, name) == FindExact(b, name)
    decreases |a|
  {
    if |a| > 0 && a[0].name != name {
      FindExactSameNames(a[1..], b[1..], name);
    }
  }

  /** Appending an item never changes an existing first match, and is found when nothing earlier is. */
  lemma {:induction false} FindExactAppend(items: seq<Item>, item: Item, name: string)
    ensures FindExact(items, name).Some? ==> FindExact(items + [item], name) == FindExact(items, name)
    ensures FindExact(items, name).None? && item.name == name ==> FindExact(items + [item], name) == Some(|items|)
    ensures FindExact(items, name).None? && item.name != name ==> FindExact(items + [item], name) == None
    decreases |items|
  {
    if |items| > 0 && items[0].name != name {
      assert (items + [item])[1..] == items[1..] + [item];
      FindExactAppend(items[1..], item, name);
    }
  }

  /**
   * For a lower-case name, what `AddValue` added is what `GetValue` reads
   * back, after the values the item already held.
   */
  lemma AddValueThenGetValue(items: seq<Item>, name: string, value: string, delim: char, split: Splitter, k: nat)
    requires IsLower(name)
    requires k < |split(value, delim)| && CountOf(items, name) + k < 0x1_0000_0000
    ensures GetValue(AddValue(items, name, value, delim, split), name, CountOf(items, name) + k) == split(value, delim)[k]
  {
    LowerIsLower(name);
    var r := AddValue(items, name, value, delim, split);
    match FindExact(items, name)
    case Some(i) =>
      FindExactSameNames(items, r, name);
    case None =>
      FindExactAppend(items, Item(Lower(name), split(value, delim)), name);
  }

  /**
   * `AddValue` leaves every other lookup alone: a name that lower-cases to
   * neither the added name nor its lower-case form finds the same item.
   */
  lemma AddValueKeepsOthers(items: seq<Item>, name: string, value: string, delim: char, split: Splitter, other: string)
    requires Lower(other) != name && Lower(other) != Lower(name)
    ensures GetMsgItem(AddValue(items, name, value, delim, split), other) == GetMsgItem(items, other)
  {
    var r := AddValue(items, name, value, delim, split);
    match FindExact(items, name)
    case Some(i) =>
      FindExactSameNames(items, r, Lower(other));
    case None =>
      FindExactAppend(items, Item(Lower(name), split(value, delim)), Lower(other));
  }

  /**
   * Because `AddValue` compares the name before lower-casing it, adding under
   * "Power" next to an item "power" creates a second item "power", which no
   * lookup by name can reach: `GetValue` still finds the first one.
   */
  lemma MixedCaseDuplicates(split: Splitter)
    ensures var r := AddValue([Item("power", ["on"])], "Power", "off", Comma, split);
      && |r| == 2 && r[0].name == "power" && r[1].name == "power"
      && GetValue(r, "Power", 0) == "on"
  {
    var items := [Item("power", ["on"])];
    assert FindExact(items, "Power") == None;
    assert Lower("Power") == "power";
    var r := AddValue(items, "Power", "off", Comma, split);
    assert FindExact(r, "power") == Some(0);
  }

  /** A value replaced with `SetValue` under a lower-case name is what `GetValue` reads back. */
  lemma SetValueThenGetValue(items: seq<Item>, name: string, value: string, index: uint32)
    requires IsLower(name) && FindExact(items, name).Some?
    requires index < |items[FindExact(items, name).value].values|
    ensures SetValue(items, name, value, index).0
    ensures GetValue(SetValue(items, name, value, index).1, name, index) == value
  {
    LowerIsLower(name);
    FindExactSameNames(items, SetValue(items, name, value, index).1, name);
  }

  /** `SetValue` past the last value of the item reports false and changes nothing. */
  lemma SetValuePastEnd(items: seq<Item>, name: string, value: string, index: uint32)
    requires FindExact(items, name).Some?
    requires index >= |items[FindExact(items, name).value].values|
    ensures SetValue(items, name, value, index) == (false, items)
  {
    var i := FindExact(items, name).value;
    assert items[i := items[i]] == items;
  }

  // ----- The complete value and its pieces ----------------------------------------------

  /** The pieces of `s` between occurrences of `d`, without trimming. */
  function SplitAll(s: string, d: char): (r: seq<string>)
    ensures |r| > 0
    decreases |s|
  {
    match IndexOf(s, d)
    case None => [s]
    case Some(i) => [s[..i]] + SplitAll(s[i + 1..], d)
  }

  /** Cutting the complete value at the delimiter gives back the values, when none contains it. */
  lemma {:induction false} SplitAllJoin(vs: seq<string>, d: char)
    requires |vs| > 0 && forall k | 0 <= k < |vs| :: d !in vs[k]
    ensures SplitAll(Join(vs, d), d) == vs
    decreases |vs|
  {
    if |vs| == 1 {
      assert Join(vs, d) == vs[0];
    } else {
      assert Join(vs, d) == vs[0] + [d] + Join(vs[1..], d);
      SplitAllCut(vs[0], d, Join(vs[1..], d));
      SplitAllJoin(vs[1..], d);
      assert vs == [vs[0]] + vs[1..];
    }
  }

  /** A first piece without the delimiter is cut off whole. */
  lemma SplitAllCut(v: string, d: char, t: string)
    requires d !in v
    ensures SplitAll(v + [d] + t, d) == [v] + SplitAll(t, d)
  {
    var s := v + [d] + t;
    assert s[..|v|] == v && s[|v|] == d;
    IndexOfFirst(s, d, |v|);
    assert s[|v| + 1..] == t;
  }

  /** What `GetCompleteValue` returns, cut at its delimiter, is the item's list of values. */
  lemma CompleteValueSplits(items: seq<Item>, name: string, delim: char)
    requires GetMsgItem(items, name).Some?
    requires var vs := GetMsgItem(items, name).value.values;
      |vs| > 0 && forall k | 0 <= k < |vs| :: delim !in vs[k]
    ensures SplitAll(GetCompleteValue(items, name, delim), delim) == GetMsgItem(items, name).value.values
  {
    SplitAllJoin(GetMsgItem(items, name).value.values, delim);
  }
}

=== FILE: numbers.dfy ===
/**
 * Fixed-width integers and the decimal conversions the xPL code relies on:
 * `atol` on received text, `operator<<`/`%d` when rendering, and the implicit
 * conversion of a C `long` into a `uint32` field.
 */
module Numbers {
  import opened StringUtils

  /** An unsigned 32-bit value, as the C++ `uint32` typedef. */
  type uint32 = x: int | 0 <= x < 0x1_0000_0000

  /** Conversion of any integer into a `uint32`, which C performs modulo 2^32. */
  function ToUint32(n: int): (r: uint32)
    ensures 0 <= n < 0x1_0000_0000 ==> r == n
    ensures n < 0 && -0x1_0000_0000 <= n ==> r == n + 0x1_0000_0000
  {
    n % 0x1_0000_0000
  }

  /** A signed 32-bit value, as the C++ `int32` typedef and the C `int`. */
  type int32 = x: int | -0x8000_0000 <= x < 0x8000_0000

  /**
   * Conversion of any integer into an `int32`, keeping its low 32 bits as
   * two's complement, as the cast of a `long` to `int` does on the
   * platforms the code targets.
   */
  function ToInt32(n: int): (r: int32)
    ensures -0x8000_0000 <= n < 0x8000_0000 ==> r == n
    ensures 0x8000_0000 <= n < 0x1_0000_0000 ==> r == n - 0x1_0000_0000
    ensures (r - n) % 0x1_0000_0000 == 0
  {
    var u := n % 0x1_0000_0000;
    if u < 0x8000_0000 then u else u - 0x1_0000_0000
  }

  predicate IsDigit(c: char) {
    '0' <= c <= '9'
  }

  predicate AllDigits(s: string) {
    forall i | 0 <= i < |s| :: IsDigit(s[i])
  }

  function DigitChar(d: nat): (c: char)
    requires d < 10
    ensures IsDigit(c)
  {
    ('0' as int + d) as char
  }

  function DigitValue(c: char): (d: nat)
    requires IsDigit(c)
    ensures d < 10
  {
    c as int - '0' as int
  }

  /** The shortest decimal rendering of `n`, as `operator<<` and `%d` print a non-negative number. */
  function Decimal(n: nat): (s: string)
    ensures 1 <= |s| && AllDigits(s)
    ensures |s| == 1 <==> n < 10
    decreases n
  {
    if n < 10 then [DigitChar(n)] else Decimal(n / 10) + [DigitChar(n % 10)]
  }

  /** The number denoted by a string of decimal digits. */
  function DigitsValue(s: string): nat
    requires AllDigits(s)
    decreases |s|
  {
    if |s| == 0 then 0 else DigitsValue(s[..|s| - 1]) * 10 + DigitValue(s[|s| - 1])
  }

  /** The longest prefix of `s` made of decimal digits. */
  function LeadingDigits(s: string): (r: string)
    ensures AllDigits(r) && r <= s
    ensures |r| < |s| ==> !IsDigit(s[|r|])
    decreases |s|
  {
    if |s| > 0 && IsDigit(s[0]) then [s[0]] + LeadingDigits(s[1..]) else []
  }

  /** `s` without its leading white space, as `atol` skips it. */
  function DropSpace(s: string): (r: string)
    ensures |r| <= |s| && r == s[|s| - |r|..] && (|r| == 0 || !IsSpace(r[0]))
    decreases |s|
  {
    if |s| > 0 && IsSpace(s[0]) then DropSpace(s[1..]) else s
  }

  /**
   * The C library's `atol`: optional leading white space and sign, then the
   * longest run of digits; 0 when there are none. Overflow of `long` is not modelled.
   */
  function Atol(s: string): (r: int)
    ensures AllDigits(s) ==> r == DigitsValue(s)
    ensures DropSpace(s) == [] ==> r == 0
    ensures r < 0 ==> DropSpace(s)[0] == '-'
  {
    DigitsUnchanged(s);
    var t := DropSpace(s);
    if |t| > 0 && t[0] == '-' then -(DigitsValue(LeadingDigits(t[1..])) as int)
    else if |t| > 0 && t[0] == '+' then DigitsValue(LeadingDigits(t[1..]))
    else DigitsValue(LeadingDigits(t))
  }

  /** Reading back a rendered number gives the number: `atol` inverts `Decimal`. */
  lemma {:induction false} AtolDecimal(n: nat)
    ensures Atol(Decimal(n)) == n
  {
    var s := Decimal(n);
    assert !IsSpace(s[0]);
    assert DropSpace(s) == s;
    LeadingDigitsOfDigits(s);
    DecimalValue(n);
  }

  /** A run of digits has no white space to skip and is all leading digits. */
  lemma DigitsUnchanged(s: string)
    ensures AllDigits(s) ==> DropSpace(s) == s && LeadingDigits(s) == s
  {
    if AllDigits(s) {
      LeadingDigitsOfDigits(s);
      if |s| > 0 {
        assert IsDigit(s[0]);
      }
    }
  }

  lemma {:induction false} LeadingDigitsOfDigits(s: string)
    requires AllDigits(s)
    ensures LeadingDigits(s) == s
    decreases |s|
  {
    if |s| > 0 {
      LeadingDigitsOfDigits(s[1..]);
    }
  }

  lemma {:induction false} DecimalValue(n: nat)
    ensures DigitsValue(Decimal(n)) == n
    decreases n
  {
    if n >= 10 {
      var s := Decimal(n);
      DecimalValue(n / 10);
      assert s[..|s| - 1] == Decimal(n / 10);
      assert DigitValue(s[|s| - 1]) == n % 10;
    }
  }
}

=== FILE: split_lp64.dfy ===
/**
 * `StringSplit` as its code reads on a platform whose `size_t` is 64 bits wide.
 *
 * The index returned by `find_first_of` is stored in a `uint32` before it is
 * compared with `string::npos`. On such a platform `npos` is 2^64 - 1 and no
 * `uint32` equals it, so "delimiter not found" is taken for "found at
 * 2^32 - 1": the left part is the whole string (the count is clipped), the
 * right part starts at `pos + 1`, which wraps to 0 in 32 bits, and the call
 * reports success with both parts equal to the trimmed input. The intended
 * behaviour, used everywhere else in this model, is `StringUtils.Split`.
 */
module SplitWidth {
  import opened Wrappers
  import opened StringUtils

  const NPOS64: int := 0xFFFF_FFFF_FFFF_FFFF
  const TWO32: int := 0x1_0000_0000

  /** `std::string::substr(a, n)`: at most `n` characters from index `a`. */
  function Substr(s: string, a: nat, n: nat): (r: string)
    requires a <= |s|
    ensures |r| <= n && r <= s[a..]
    ensures a + n >= |s| ==> r == s[a..]
  {
    if a + n >= |s| then s[a..] else s[a..a + n]
  }

  /** The `substr` without a count, up to the end. */
  function SubstrFrom(s: string, a: nat): (r: string)
    requires a <= |s|
    ensures r == Substr(s, a, |s| - a)
  {
    s[a..]
  }

  /** The conversion of a `size_t` or an `int` into a `uint32`: modulo 2^32. */
  function Trunc32(n: int): (r: int)
    ensures 0 <= r < TWO32
    ensures 0 <= n < TWO32 ==> r == n
    ensures n == TWO32 ==> r == 0
  {
    n % TWO32
  }

  /**
   * `StringSplit` on a 64-bit `size_t`, with the 32-bit truncation of the
   * found position and the 32-bit wrap of `pos + 1` written out.
   */
  function SplitLp64(s: string, d: char): (r: Option<(string, string)>)
    requires |s| < TWO32 - 1
    ensures d in s ==> r == Split(s, d)
    ensures d !in s ==> r == Some((Trim(s), Trim(s)))
  {
    match IndexOf(s, d)
    case Some(i) =>
      FoundCut(s, d, i);
      CutAt(s, Trunc32(i))
    case None =>
      NposCut(s);
      CutAt(s, Trunc32(NPOS64))
  }

  /** A position that was found survives the truncation, and the cut is the intended split. */
  lemma FoundCut(s: string, d: char, i: nat)
    requires |s| < TWO32 - 1 && IndexOf(s, d) == Some(i)
    ensures Trunc32(i) == i && CutAt(s, i) == Split(s, d)
  {
  }

  /** The truncated `npos` cuts nothing off: both parts are the whole string, trimmed. */
  lemma NposCut(s: string)
    requires |s| < TWO32 - 1
    ensures Trunc32(NPOS64) == TWO32 - 1 && CutAt(s, TWO32 - 1) == Some((Trim(s), Trim(s)))
  {
    NposTruncated();
  }

  /** The body of `StringSplit` once the 32-bit position `pos` is known. */
  function CutAt(s: string, pos: int): (r: Option<(string, string)>)
    requires 0 <= pos < TWO32 && (pos < |s| || pos == TWO32 - 1)
    ensures r.Some?
  {
    if NPOS64 != pos then
      var right := Trunc32(pos + 1);
      Some((TrimSubstr(s, 0, pos), TrimSubstr(s, right, |s| - right)))
    else None
  }

  /** The truncation of `npos` to 32 bits. */
  lemma NposTruncated()
    ensures NPOS64 % TWO32 == TWO32 - 1
  {
    assert NPOS64 == TWO32 * (TWO32 - 1) + (TWO32 - 1);
  }

  /** `trim(substr(a, n))`, on indices of `s`. */
  function TrimSubstr(s: string, a: nat, n: nat): (r: string)
    requires a <= |s|
    ensures a + n >= |s| ==> r == TrimRange(s, a, |s|)
    ensures a + n < |s| ==> r == TrimRange(s, a, a + n)
  {
    if a + n >= |s| then TrimRange(s, a, |s|) else TrimRange(s, a, a + n)
  }

  /**
   * The discrepancy on a concrete input: "abc" has no '.', yet the code as
   * written reports a split into "abc" and "abc".
   */
  lemma MissingDelimiterReportsSplit()
    ensures SplitLp64("abc", '.') == Some(("abc", "abc"))
    ensures Split("abc", '.') == None
  {
    assert '.' !in "abc";
    TrimTrimmed("abc");
  }

  /**
   * The consequence for every caller that splits an address at '-': text
   * without a dash is cut into two equal, non-empty parts, so the emptiness
   * checks the callers rely on no longer reject it.
   */
  lemma MissingDashPassesEmptinessCheck(s: string)
    requires |s| < TWO32 - 1 && '-' !in s && !AllSpace(s)
    ensures SplitLp64(s, '-').Some?
    ensures SplitLp64(s, '-').value.0 != [] && SplitLp64(s, '-').value.1 != []
    ensures Split(s, '-') == None
  {
  }
}

=== FILE: string_utils.dfy ===
/**
 * The two text helpers every xPL parser is built on: `StringReadLine`, a
 * cursor-based reader of trimmed, non-blank lines, and `StringSplit`, which
 * cuts a string at the first occurrence of a delimiter. Also the ASCII case
 * folding (`Poco::toLower`, `StringToLower`) and white-space trimming
 * (`Poco::trim`) they use.
 */
module StringUtils {
  import opened Wrappers

  // ----- Character classes -------------------------------------------------

  /** White space as `Poco::Ascii::isSpace` (and C's `isspace`) classify it. */
  predicate IsSpace(c: char) {
    c == ' ' || c == '\t' || c == '\n' || c == '\U{000B}' || c == '\U{000C}' || c == '\r'
  }

  predicate AllSpace(s: string) {
    forall i | 0 <= i < |s| :: IsSpace(s[i])
  }

  /** A line break: either of the two characters that end a wire-format line. */
  predicate IsBreak(c: char) {
    c == '\n' || c == '\r'
  }

  /** Neither end of `s` is white space. */
  predicate IsTrimmed(s: string) {
    |s| == 0 || (!IsSpace(s[0]) && !IsSpace(s[|s| - 1]))
  }

  // ----- Case folding --------------------------------------------------------

  /** ASCII lower-casing of one character; other characters are unchanged. */
  function LowerChar(c: char): char {
    if 'A' <= c <= 'Z' then (c as int + 32) as char else c
  }

  /** ASCII lower-casing of a string, character by character. */
  function Lower(s: string): (r: string)
    ensures |r| == |s|
    ensures forall i | 0 <= i < |s| :: r[i] == LowerChar(s[i])
  {
    seq(|s|, i requires 0 <= i < |s| => LowerChar(s[i]))
  }

  predicate IsLower(s: string) {
    forall i | 0 <= i < |s| :: !('A' <= s[i] <= 'Z')
  }

  /** Lower-casing yields lower-case text and changes nothing when repeated. */
  lemma LowerIsLower(s: string)
    ensures IsLower(Lower(s))
    ensures Lower(Lower(s)) == Lower(s)
    ensures IsLower(s) ==> Lower(s) == s
  {
  }

  /** Lower-case text is its own lower-cased form. */
  lemma LowerOfLower(s: string)
    requires IsLower(s)
    ensures Lower(s) == s
  {
  }

  /** Lower-casing distributes over concatenation. */
  lemma LowerConcat(a: string, b: string)
    ensures Lower(a + b) == Lower(a) + Lower(b)
  {
  }

  // ----- Trimming ------------------------------------------------------------

  /** Every character of `s` from index `a` up to (not including) `b` is white space. */
  predicate SpaceBetween(s: string, a: nat, b: nat)
    requires a <= b <= |s|
  {
    forall k | a <= k < b :: IsSpace(s[k])
  }

  /** The first index in [a, b) holding a non-space character, or `b`. */
  function TrimStart(s: string, a: nat, b: nat): (i: nat)
    requires a <= b <= |s|
    ensures a <= i <= b && SpaceBetween(s, a, i)
    ensures i < b ==> !IsSpace(s[i])
    decreases b - a
  {
    if a < b && IsSpace(s[a]) then TrimStart(s, a + 1, b) else a
  }

  /** The index just after the last non-space character in [a, b), or `a`. */
  function TrimEnd(s: string, a: nat, b: nat): (j: nat)
    requires a <= b <= |s|
    ensures a <= j <= b && SpaceBetween(s, j, b)
    ensures a < j ==> !IsSpace(s[j - 1])
    decreases b - a
  {
    if a < b && IsSpace(s[b - 1]) then TrimEnd(s, a, b - 1) else b
  }

  /** `Poco::trim` applied to the piece `s[a..b]`, computed on indices of `s`. */
  function TrimRange(s: string, a: nat, b: nat): (r: string)
    requires a <= b <= |s|
    ensures IsTrimmed(r)
    ensures r == [] <==> SpaceBetween(s, a, b)
  {
    var i := TrimStart(s, a, b);
    var j := TrimEnd(s, i, b);
    if i == b then [] else s[i..j]
  }

  /** `Poco::trim`: `s` without white space at either end. */
  function Trim(s: string): (r: string)
    ensures IsTrimmed(r)
    ensures r == [] <==> AllSpace(s)
  {
    TrimRange(s, 0, |s|)
  }

  /** The trimmed piece is the slice between the two trim bounds. */
  lemma TrimRangeSlice(s: string, a: nat, b: nat)
    requires a <= b <= |s|
    ensures var i := TrimStart(s, a, b);
      && i <= TrimEnd(s, i, b)
      && TrimRange(s, a, b) == s[i..TrimEnd(s, i, b)]
  {
  }

  /** White space at the front of a piece does not change its trimmed text. */
  lemma {:induction false} TrimRangeSpacePrefix(s: string, a: nat, p: nat, b: nat)
    requires a <= p <= b <= |s| && SpaceBetween(s, a, p)
    ensures TrimStart(s, a, b) == TrimStart(s, p, b)
    ensures TrimRange(s, a, b) == TrimRange(s, p, b)
    decreases p - a
  {
    if a < p {
      TrimRangeSpacePrefix(s, a + 1, p, b);
    }
  }

  /** White space at the back of a piece does not change its trimmed text. */
  lemma TrimRangeSpaceSuffix(s: string, a: nat, b: nat)
    requires a <= b < |s| && IsSpace(s[b])
    ensures TrimRange(s, a, b + 1) == TrimRange(s, a, b)
  {
    var i := TrimStart(s, a, b);
    TrimStartExtend(s, a, b);
    if i < b {
      assert TrimEnd(s, i, b + 1) == TrimEnd(s, i, b);
    }
  }

  lemma {:induction false} TrimStartExtend(s: string, a: nat, b: nat)
    requires a <= b < |s| && IsSpace(s[b])
    ensures TrimStart(s, a, b) < b ==> TrimStart(s, a, b + 1) == TrimStart(s, a, b)
    ensures TrimStart(s, a, b) == b ==> TrimStart(s, a, b + 1) == b + 1
    decreases b - a
  {
    if a < b && IsSpace(s[a]) {
      TrimStartExtend(s, a + 1, b);
    }
  }

  /** Trimming text that is already trimmed changes nothing. */
  lemma TrimTrimmed(s: string)
    requires IsTrimmed(s)
    ensures Trim(s) == s
  {
    assert s[0..|s|] == s;
    TrimRangeTrimmed(s, 0, |s|);
  }

  // ----- StringReadLine ------------------------------------------------------

  /**
   * Position `p` is where the data ends: past the last character, or at a NUL,
   * which the C++ loop `while ( ch = _str[pos++] )` also reads as the end.
   */
  predicate AtEnd(s: string, p: nat) {
    p >= |s| || s[p] == '\0'
  }

  /** Position `p` stops the scan of one line: the end of the data or a line break. */
  predicate IsStop(s: string, p: nat) {
    AtEnd(s, p) || IsBreak(s[p])
  }

  /** The first stop at or after `p`. */
  function FindStop(s: string, p: nat): (j: nat)
    requires p <= |s|
    ensures p <= j <= |s| && IsStop(s, j)
    ensures forall k | p <= k < j :: !IsStop(s, k)
    decreases |s| - p
  {
    if IsStop(s, p) then p else FindStop(s, p + 1)
  }

  /**
   * What `StringReadLine(s, start)` promises of its result (`line`, `pos`),
   * stated without reference to how it scans:
   *  - the consumed text `s[start..pos]` holds no NUL and, trimmed, is the line;
   *  - every line break in it except a final one closes a blank line (only
   *    white space between `start` and that break), so at most one non-blank
   *    line is consumed;
   *  - unless the data ends at `pos`, the consumed text ends with the line break
   *    that closed the returned line;
   *  - an empty line is only returned at the end of the data.
   */
  ghost predicate IsNextLine(s: string, start: nat, line: string, pos: nat) {
    && start <= pos <= |s|
    && (forall k | start <= k < pos :: s[k] != '\0')
    && line == TrimRange(s, start, pos)
    && (forall k | start <= k < pos - 1 :: IsBreak(s[k]) ==> SpaceBetween(s, start, k))
    && (!AtEnd(s, pos) ==> start < pos && IsBreak(s[pos - 1]))
    && (line == [] ==> AtEnd(s, pos))
  }

  /** No character of `line` is a line break or a NUL. */
  predicate IsSingleLine(line: string) {
    forall k | 0 <= k < |line| :: !IsBreak(line[k]) && line[k] != '\0'
  }

  /**
   * The scanning loop of `StringReadLine`, continued from `p`: everything
   * between `start` and `p` is blank lines already skipped. Each round finds
   * the next stop `j` and takes the text trimmed from `start` (not from `p`)
   * to `j`; at the end of the data it stops at `j`, at a line break it stops
   * after the break unless the text is blank, in which case it carries on.
   */
  function ScanLine(s: string, start: nat, p: nat): (r: (string, nat))
    requires start <= p <= |s|
    requires SpaceBetween(s, start, p)
    ensures IsSingleLine(r.0)
    ensures p <= r.1 <= |s|
    ensures r.0 != [] ==> start < r.1
    decreases |s| - p
  {
    var j := FindStop(s, p);
    var line := TrimRange(s, start, j);
    ScanLineChars(s, start, p, j);
    if AtEnd(s, j) then
      (line, j)
    else if line != [] then
      (line, j + 1)
    else
      ScanSkipsBlank(s, start, p, j);
      ScanLine(s, start, j + 1)
  }

  /** Every round of the scan keeps to the reader's specification. */
  lemma {:induction false} ScanLineMeets(s: string, start: nat, p: nat)
    requires start <= p <= |s|
    requires SpaceBetween(s, start, p)
    ensures IsNextLine(s, start, ScanLine(s, start, p).0, ScanLine(s, start, p).1)
    decreases |s| - p
  {
    var j := FindStop(s, p);
    var r := ScanLine(s, start, p);
    if AtEnd(s, j) {
      assert r == (TrimRange(s, start, j), j);
      ScanStopsAtEnd(s, start, p, j);
    } else if TrimRange(s, start, j) != [] {
      assert r == (TrimRange(s, start, j), j + 1);
      ScanStopsAtBreak(s, start, p, j);
    } else {
      ScanSkipsBlank(s, start, p, j);
      assert r == ScanLine(s, start, j + 1);
      ScanLineMeets(s, start, j + 1);
    }
  }

  /** The text of one scanned line never holds a line break or a NUL. */
  lemma ScanLineChars(s: string, start: nat, p: nat, j: nat)
    requires start <= p <= |s| && SpaceBetween(s, start, p) && j == FindStop(s, p)
    ensures IsSingleLine(TrimRange(s, start, j))
  {
    TrimRangeSpacePrefix(s, start, p, j);
    TrimRangeSlice(s, p, j);
    var i := TrimStart(s, p, j);
    var line := TrimRange(s, start, j);
    forall k | 0 <= k < |line| ensures !IsBreak(line[k]) && line[k] != '\0' {
      assert line[k] == s[i + k];
      assert !IsStop(s, i + k);
    }
  }

  /** No NUL between `start` and the stop `j`, and only blank-line breaks. */
  lemma ScanPrefix(s: string, start: nat, p: nat, j: nat)
    requires start <= p <= |s| && SpaceBetween(s, start, p) && j == FindStop(s, p)
    ensures forall k | start <= k < j :: s[k] != '\0'
    ensures forall k | start <= k < j :: IsBreak(s[k]) ==> SpaceBetween(s, start, k)
  {
    forall k | start <= k < j ensures s[k] != '\0' {
      if k < p {
        assert IsSpace(s[k]);
      } else {
        assert !IsStop(s, k);
      }
    }
    forall k | p <= k < j ensures !IsBreak(s[k]) {
      assert !IsStop(s, k);
    }
    forall k | start <= k < j && IsBreak(s[k]) ensures SpaceBetween(s, start, k) {
      if p <= k {
        assert false;
      }
    }
  }

  lemma ScanStopsAtEnd(s: string, start: nat, p: nat, j: nat)
    requires start <= p <= |s| && SpaceBetween(s, start, p) && j == FindStop(s, p)
    requires AtEnd(s, j)
    ensures IsNextLine(s, start, TrimRange(s, start, j), j)
  {
    ScanPrefix(s, start, p, j);
  }

  lemma ScanStopsAtBreak(s: string, start: nat, p: nat, j: nat)
    requires start <= p <= |s| && SpaceBetween(s, start, p) && j == FindStop(s, p)
    requires !AtEnd(s, j) && TrimRange(s, start, j) != []
    ensures IsNextLine(s, start, TrimRange(s, start, j), j + 1)
  {
    ScanPrefix(s, start, p, j);
    TrimRangeSpaceSuffix(s, start, j);
    assert !SpaceBetween(s, start, j);
  }

  lemma ScanSkipsBlank(s: string, start: nat, p: nat, j: nat)
    requires start <= p <= |s| && SpaceBetween(s, start, p) && j == FindStop(s, p)
    requires !AtEnd(s, j) && TrimRange(s, start, j) == []
    ensures j + 1 <= |s| && SpaceBetween(s, start, j + 1)
  {
    assert IsSpace(s[j]);
  }

  /**
   * `StringReadLine`: the next non-blank line at or after `start`, trimmed,
   * and the position to continue from.
   */
  function ReadLine(s: string, start: nat): (r: (string, nat))
    requires start <= |s|
    ensures IsSingleLine(r.0)
    ensures start <= r.1 <= |s|
    ensures r.0 != [] ==> start < r.1
  {
    ScanLine(s, start, start)
  }

  /** The reader meets its specification. */
  lemma ReadLineMeets(s: string, start: nat)
    requires start <= |s|
    ensures IsNextLine(s, start, ReadLine(s, start).0, ReadLine(s, start).1)
  {
    ScanLineMeets(s, start, start);
  }

  /** At the end of the data the reader returns an empty line and does not move. */
  lemma ReadLineAtEnd(s: string, p: nat)
    requires p <= |s| && AtEnd(s, p)
    ensures ReadLine(s, p) == ([], p)
  {
  }

  /** Once a read returns an empty line, reading again from there returns the same. */
  lemma ReadLineExhausted(s: string, start: nat)
    requires start <= |s|
    requires ReadLine(s, start).0 == []
    ensures ReadLine(s, ReadLine(s, start).1) == ([], ReadLine(s, start).1)
  {
    ReadLineMeets(s, start);
    ReadLineAtEnd(s, ReadLine(s, start).1);
  }

  /** Without NUL characters in the data, an empty line means the whole string was consumed. */
  lemma ReadLineEmptyConsumesAll(s: string, start: nat)
    requires start <= |s|
    requires '\0' !in s
    requires ReadLine(s, start).0 == []
    ensures ReadLine(s, start).1 == |s|
  {
    ReadLineMeets(s, start);
  }

  /**
   * When the text up to the first line break is not blank, the reader returns
   * exactly that text, trimmed, and continues after the break.
   */
  lemma ReadLineFirstLine(s: string, start: nat)
    requires start <= |s|
    requires TrimRange(s, start, FindStop(s, start)) != []
    ensures ReadLine(s, start).0 == TrimRange(s, start, FindStop(s, start))
    ensures var j := FindStop(s, start);
      ReadLine(s, start).1 == if AtEnd(s, j) then j else j + 1
  {
  }

  /** Only one result satisfies the reader's specification: it is a complete description. */
  lemma {:induction false} ReadLineUnique(s: string, start: nat, line: string, pos: nat)
    requires start <= |s|
    requires IsNextLine(s, start, line, pos)
    ensures ReadLine(s, start) == (line, pos)
  {
    var (l0, p0) := ReadLine(s, start);
    ReadLineMeets(s, start);
    NextLineNotShorter(s, start, l0, p0, line, pos);
    NextLineNotShorter(s, start, line, pos, l0, p0);
  }

  /** Of two results of the specification, neither ends before the other. */
  lemma {:induction false} NextLineNotShorter(s: string, start: nat, l1: string, p1: nat, l2: string, p2: nat)
    requires IsNextLine(s, start, l1, p1) && IsNextLine(s, start, l2, p2)
    ensures p2 <= p1
  {
    if p1 < p2 {
      // p1 - 1 would be a break that closes a non-blank line inside the longer read
      assert false;
    }
  }

  // ----- StringSplit ---------------------------------------------------------

  /** `find_first_of`: the index of the first occurrence of `d` in `s`, if any. */
  function IndexOf(s: string, d: char): (r: Option<nat>)
    ensures r.None? <==> d !in s
    ensures r.Some? ==> r.value < |s| && s[r.value] == d && d !in s[..r.value]
    decreases |s|
  {
    if |s| == 0 then None
    else if s[0] == d then Some(0)
    else match IndexOf(s[1..], d)
      case None => None
      case Some(i) =>
        assert s[..i + 1] == [s[0]] + s[1..][..i];
        Some(i + 1)
  }

  /**
   * `StringSplit`: the trimmed text before and after the first occurrence of
   * `d`, or None (the C++ function returns false and leaves its outputs as they were)
   * when `d` does not occur. Only the first occurrence is a cut: the right-hand
   * part may still contain `d`.
   */
  function Split(s: string, d: char): (r: Option<(string, string)>)
    ensures r.None? <==> d !in s
    ensures r.Some? ==> d !in r.value.0
    ensures r.Some? ==> IsTrimmed(r.value.0) && IsTrimmed(r.value.1)
    ensures r.Some? ==> |r.value.0| + |r.value.1| < |s|
  {
    match IndexOf(s, d)
    case None => None
    case Some(i) =>
      SplitLeftPart(s, d, i);
      TrimRangeSlice(s, i + 1, |s|);
      Some((TrimRange(s, 0, i), TrimRange(s, i + 1, |s|)))
  }

  lemma SplitLeftPart(s: string, d: char, i: nat)
    requires i < |s| && d !in s[..i]
    ensures d !in TrimRange(s, 0, i) && |TrimRange(s, 0, i)| <= i
  {
    TrimRangeSlice(s, 0, i);
    var t := TrimStart(s, 0, i);
    var l := TrimRange(s, 0, i);
    forall k | 0 <= k < |l| ensures l[k] != d {
      assert l[k] == s[..i][t + k];
    }
  }

  /** A piece that is already trimmed is its own trimmed text. */
  lemma TrimRangeTrimmed(s: string, a: nat, b: nat)
    requires a <= b <= |s| && IsTrimmed(s[a..b])
    ensures TrimRange(s, a, b) == s[a..b]
  {
    if a < b {
      assert s[a..b][0] == s[a] && s[a..b][b - a - 1] == s[b - 1];
      assert TrimStart(s, a, b) == a;
      assert TrimEnd(s, a, b) == b;
    }
  }

  /** Splitting the joined form of two trimmed parts gives the parts back. */
  lemma SplitJoin(l: string, d: char, r: string)
    requires d !in l && !IsSpace(d)
    requires IsTrimmed(l) && IsTrimmed(r)
    ensures Split(l + [d] + r, d) == Some((l, r))
  {
    var s := l + [d] + r;
    var i := |l|;
    assert s[..i] == l && s[0..i] == l;
    assert s[i + 1..] == r && s[i + 1..|s|] == r;
    IndexOfFirst(s, d, i);
    TrimRangeTrimmed(s, 0, i);
    TrimRangeTrimmed(s, i + 1, |s|);
    assert Split(s, d) == Some((TrimRange(s, 0, i), TrimRange(s, i + 1, |s|)));
  }

  lemma IndexOfFirst(s: string, d: char, i: nat)
    requires i < |s| && s[i] == d && d !in s[..i]
    ensures IndexOf(s, d) == Some(i)
  {
  }

  /**
   * The two strings `StringSplit` leaves in its caller's fresh, empty output
   * variables: the two parts, or two empty strings when the delimiter is absent.
   */
  function SplitParts(s: string, d: char): (r: (string, string))
    ensures d in s ==> Split(s, d) == Some(r)
    ensures d !in s ==> r == ([], [])
  {
    match Split(s, d)
    case Some(parts) => parts
    case None => ([], [])
  }

  // ----- Reading back text that was written line by line ----------------------

  /** A trimmed, non-blank, single line followed by a line feed is read back exactly. */
  lemma ReadLineOfLine(s: string, start: nat, line: string)
    requires line != [] && IsTrimmed(line) && IsSingleLine(line)
    requires start + |line| < |s| && s[start..start + |line|] == line && s[start + |line|] == '\n'
    ensures ReadLine(s, start) == (line, start + |line| + 1)
  {
    var e := start + |line|;
    forall k | start <= k < e ensures !IsBreak(s[k]) && s[k] != '\0' {
      assert s[k] == line[k - start];
    }
    TrimRangeSpaceSuffix(s, start, e);
    TrimRangeTrimmed(s, start, e);
    assert !SpaceBetween(s, start, e) by {
      assert s[start] == line[0];
    }
    ReadLineUnique(s, start, line, e + 1);
  }

  /** Every character of a line that was read comes from the consumed text. */
  lemma ReadLineFromText(s: string, start: nat, c: char)
    requires start <= |s|
    requires c in ReadLine(s, start).0
    ensures c in s[start..ReadLine(s, start).1]
  {
    var (line, pos) := ReadLine(s, start);
    ReadLineMeets(s, start);
    TrimRangeSlice(s, start, pos);
    var i := TrimStart(s, start, pos);
    var k :| 0 <= k < |line| && line[k] == c;
    assert s[i + k] == c;
    assert s[start..pos][i + k - start] == c;
  }
}

=== FILE: win_msg.dfy ===
/**
 * The message class of the original Windows SDK, `xplMsg` in
 * xplsds_winorig/Src/xplMsg.cpp. It reads the same grammar as the Poco
 * port and keeps its body items the same way (`MsgItems`), but differs in
 * its fields and checks:
 *
 *   - source and target are plain strings, stored whole and lower-cased;
 *   - every setter clears the cached raw text first, including `SetSource`;
 *   - `SetType` knows only the three full type names, and the target's
 *     vendor is limited to 8 characters like the source address's;
 *   - the cache is a buffer with a size, `m_bufferSize`, that `GetRawData`
 *     computes before it writes the text and that `Create` sets to the
 *     number of characters it consumed.
 */
module WinMsg {
  import opened Wrappers
  import opened StringUtils
  import opened Numbers
  import opened WireFormat
  import opened MsgItems
  import XplMsg

  /**
   * The fields of an `xplMsg`. `buffer` is `m_pBuffer` (`None` for NULL) and
   * `bufferSize` is `m_bufferSize`.
   */
  datatype Msg = Msg(
    msgType: string,
    hop: uint32,
    source: string,
    target: string,
    schemaClass: string,
    schemaType: string,
    items: seq<Item>,
    buffer: Option<string>,
    bufferSize: uint32)

  /** The default constructor: hop 1, empty fields, no buffer. */
  const Default: Msg := Msg([], 1, [], [], [], [], [], None, 0)

  /** `InvalidateRawData`: the buffer is released and its size reset. */
  function Invalidate(m: Msg): (r: Msg)
    ensures r.buffer.None? && r.bufferSize == 0
    ensures r == m.(buffer := None, bufferSize := 0)
  {
    m.(buffer := None, bufferSize := 0)
  }

  // ----- Field setters -----------------------------------------------------------------

  /** `SetHop`: at most 9, refused otherwise; the buffer is released either way. */
  function SetHop(m: Msg, hop: uint32): (r: (bool, Msg))
    ensures r.0 <==> hop <= 9
    ensures r.0 ==> r.1 == Invalidate(m).(hop := hop)
    ensures !r.0 ==> r.1 == Invalidate(m)
  {
    if hop > 9 then (false, Invalidate(m)) else (true, Invalidate(m).(hop := hop))
  }

  /** `SetType`: one of the three type names, in any case, stored lower-cased. */
  function SetType(m: Msg, t: string): (r: (bool, Msg))
    ensures r.0 <==> XplMsg.IsMsgType(Lower(t))
    ensures r.0 ==> r.1 == Invalidate(m).(msgType := Lower(t)) && XplMsg.IsMsgType(r.1.msgType)
    ensures !r.0 ==> r.1 == Invalidate(m)
  {
    var lower := Lower(t);
    if !XplMsg.IsMsgType(lower) then (false, Invalidate(m)) else (true, Invalidate(m).(msgType := lower))
  }

  /**
   * The check `SetSource` and `SetTarget` make of `vendor-device.instance`:
   * cut at the first '-', the vendor has 1 to 8 characters and the rest is
   * not empty; the rest cut at its first '.' gives a device of 1 to 8 and an
   * instance of 1 to 16 characters. Parts are trimmed before they are
   * measured.
   */
  predicate AddressAccepted(text: string) {
    var (vendor, rest) := SplitParts(text, '-');
    var (device, instance) := SplitParts(rest, '.');
    && 1 <= |vendor| <= 8 && rest != []
    && 1 <= |device| <= 8 && 1 <= |instance| <= 16
  }

  /** `SetSource`: an accepted text is stored whole, lower-cased. */
  function SetSource(m: Msg, text: string): (r: (bool, Msg))
    ensures r.0 <==> AddressAccepted(text)
    ensures r.0 ==> r.1 == Invalidate(m).(source := Lower(text)) && IsLower(r.1.source)
    ensures !r.0 ==> r.1 == Invalidate(m)
    ensures '-' !in text ==> !r.0
  {
    if !AddressAccepted(text) then (false, Invalidate(m))
    else
      LowerIsLower(text);
      (true, Invalidate(m).(source := Lower(text)))
  }

  /** `SetTarget`: "*" is stored as it is; anything else as in `SetSource`. */
  function SetTarget(m: Msg, text: string): (r: (bool, Msg))
    ensures text == "*" ==> r == (true, Invalidate(m).(target := "*"))
    ensures text != "*" ==> (r.0 <==> AddressAccepted(text))
    ensures text != "*" && r.0 ==> r.1 == Invalidate(m).(target := Lower(text)) && IsLower(r.1.target)
    ensures !r.0 ==> r.1 == Invalidate(m)
  {
    if text == "*" then (true, Invalidate(m).(target := "*"))
    else if !AddressAccepted(text) then (false, Invalidate(m))
    else
      LowerIsLower(text);
      (true, Invalidate(m).(target := Lower(text)))
  }

  /** `SetSchemaClass`: 1 to 8 characters, stored lower-cased. */
  function SetSchemaClass(m: Msg, c: string): (r: (bool, Msg))
    ensures r.0 <==> c != [] && |c| <= 8
    ensures r.0 ==> r.1 == Invalidate(m).(schemaClass := Lower(c))
    ensures !r.0 ==> r.1 == Invalidate(m)
  {
    if !XplMsg.IsSchemaPart(c) then (false, Invalidate(m)) else (true, Invalidate(m).(schemaClass := Lower(c)))
  }

  /** `SetSchemaType`: 1 to 8 characters, stored lower-cased. */
  function SetSchemaType(m: Msg, t: string): (r: (bool, Msg))
    ensures r.0 <==> t != [] && |t| <= 8
    ensures r.0 ==> r.1 == Invalidate(m).(schemaType := Lower(t))
    ensures !r.0 ==> r.1 == Invalidate(m)
  {
    if !XplMsg.IsSchemaPart(t) then (false, Invalidate(m)) else (true, Invalidate(m).(schemaType := Lower(t)))
  }

  // ----- What the setters accept ---------------------------------------------------------

  /** An accepted text is the joined text of valid parts: the vendor, device and instance the check measured. */
  lemma AcceptedTextParts(text: string)
    requires AddressAccepted(text)
    ensures var (v, rest) := SplitParts(text, '-');
            var (d, i) := SplitParts(rest, '.');
            XplMsg.IsAddressParts(v, d, i, 8)
  {
    var (v, rest) := SplitParts(text, '-');
    assert rest != [];
    assert '-' in text;
    var (d, i) := SplitParts(rest, '.');
    assert d != [];
    assert '.' in rest;
  }

  /** Conversely, the joined text of valid parts is accepted. */
  lemma PartsTextAccepted(v: string, d: string, i: string)
    requires XplMsg.IsAddressParts(v, d, i, 8)
    ensures AddressAccepted(XplMsg.AddressText(v, d, i))
  {
    XplMsg.SplitAddressText(v, d, i, 8);
  }

  /** Only the full type names are accepted: "trig", which the Poco port expands, is refused here. */
  lemma ShortTypeRefused(m: Msg, pm: XplMsg.Msg)
    ensures !SetType(m, "trig").0
    ensures XplMsg.SetType(pm, "trig").0
  {
    assert Lower("trig") == "trig";
    assert XplMsg.IsTypeSpelling(Lower("trig"));
  }

  /** A nine-character vendor is refused as a target here, and accepted as a target by the Poco port. */
  lemma LongVendorTargetRefused(m: Msg, pm: XplMsg.Msg)
    ensures !SetTarget(m, "vendorabc-lamp.hall").0
    ensures XplMsg.SetTarget(pm, "vendorabc-lamp.hall").0
  {
    XplMsg.LongVendorSourceVersusTarget(pm);
    LongVendor();
  }

  lemma LongVendor()
    ensures |SplitParts("vendorabc-lamp.hall", '-').0| == 9
    ensures "vendorabc-lamp.hall" != "*"
  {
    assert XplMsg.AddressText("vendorabc", "lamp", "hall") == "vendorabc-lamp.hall";
    XplMsg.SplitAddressText("vendorabc", "lamp", "hall", 9);
  }

  // ----- Body values ---------------------------------------------------------------------

  /** `AddValue`: releases the buffer and adds the value to the items. */
  function AddValue(m: Msg, name: string, value: string, delim: char, split: Splitter): (r: Msg)
    ensures r == Invalidate(m).(items := r.items)
    ensures r.items == MsgItems.AddValue(m.items, name, value, delim, split)
  {
    Invalidate(m).(items := MsgItems.AddValue(m.items, name, value, delim, split))
  }

  /** `SetValue`: releases the buffer, then sets a value of the item with exactly this name. */
  function SetValue(m: Msg, name: string, value: string, index: uint32): (r: (bool, Msg))
    ensures r.1 == Invalidate(m).(items := r.1.items)
    ensures r == (MsgItems.SetValue(m.items, name, value, index).0, Invalidate(m).(items := MsgItems.SetValue(m.items, name, value, index).1))
  {
    var (ok, items) := MsgItems.SetValue(m.items, name, value, index);
    (ok, Invalidate(m).(items := items))
  }

  // ----- Creating a message ------------------------------------------------------------------

  /** One header line handed to its setter; the reader lets through no other name. */
  function HeaderItem(m: Msg, p: Pair): (r: Msg)
    ensures r.msgType == m.msgType && r.schemaClass == m.schemaClass && r.schemaType == m.schemaType && r.items == m.items
    ensures m.hop <= 9 ==> r.hop <= 9
  {
    if p.name == "hop" then SetHop(m, ToUint32(Atol(p.value))).1
    else if p.name == "source" then SetSource(m, p.value).1
    else if p.name == "target" then SetTarget(m, p.value).1
    else m
  }

  /** The header lines, in order. */
  function ApplyHeader(m: Msg, h: seq<Pair>): (r: Msg)
    ensures r.msgType == m.msgType && r.schemaClass == m.schemaClass && r.schemaType == m.schemaType && r.items == m.items
    ensures m.hop <= 9 ==> r.hop <= 9
    decreases |h|
  {
    if |h| == 0 then m else ApplyHeader(HeaderItem(m, h[0]), h[1..])
  }

  /** The body lines, in order; each `AddValue` releases the buffer. */
  function ApplyBody(m: Msg, ps: seq<Pair>, split: Splitter): (r: Msg)
    ensures r == m.(buffer := r.buffer, bufferSize := r.bufferSize, items := r.items)
    ensures |ps| == 0 ==> r == m
  {
    if |ps| == 0 then m else Invalidate(m).(items := XplMsg.AddAll(m.items, ps, split))
  }

  /** The setters applied to a frame, starting from the default message. */
  function FromFrame(f: Frame, split: Splitter): (r: Msg)
    ensures r.hop <= 9
  {
    var m1 := SetType(Default, f.typeLine).1;
    var m2 := ApplyHeader(m1, f.header);
    var (schemaClass, schemaType) := SplitParts(f.schemaLine, '.');
    var m3 := SetSchemaType(SetSchemaClass(m2, schemaClass).1, schemaType).1;
    ApplyBody(m3, f.body, split)
  }

  /**
   * `Create(buffer)`: NULL (`None`) exactly when the frame reader fails;
   * otherwise the buffer holds the characters the reader consumed, and its
   * size is their number, without a terminator.
   */
  function Create(s: string, split: Splitter): (r: Option<Msg>)
    ensures r.Some? <==> ReadFrame(s).Success?
    ensures r.Some? ==> r.value.hop <= 9
    ensures r.Some? ==>
      var pos := ReadFrame(s).value.1;
      r.value.buffer == Some(s[..pos]) && r.value.bufferSize == ToUint32(pos)
  {
    match ReadFrame(s)
    case Failure(_) => None
    case Success((f, pos)) => Some(FromFrame(f, split).(buffer := Some(s[..pos]), bufferSize := ToUint32(pos)))
  }

  /**
   * `Create(type, source, target, class, type)`: the five setters on a
   * default message, their results ignored; each field holds its argument
   * (lower-cased) exactly when that setter accepted it.
   */
  function CreateFrom(t: string, source: string, target: string, c: string, st: string): (r: Msg)
    ensures r.hop == 1 && r.items == [] && r.buffer.None? && r.bufferSize == 0
    ensures r.msgType == (if XplMsg.IsMsgType(Lower(t)) then Lower(t) else [])
    ensures r.source == (if AddressAccepted(source) then Lower(source) else [])
    ensures r.target == (if target == "*" then "*" else if AddressAccepted(target) then Lower(target) else [])
    ensures r.schemaClass == (if c != [] && |c| <= 8 then Lower(c) else [])
    ensures r.schemaType == (if st != [] && |st| <= 8 then Lower(st) else [])
  {
    var m1 := SetType(Default, t).1;
    var m2 := SetSource(m1, source).1;
    var m3 := SetTarget(m2, target).1;
    var m4 := SetSchemaClass(m3, c).1;
    SetSchemaType(m4, st).1
  }

  // ----- Rendering ---------------------------------------------------------------------------

  /** `%d` of the hop: the `uint32` is read as an `int`. */
  function PercentD(hop: uint32): (s: string)
    ensures |s| == 1 <==> hop <= 9
    ensures Atol(s) == ToInt32(hop)
  {
    PercentDLength(hop);
    SignedDecimal(ToInt32(hop))
  }

  /** One character exactly for a single digit; a hop of 2^31 or more prints with a sign. */
  lemma PercentDLength(hop: uint32)
    ensures |SignedDecimal(ToInt32(hop))| == 1 <==> hop <= 9
  {
    var n := ToInt32(hop);
    SignedDecimalLength(n);
    assert 0 <= n <= 9 <==> hop <= 9;
  }

  /** The lines `GetRawData` writes, as a frame. */
  function FrameOf(m: Msg): Frame {
    Frame(
      m.msgType,
      [Pair("hop", PercentD(m.hop)), Pair("source", m.source), Pair("target", m.target)],
      m.schemaClass + "." + m.schemaType,
      XplMsg.BodyPairs(m.items))
  }

  function Render(m: Msg): string {
    Write(FrameOf(m))
  }

  /** The characters the size computation counts for one item: name, '=', value and line feed per value. */
  function ValuesSize(name: string, vs: seq<string>): nat
    decreases |vs|
  {
    if |vs| == 0 then 0 else ValuesSize(name, vs[..|vs| - 1]) + |name| + |vs[|vs| - 1]| + 2
  }

  function ItemsSize(items: seq<Item>): nat
    decreases |items|
  {
    if |items| == 0 then 0
    else ItemsSize(items[..|items| - 1]) + ValuesSize(items[|items| - 1].name, items[|items| - 1].values)
  }

  /**
   * The size `GetRawData` computes before writing: the header with 26
   * characters of fixed text, the schema line and braces with 6, the body
   * lines, and one for the terminator.
   */
  function ComputedSize(m: Msg): nat {
    |m.msgType| + 1 + |m.source| + |m.target| + 26
    + |m.schemaClass| + |m.schemaType| + 6
    + ItemsSize(m.items)
    + 1
  }

  /**
   * `GetRawData`: the buffer and its size when there is a buffer; otherwise
   * the text is written into a new buffer of the computed size (kept in
   * `m_bufferSize`, 32 bits wide).
   */
  function GetRawData(m: Msg): (r: (uint32, string, Msg))
    ensures m.buffer.Some? ==> r == (m.bufferSize, m.buffer.value, m)
    ensures m.buffer.None? ==> r.1 == Render(m) && r.0 == ToUint32(ComputedSize(m))
    ensures r.2 == m.(buffer := Some(r.1), bufferSize := r.0)
  {
    match m.buffer
    case Some(text) => (m.bufferSize, text, m)
    case None =>
      var size := ToUint32(ComputedSize(m));
      (size, Render(m), m.(buffer := Some(Render(m)), bufferSize := size))
  }

  /** `operator==`: `strcmp` of the two texts; both buffers get filled. */
  function Equal(a: Msg, b: Msg): (r: (bool, Msg, Msg))
    ensures r.0 <==> GetRawData(a).1 == GetRawData(b).1
    ensures r.1 == GetRawData(a).2 && r.2 == GetRawData(b).2
    ensures a == b ==> r.0
  {
    var (_, ta, a1) := GetRawData(a);
    var (_, tb, b1) := GetRawData(b);
    (ta == tb, a1, b1)
  }

  // ----- The size computation against the written text ----------------------------------

  /** The length of the text of lines `ls`, each with its line feed. */
  function LinesSize(ls: seq<string>): nat
    decreases |ls|
  {
    if |ls| == 0 then 0 else LinesSize(ls[..|ls| - 1]) + |ls[|ls| - 1]| + 1
  }

  lemma {:induction false} TextSize(ls: seq<string>, j: nat)
    requires j <= |ls|
    ensures |Text(ls, 0, j)| == LinesSize(ls[..j])
    decreases j
  {
    if j > 0 {
      TextSize(ls, j - 1);
      assert ls[..j][..j - 1] == ls[..j - 1];
    }
  }

  lemma {:induction false} LinesSizeAppend(a: seq<string>, b: seq<string>)
    ensures LinesSize(a + b) == LinesSize(a) + LinesSize(b)
    decreases |b|
  {
    if |b| == 0 {
      assert a + b == a;
    } else {
      assert (a + b)[..|a + b| - 1] == a + b[..|b| - 1];
      LinesSizeAppend(a, b[..|b| - 1]);
    }
  }

  lemma PairLinesAppend(a: seq<Pair>, b: seq<Pair>)
    ensures PairLines(a + b) == PairLines(a) + PairLines(b)
  {
  }

  lemma {:induction false} ItemLinesSize(it: Item)
    ensures LinesSize(PairLines(XplMsg.ItemPairs(it))) == ValuesSize(it.name, it.values)
    decreases |it.values|
  {
    var n := |it.values|;
    var ls := PairLines(XplMsg.ItemPairs(it));
    if n > 0 {
      var init := Item(it.name, it.values[..n - 1]);
      assert ls[..n - 1] == PairLines(XplMsg.ItemPairs(init));
      assert ls[n - 1] == it.name + "=" + it.values[n - 1];
      ItemLinesSize(init);
    }
  }

  lemma {:induction false} BodyLinesSize(items: seq<Item>)
    ensures LinesSize(PairLines(XplMsg.BodyPairs(items))) == ItemsSize(items)
    decreases |items|
  {
    if |items| > 0 {
      var init := items[..|items| - 1];
      var last := items[|items| - 1];
      PairLinesAppend(XplMsg.BodyPairs(init), XplMsg.ItemPairs(last));
      LinesSizeAppend(PairLines(XplMsg.BodyPairs(init)), PairLines(XplMsg.ItemPairs(last)));
      BodyLinesSize(init);
      ItemLinesSize(last);
    }
  }

  lemma LinesSizeTwo(x: string, y: string)
    ensures LinesSize([x, y]) == |x| + |y| + 2
  {
    assert [x, y][..1] == [x];
    LinesSizeOne(x);
  }

  lemma LinesSizeOne(x: string)
    ensures LinesSize([x]) == |x| + 1
  {
    assert [x][..0] == [];
  }

  lemma LinesSizeThree(x: string, y: string, z: string)
    ensures LinesSize([x, y, z]) == |x| + |y| + |z| + 3
  {
    assert [x, y, z][..2] == [x, y];
    LinesSizeTwo(x, y);
  }

  /** The header lines' length: fixed text, the hop digits and the two addresses. */
  lemma HeaderLinesSize(m: Msg)
    ensures LinesSize(PairLines(FrameOf(m).header)) == |PercentD(m.hop)| + |m.source| + |m.target| + 21
  {
    var hop, src, tgt := Pair("hop", PercentD(m.hop)), Pair("source", m.source), Pair("target", m.target);
    assert FrameOf(m).header == [hop, src, tgt];
    PairLinesThree(hop, src, tgt);
    HeaderNameSizes();
    LinesSizeThree(PairText(hop), PairText(src), PairText(tgt));
  }

  lemma PairLinesThree(a: Pair, b: Pair, c: Pair)
    ensures PairLines([a, b, c]) == [PairText(a), PairText(b), PairText(c)]
    ensures |PairText(a)| == |a.name| + 1 + |a.value|
    ensures |PairText(b)| == |b.name| + 1 + |b.value|
    ensures |PairText(c)| == |c.name| + 1 + |c.value|
  {
  }

  lemma HeaderNameSizes()
    ensures |"hop"| == 3 && |"source"| == 6 && |"target"| == 6
  {
  }

  /**
   * The computed size counts the hop as one character: it exceeds the
   * written text by one (the terminator) plus one less than the number of
   * characters `%d` writes for the hop.
   */
  lemma RenderedSize(m: Msg)
    ensures ComputedSize(m) + |PercentD(m.hop)| == |Render(m)| + 2
  {
    WrittenSize(FrameOf(m));
    FrameLinesSize(FrameOf(m));
    HeaderLinesSize(m);
    BodyLinesSize(m.items);
  }

  /** The written text is as long as its lines with their line feeds. */
  lemma WrittenSize(f: Frame)
    ensures |Write(f)| == LinesSize(FrameLines(f))
  {
    TextSize(FrameLines(f), |FrameLines(f)|);
    assert FrameLines(f)[..|FrameLines(f)|] == FrameLines(f);
  }

  /** The lines of a frame: type, braces and schema line around the header and body lines. */
  lemma FrameLinesSize(f: Frame)
    ensures LinesSize(FrameLines(f))
      == |f.typeLine| + |f.schemaLine| + 10 + LinesSize(PairLines(f.header)) + LinesSize(PairLines(f.body))
  {
    var a := [f.typeLine, "{"];
    var h := PairLines(f.header);
    var c := ["}", f.schemaLine, "{"];
    var b := PairLines(f.body);
    var z := ["}"];
    assert FrameLines(f) == a + h + c + b + z;
    LinesSizeAppend(a + h + c + b, z);
    LinesSizeAppend(a + h + c, b);
    LinesSizeAppend(a + h, c);
    LinesSizeAppend(a, h);
    LinesSizeTwo(f.typeLine, "{");
    LinesSizeThree("}", f.schemaLine, "{");
    LinesSizeOne("}");
  }

  /**
   * The check at the end of `GetRawData`: the size it computed is the
   * written length plus the terminator exactly when the hop has one digit
   * (as long as the size fits in 32 bits).
   */
  lemma SizeMatchesText(m: Msg)
    requires m.buffer.None? && ComputedSize(m) < 0x1_0000_0000
    ensures GetRawData(m).0 == |GetRawData(m).1| + 1 <==> m.hop <= 9
  {
    RenderedSize(m);
  }

  /** A message that `Create` made reports its size without the terminator that a written one counts. */
  lemma CreatedSizeOmitsTerminator(s: string, split: Splitter)
    requires |s| < 0x1_0000_0000 && Create(s, split).Some?
    ensures GetRawData(Create(s, split).value).0 == |GetRawData(Create(s, split).value).1|
  {
  }

  // ----- The hop stays one digit --------------------------------------------------------------

  /** The operations that change a message. */
  datatype Op =
    | SetHopOp(hop: uint32)
    | SetTypeOp(t: string)
    | SetSourceOp(text: string)
    | SetTargetOp(text: string)
    | SetSchemaClassOp(c: string)
    | SetSchemaTypeOp(st: string)
    | AddValueOp(name: string, value: string, delim: char)
    | SetValueOp(name: string, value: string, index: uint32)
    | GetRawDataOp

  function Apply(m: Msg, op: Op, split: Splitter): Msg {
    match op
    case SetHopOp(hop) => SetHop(m, hop).1
    case SetTypeOp(t) => SetType(m, t).1
    case SetSourceOp(text) => SetSource(m, text).1
    case SetTargetOp(text) => SetTarget(m, text).1
    case SetSchemaClassOp(c) => SetSchemaClass(m, c).1
    case SetSchemaTypeOp(st) => SetSchemaType(m, st).1
    case AddValueOp(name, value, delim) => AddValue(m, name, value, delim, split)
    case SetValueOp(name, value, index) => SetValue(m, name, value, index).1
    case GetRawDataOp => GetRawData(m).2
  }

  function ApplyAll(m: Msg, ops: seq<Op>, split: Splitter): Msg
    decreases |ops|
  {
    if |ops| == 0 then m else ApplyAll(Apply(m, ops[0], split), ops[1..], split)
  }

  /**
   * No sequence of operations, from a default, created or constructed
   * message, gets the hop past 9, so the size check in `GetRawData` can
   * only fail on a field holding a NUL character.
   */
  lemma {:induction false} HopStaysDigit(m: Msg, ops: seq<Op>, split: Splitter)
    requires m.hop <= 9
    ensures ApplyAll(m, ops, split).hop <= 9
    decreases |ops|
  {
    if |ops| > 0 {
      HopStaysDigit(Apply(m, ops[0], split), ops[1..], split);
    }
  }

  // ----- Writing then creating gives the message back ------------------------------------------

  /** An address text that the setters store back unchanged. */
  predicate IsCanonicalAddressText(a: string) {
    AddressAccepted(a) && IsLower(a) && IsLineText(a)
  }

  /** A message whose written text `Create` turns back into the same message. */
  predicate IsCanonical(m: Msg, split: Splitter) {
    && IsCanonicalHeader(m)
    && XplMsg.IsCanonicalSchema(m.schemaClass, m.schemaType)
    && XplMsg.IsCanonicalBody(m.items, split)
  }

  /** A type name, a one-digit hop, and addresses the setters store back unchanged ("*" for the target too). */
  predicate IsCanonicalHeader(m: Msg) {
    && XplMsg.IsMsgType(m.msgType) && m.hop <= 9
    && IsCanonicalAddressText(m.source)
    && (m.target == "*" || IsCanonicalAddressText(m.target))
  }

  lemma HeaderLineTexts(m: Msg)
    requires IsCanonicalHeader(m)
    ensures IsLineText(m.source) && IsLineText(m.target)
  {
    if m.target == "*" {
      StarIsLineText();
    }
  }

  lemma StarIsLineText()
    ensures IsLineText("*")
  {
    assert "*"[0] == '*';
  }

  lemma HeaderWritable(m: Msg)
    requires m.hop <= 9 && IsLineText(m.source) && IsLineText(m.target)
    ensures forall k | 0 <= k < |FrameOf(m).header| :: IsWritablePair(FrameOf(m).header[k]) && IsHeaderName(FrameOf(m).header[k].name)
  {
    var hop := PercentD(m.hop);
    assert FrameOf(m).header == [Pair("hop", hop), Pair("source", m.source), Pair("target", m.target)];
    XplMsg.DigitsAreLineText(hop);
    HeaderLinesWritable(hop, m.source, m.target);
  }

  lemma FrameWritable(m: Msg, split: Splitter)
    requires IsCanonical(m, split)
    ensures IsWritable(FrameOf(m))
  {
    HeaderLineTexts(m);
    XplMsg.MsgTypeIsLineText(m.msgType);
    HeaderWritable(m);
    XplMsg.SchemaIsLineText(m.schemaClass, m.schemaType);
    XplMsg.BodyWritable(m.items, split);
  }

  lemma HopLine(x: Msg, hop: uint32)
    requires hop <= 9
    ensures HeaderItem(x, Pair("hop", PercentD(hop))) == Invalidate(x).(hop := hop)
  {
  }

  lemma SourceLine(x: Msg, a: string)
    requires IsCanonicalAddressText(a)
    ensures HeaderItem(x, Pair("source", a)) == Invalidate(x).(source := a)
  {
    LowerOfLower(a);
  }

  lemma TargetLine(x: Msg, a: string)
    requires a == "*" || IsCanonicalAddressText(a)
    ensures HeaderItem(x, Pair("target", a)) == Invalidate(x).(target := a)
  {
    if a != "*" {
      LowerOfLower(a);
    }
  }

  lemma ApplyHeaderStep(x: Msg, h: seq<Pair>)
    requires |h| > 0
    ensures ApplyHeader(x, h) == ApplyHeader(HeaderItem(x, h[0]), h[1..])
  {
  }

  /** A three-line header is applied line by line, in order. */
  lemma ApplyThreeLines(x: Msg, h: seq<Pair>)
    requires |h| == 3
    ensures ApplyHeader(x, h) == HeaderItem(HeaderItem(HeaderItem(x, h[0]), h[1]), h[2])
  {
    var x1 := HeaderItem(x, h[0]);
    ApplyHeaderStep(x, h);
    ApplyHeaderStep(x1, h[1..]);
    assert h[1..][1..] == [h[2]];
    ApplyHeaderStep(HeaderItem(x1, h[1]), [h[2]]);
    assert [h[2]][1..] == [];
  }

  lemma HeaderOfCanonical(x: Msg, m: Msg)
    requires IsCanonicalHeader(m)
    ensures ApplyHeader(x, FrameOf(m).header) == Invalidate(x).(hop := m.hop, source := m.source, target := m.target)
  {
    var x1 := Invalidate(x).(hop := m.hop);
    var x2 := Invalidate(x1).(source := m.source);
    HopLine(x, m.hop);
    SourceLine(x1, m.source);
    TargetLine(x2, m.target);
    ApplyThreeLines(x, FrameOf(m).header);
  }

  lemma SchemaOfCanonical(x: Msg, c: string, t: string)
    requires XplMsg.IsCanonicalSchema(c, t)
    ensures SplitParts(c + "." + t, '.') == (c, t)
    ensures SetSchemaType(SetSchemaClass(x, c).1, t).1 == Invalidate(x).(schemaClass := c, schemaType := t)
  {
    assert c + "." + t == c + ['.'] + t;
    SplitJoin(c, '.', t);
    LowerOfLower(c);
    LowerOfLower(t);
  }

  lemma TypeOfCanonical(t: string)
    requires XplMsg.IsMsgType(t)
    ensures SetType(Default, t).1 == Default.(msgType := t)
  {
    XplMsg.MsgTypeIsLower(t);
  }

  lemma BodyOfCanonical(y: Msg, items: seq<Item>, split: Splitter)
    requires y.items == [] && y.buffer.None? && y.bufferSize == 0
    requires XplMsg.IsCanonicalBody(items, split)
    ensures ApplyBody(y, XplMsg.BodyPairs(items), split) == y.(items := items)
  {
    XplMsg.BodyRebuilt(items, split);
  }

  lemma FromFrameOfCanonical(m: Msg, split: Splitter)
    requires IsCanonical(m, split)
    ensures FromFrame(FrameOf(m), split) == m.(buffer := None, bufferSize := 0)
  {
    TypeOfCanonical(m.msgType);
    var m1 := Default.(msgType := m.msgType);
    HeaderOfCanonical(m1, m);
    var m2 := Invalidate(m1).(hop := m.hop, source := m.source, target := m.target);
    SchemaOfCanonical(m2, m.schemaClass, m.schemaType);
    var m3 := Invalidate(m2).(schemaClass := m.schemaClass, schemaType := m.schemaType);
    BodyOfCanonical(m3, m.items, split);
  }

  /**
   * `Create` on the written text of a canonical message gives the message
   * back, holding that text as its buffer.
   */
  lemma CreateRendered(m: Msg, split: Splitter)
    requires IsCanonical(m, split)
    ensures Create(Render(m), split) == Some(m.(buffer := Some(Render(m)), bufferSize := ToUint32(|Render(m)|)))
  {
    CanonicalFrameRead(m, split);
    FromFrameOfCanonical(m, split);
    TakeAll(Render(m));
  }

  lemma CanonicalFrameRead(m: Msg, split: Splitter)
    requires IsCanonical(m, split)
    ensures ReadFrame(Render(m)) == Success((FrameOf(m), |Render(m)|))
  {
    FrameWritable(m, split);
    FrameRoundTrip(FrameOf(m));
  }

  lemma TakeAll<X>(xs: seq<X>)
    ensures xs[..|xs|] == xs
  {
  }
}

=== FILE: wire_format.dfy ===
/**
 * The text grammar of an xPL message, shared by both codecs:
 *
 *   type line, "{", header "name=value" lines, "}",
 *   "class.type" line, "{", body "name=value" lines, "}"
 *
 * `ReadFrame` is the reading half of `XplMsg::ParseFromString` and
 * `xplMsg::Create`: it finds the lines and raises the same three structural
 * errors. Neither codec lets a field setter influence the reading (their
 * results are ignored), so each codec is its frame reader followed by its
 * setters, applied in the order the C++ code calls them. `Write` is the
 * line-by-line writing half of `GetRawData`; `FrameRoundTrip` proves the two
 * are inverse on text the writer can produce.
 */
module WireFormat {
  import opened Wrappers
  import opened StringUtils

  /** The three exceptions `ParseFromString` throws (NULL returns in `Create`). */
  datatype ParseError = OpeningBraceNotFound | InvalidHeaderItem | UnterminatedBody

  /** One `name=value` line as `ReadNameValuePair` returns it. */
  datatype Pair = Pair(name: string, value: string)

  /** The lines of a message, before any field setter has looked at them. */
  datatype Frame = Frame(typeLine: string, header: seq<Pair>, schemaLine: string, body: seq<Pair>)

  /** The only names a header line may carry. */
  predicate IsHeaderName(name: string) {
    name == "hop" || name == "source" || name == "target"
  }

  // ----- Reading ---------------------------------------------------------------

  /**
   * `ReadNameValuePair`: read one line and split it at its first `=`. A line
   * without `=` comes back whole as the name, with an empty value (the
   * caller's fresh `value` variable), which is how a closing brace is seen.
   */
  function ReadNameValuePair(s: string, start: nat): (r: (Pair, nat))
    requires start <= |s|
    ensures r.1 == ReadLine(s, start).1
    ensures '=' in ReadLine(s, start).0 ==> Some((r.0.name, r.0.value)) == Split(ReadLine(s, start).0, '=')
    ensures '=' !in ReadLine(s, start).0 ==> r.0 == Pair(ReadLine(s, start).0, [])
    ensures r.0.name != [] ==> start < r.1
  {
    var (line, pos) := ReadLine(s, start);
    match Split(line, '=')
    case Some((name, value)) => (Pair(name, value), pos)
    case None => (Pair(line, []), pos)
  }

  /** The header lines up to and including the closing brace. */
  function ReadHeader(s: string, pos: nat): (r: Result<(seq<Pair>, nat), ParseError>)
    requires pos <= |s|
    ensures r.Success? ==> pos < r.value.1 <= |s|
    ensures r.Success? ==> forall k | 0 <= k < |r.value.0| :: IsHeaderName(r.value.0[k].name)
    ensures r.Failure? ==> r.error == InvalidHeaderItem
    ensures var name := ReadNameValuePair(s, pos).0.name;
      name != "}" && !IsHeaderName(name) ==> r == Failure(InvalidHeaderItem)
    decreases |s| - pos
  {
    var (pair, p) := ReadNameValuePair(s, pos);
    if pair.name == "}" then Success(([], p))
    else if IsHeaderName(pair.name) then
      match ReadHeader(s, p)
      case Success((rest, e)) =>
        HeaderCons(pair, rest);
        Success(([pair] + rest, e))
      case Failure(err) => Failure(err)
    else Failure(InvalidHeaderItem)
  }

  lemma HeaderCons(pair: Pair, rest: seq<Pair>)
    requires IsHeaderName(pair.name) && forall k | 0 <= k < |rest| :: IsHeaderName(rest[k].name)
    ensures forall k | 0 <= k < |[pair] + rest| :: IsHeaderName(([pair] + rest)[k].name)
  {
  }

  /** The body lines up to and including the closing brace. */
  function ReadBody(s: string, pos: nat): (r: Result<(seq<Pair>, nat), ParseError>)
    requires pos <= |s|
    ensures r.Success? ==> pos < r.value.1 <= |s|
    ensures r.Success? ==> forall k | 0 <= k < |r.value.0| :: r.value.0[k].name != [] && r.value.0[k].name != "}"
    ensures r.Failure? ==> r.error == UnterminatedBody
    decreases |s| - pos
  {
    var (pair, p) := ReadNameValuePair(s, pos);
    if pair.name == [] then Failure(UnterminatedBody)
    else if pair.name == "}" then Success(([], p))
    else
      match ReadBody(s, p)
      case Success((rest, e)) =>
        BodyCons(pair, rest);
        Success(([pair] + rest, e))
      case Failure(err) => Failure(err)
  }

  lemma BodyCons(pair: Pair, rest: seq<Pair>)
    requires pair.name != [] && pair.name != "}"
    requires forall k | 0 <= k < |rest| :: rest[k].name != [] && rest[k].name != "}"
    ensures forall k | 0 <= k < |[pair] + rest| :: ([pair] + rest)[k].name != [] && ([pair] + rest)[k].name != "}"
  {
  }

  /**
   * The whole grammar; on success also the position just past the closing
   * brace of the body, which is how much of the text was consumed.
   */
  function ReadFrame(s: string): (r: Result<(Frame, nat), ParseError>)
    ensures r.Success? ==> r.value.1 <= |s|
    ensures r.Success? ==> forall k | 0 <= k < |r.value.0.header| :: IsHeaderName(r.value.0.header[k].name)
    ensures r.Success? ==> forall k | 0 <= k < |r.value.0.body| :: r.value.0.body[k].name != [] && r.value.0.body[k].name != "}"
    ensures ReadLine(s, ReadLine(s, 0).1).0 != "{" ==> r == Failure(OpeningBraceNotFound)
    ensures var (brace, p1) := ReadLine(s, ReadLine(s, 0).1);
      brace == "{" && ReadHeader(s, p1).Failure? ==> r == Failure(InvalidHeaderItem)
    ensures var (brace, p1) := ReadLine(s, ReadLine(s, 0).1);
      brace == "{" && ReadHeader(s, p1).Success? ==>
        var (brace2, p4) := ReadLine(s, ReadLine(s, ReadHeader(s, p1).value.1).1);
        && (brace2 != "{" ==> r == Failure(OpeningBraceNotFound))
        && (brace2 == "{" && ReadBody(s, p4).Failure? ==> r == Failure(UnterminatedBody))
  {
    var (typeLine, p0) := ReadLine(s, 0);
    var (brace, p1) := ReadLine(s, p0);
    if brace != "{" then Failure(OpeningBraceNotFound)
    else
      match ReadHeader(s, p1)
      case Failure(err) => Failure(err)
      case Success((header, p2)) =>
        var (schemaLine, p3) := ReadLine(s, p2);
        var (brace2, p4) := ReadLine(s, p3);
        if brace2 != "{" then Failure(OpeningBraceNotFound)
        else
          match ReadBody(s, p4)
          case Failure(err) => Failure(err)
          case Success((body, p5)) => Success((Frame(typeLine, header, schemaLine, body), p5))
  }

  // ----- Failure cases ---------------------------------------------------------

  /** Reaching the end of the data inside the header is an invalid header item. */
  lemma HeaderAtEnd(s: string, pos: nat)
    requires pos <= |s| && AtEnd(s, pos)
    ensures ReadHeader(s, pos) == Failure(InvalidHeaderItem)
  {
    ReadLineAtEnd(s, pos);
  }

  /** Reaching the end of the data inside the body is an unterminated body. */
  lemma BodyAtEnd(s: string, pos: nat)
    requires pos <= |s| && AtEnd(s, pos)
    ensures ReadBody(s, pos) == Failure(UnterminatedBody)
  {
    ReadLineAtEnd(s, pos);
  }

  /** A line read as the name `}` has a `}` in the text it consumed. */
  lemma CloseNameFromText(s: string, pos: nat)
    requires pos <= |s| && ReadNameValuePair(s, pos).0.name == "}"
    ensures '}' in s[pos..ReadNameValuePair(s, pos).1]
  {
    var (line, p) := ReadLine(s, pos);
    if '=' in line {
      var i := IndexOf(line, '=').value;
      TrimRangeSlice(line, 0, i);
      assert line[TrimStart(line, 0, i)] == '}';
    }
    ReadLineFromText(s, pos, '}');
  }

  lemma {:induction false} HeaderNeedsBrace(s: string, pos: nat)
    requires pos <= |s| && ReadHeader(s, pos).Success?
    ensures '}' in s[pos..]
    decreases |s| - pos
  {
    var (pair, p) := ReadNameValuePair(s, pos);
    if pair.name == "}" {
      CloseNameFromText(s, pos);
      assert s[pos..p] == s[pos..][..p - pos];
    } else {
      HeaderNeedsBrace(s, p);
      assert s[p..] == s[pos..][p - pos..];
    }
  }

  /** Without a `}` anywhere in the text, reading fails. */
  lemma NoBraceNoFrame(s: string)
    requires '}' !in s
    ensures ReadFrame(s).Failure?
  {
    var (typeLine, p0) := ReadLine(s, 0);
    var (brace, p1) := ReadLine(s, p0);
    if brace == "{" && ReadHeader(s, p1).Success? {
      HeaderNeedsBrace(s, p1);
      assert false;
    }
  }

  // ----- Writing ---------------------------------------------------------------

  /** Lines `i` to `j - 1` of `ls`, each followed by a line feed. */
  function Text(ls: seq<string>, i: nat, j: nat): string
    requires i <= j <= |ls|
    decreases j
  {
    if i == j then [] else Text(ls, i, j - 1) + ls[j - 1] + "\n"
  }

  /** All of `ls`, each line followed by a line feed. */
  function Lines(ls: seq<string>): string {
    Text(ls, 0, |ls|)
  }

  function PairText(p: Pair): string {
    p.name + "=" + p.value
  }

  function PairLines(ps: seq<Pair>): (r: seq<string>)
    ensures |r| == |ps| && forall k | 0 <= k < |ps| :: r[k] == PairText(ps[k])
  {
    seq(|ps|, k requires 0 <= k < |ps| => PairText(ps[k]))
  }

  /** The lines `GetRawData` writes for a frame, in order. */
  function FrameLines(f: Frame): (r: seq<string>)
    ensures |r| == 6 + |f.header| + |f.body|
  {
    [f.typeLine, "{"] + PairLines(f.header) + ["}", f.schemaLine, "{"] + PairLines(f.body) + ["}"]
  }

  function Write(f: Frame): string {
    Lines(FrameLines(f))
  }

  /** Text the reader gives back unchanged as one line. */
  predicate IsLineText(l: string) {
    l != [] && IsTrimmed(l) && IsSingleLine(l)
  }

  /** A pair whose written line reads back as the same pair. */
  predicate IsWritablePair(p: Pair) {
    IsLineText(p.name) && '=' !in p.name && IsTrimmed(p.value) && IsSingleLine(p.value)
  }

  /** A frame whose written text reads back as the same frame. */
  predicate IsWritable(f: Frame) {
    && IsLineText(f.typeLine)
    && IsLineText(f.schemaLine)
    && (forall k | 0 <= k < |f.header| :: IsWritablePair(f.header[k]) && IsHeaderName(f.header[k].name))
    && (forall k | 0 <= k < |f.body| :: IsWritablePair(f.body[k]) && f.body[k].name != "}")
  }

  /** A header line with a one-line value is writable. */
  lemma HeaderPairWritable(p: Pair)
    requires IsHeaderName(p.name) && IsTrimmed(p.value) && IsSingleLine(p.value)
    ensures IsWritablePair(p)
  {
    if p.name == "hop" {
      assert p.name == ['h', 'o', 'p'];
    } else if p.name == "source" {
      assert p.name == ['s', 'o', 'u', 'r', 'c', 'e'];
    } else {
      assert p.name == ['t', 'a', 'r', 'g', 'e', 't'];
    }
  }

  /** The three header lines `GetRawData` writes are writable when their values are single lines. */
  lemma HeaderLinesWritable(hop: string, source: string, target: string)
    requires IsLineText(hop) && IsLineText(source) && IsLineText(target)
    ensures var h := [Pair("hop", hop), Pair("source", source), Pair("target", target)];
      forall k | 0 <= k < |h| :: IsWritablePair(h[k]) && IsHeaderName(h[k].name)
  {
    HeaderPairWritable(Pair("hop", hop));
    HeaderPairWritable(Pair("source", source));
    HeaderPairWritable(Pair("target", target));
  }

  // ----- Reading back what was written -------------------------------------------

  lemma {:induction false} TextAppend(ls: seq<string>, i: nat, k: nat, j: nat)
    requires i <= k <= j <= |ls|
    ensures Text(ls, i, j) == Text(ls, i, k) + Text(ls, k, j)
    decreases j
  {
    if k < j {
      TextAppend(ls, i, k, j - 1);
    }
  }

  /** Where line `k` starts in the written text. */
  function Offset(ls: seq<string>, k: nat): nat
    requires k <= |ls|
  {
    |Text(ls, 0, k)|
  }

  /** The offsets of lines `k` to `k + n - 1`. */
  function Offsets(ls: seq<string>, k: nat, n: nat): (r: seq<nat>)
    requires k + n <= |ls| + 1
    ensures |r| == n && forall i | 0 <= i < n :: r[i] == Offset(ls, k + i)
  {
    if n == 0 then [] else Offsets(ls, k, n - 1) + [Offset(ls, k + n - 1)]
  }

  /** Line `l`, followed by a line feed, sits at position `o` of `s`. */
  ghost predicate LineIn(s: string, o: nat, l: string) {
    o + |l| < |s| && s[o..o + |l|] == l && s[o + |l|] == '\n'
  }

  /** `s` is the lines `ls` one after another, line `i` starting at `at[i]`. */
  ghost predicate HoldsLines(s: string, ls: seq<string>, at: seq<nat>) {
    && |at| == |ls| + 1 && at[0] == 0 && at[|ls|] == |s|
    && (forall i | 0 <= i < |at| :: at[i] <= |s|)
    && forall i {:trigger LineIn(s, at[i], ls[i])} | 0 <= i < |ls| ::
         LineIn(s, at[i], ls[i]) && at[i + 1] == at[i] + |ls[i]| + 1
  }

  /** Line `k` sits at its offset, followed by a line feed and then by line `k + 1`. */
  lemma LineAt(ls: seq<string>, k: nat)
    requires k < |ls|
    ensures Offset(ls, k + 1) == Offset(ls, k) + |ls[k]| + 1
    ensures LineIn(Lines(ls), Offset(ls, k), ls[k])
  {
    var pre := Text(ls, 0, k);
    var line := ls[k] + "\n";
    assert Text(ls, 0, k + 1) == pre + line;
    TextAppend(ls, 0, k + 1, |ls|);
    var text := Lines(ls);
    assert text == pre + line + Text(ls, k + 1, |ls|);
    assert text[|pre|..|pre| + |line|] == line;
    assert line[..|ls[k]|] == ls[k];
  }

  /** Every line start of `Lines(ls)` lies within the text. */
  lemma OffsetsBounded(ls: seq<string>, at: seq<nat>)
    requires at == Offsets(ls, 0, |ls| + 1)
    ensures forall i | 0 <= i < |at| :: at[i] <= |Lines(ls)|
  {
    forall i | 0 <= i < |at| ensures at[i] <= |Lines(ls)| {
      TextAppend(ls, 0, i, |ls|);
    }
  }

  /** Every line of `ls` sits at its offset in `Lines(ls)`, and the next one starts after its newline. */
  lemma OffsetsLines(ls: seq<string>)
    ensures forall i | 0 <= i < |ls| ::
      LineIn(Lines(ls), Offsets(ls, 0, |ls| + 1)[i], ls[i])
      && Offsets(ls, 0, |ls| + 1)[i + 1] == Offsets(ls, 0, |ls| + 1)[i] + |ls[i]| + 1
  {
    forall i | 0 <= i < |ls| ensures
      LineIn(Lines(ls), Offsets(ls, 0, |ls| + 1)[i], ls[i])
      && Offsets(ls, 0, |ls| + 1)[i + 1] == Offsets(ls, 0, |ls| + 1)[i] + |ls[i]| + 1
    {
      LineAt(ls, i);
    }
  }

  /** `Lines(ls)` holds the lines of `ls`, each at its offset. */
  lemma LinesHeld(ls: seq<string>)
    ensures HoldsLines(Lines(ls), ls, Offsets(ls, 0, |ls| + 1))
  {
    var at := Offsets(ls, 0, |ls| + 1);
    assert at[0] == Offset(ls, 0) == 0;
    assert at[|ls|] == Offset(ls, |ls|) == |Lines(ls)|;
    OffsetsBounded(ls, at);
    OffsetsLines(ls);
  }

  /** A writable pair's line is a line the reader returns unchanged, with `=` after the name. */
  lemma PairTextIsLine(p: Pair)
    requires IsWritablePair(p)
    ensures IsLineText(PairText(p))
    ensures PairText(p)[|p.name|] == '=' && PairText(p)[..|p.name|] == p.name && PairText(p)[|p.name| + 1..] == p.value
  {
    var l := PairText(p);
    assert l[0] == p.name[0];
    if p.value == [] {
      assert l[|l| - 1] == '=';
    } else {
      assert l[|l| - 1] == p.value[|p.value| - 1];
    }
    forall i | 0 <= i < |l| ensures !IsBreak(l[i]) && l[i] != '\0' {
      if i < |p.name| {
        assert l[i] == p.name[i];
      } else if i > |p.name| {
        assert l[i] == p.value[i - |p.name| - 1];
      }
    }
  }

  lemma PairIn(s: string, o: nat, l: string, p: Pair)
    requires LineIn(s, o, l) && l == PairText(p) && IsWritablePair(p)
    ensures ReadNameValuePair(s, o) == (p, o + |l| + 1)
  {
    PairTextIsLine(p);
    ReadLineOfLine(s, o, l);
    SplitJoin(p.name, '=', p.value);
  }

  lemma CloseIn(s: string, o: nat)
    requires LineIn(s, o, "}")
    ensures ReadNameValuePair(s, o) == (Pair("}", []), o + 2)
  {
    ReadLineOfLine(s, o, "}");
  }

  /**
   * Reading pairs from position `x` of `s` finds `ps` and then a closing
   * brace, which ends at `e`: the cursor facts the header and body readers go
   * through.
   */
  ghost predicate PairsFrom(s: string, x: nat, ps: seq<Pair>, e: nat)
    decreases |ps|
  {
    && x <= |s|
    && var (p, y) := ReadNameValuePair(s, x);
       if ps == [] then p == Pair("}", []) && y == e
       else p == ps[0] && PairsFrom(s, y, ps[1..], e)
  }

  /** A closing brace read at `x` ends an empty run of pairs. */
  lemma PairsClose(s: string, x: nat, y: nat)
    requires x <= |s| && ReadNameValuePair(s, x) == (Pair("}", []), y)
    ensures PairsFrom(s, x, [], y)
  {
  }

  /** A pair read at `x`, followed by a run of pairs, is a longer run. */
  lemma PairsStep(s: string, x: nat, p: Pair, y: nat, rest: seq<Pair>, e: nat)
    requires x <= |s| && ReadNameValuePair(s, x) == (p, y) && PairsFrom(s, y, rest, e)
    ensures PairsFrom(s, x, [p] + rest, e)
  {
    assert ([p] + rest)[1..] == rest;
  }

  /** A line held as line `j` is read back, ending where line `j1 = j + 1` starts. */
  lemma LineHeld(s: string, ls: seq<string>, at: seq<nat>, j: nat, j1: nat)
    requires HoldsLines(s, ls, at)
    requires j < |ls| && IsLineText(ls[j]) && j1 == j + 1
    ensures at[j] <= |s| && at[j1] <= |s| && ReadLine(s, at[j]) == (ls[j], at[j1])
  {
    assert LineIn(s, at[j], ls[j]) && at[j + 1] == at[j] + |ls[j]| + 1;
    ReadLineOfLine(s, at[j], ls[j]);
  }

  /** A written pair held as line `j` is read back, ending where line `j + 1` starts. */
  lemma PairHeld(s: string, ls: seq<string>, at: seq<nat>, j: nat, p: Pair)
    requires HoldsLines(s, ls, at)
    requires j < |ls| && ls[j] == PairText(p) && IsWritablePair(p)
    ensures at[j] <= |s| && at[j + 1] <= |s| && ReadNameValuePair(s, at[j]) == (p, at[j + 1])
  {
    HeldLine(s, ls, at, j);
    PairAt(s, at[j], at[j + 1], ls[j], p);
  }

  /** `PairIn`, with the end position given. */
  lemma PairAt(s: string, o: nat, e: nat, l: string, p: Pair)
    requires LineIn(s, o, l) && e == o + |l| + 1 && l == PairText(p) && IsWritablePair(p)
    ensures o <= |s| && ReadNameValuePair(s, o) == (p, e)
  {
    PairIn(s, o, l, p);
  }

  /** Line `j` of a held layout sits at `at[j]`, and the next line starts right after it. */
  lemma HeldLine(s: string, ls: seq<string>, at: seq<nat>, j: nat)
    requires HoldsLines(s, ls, at) && j < |ls|
    ensures at[j] <= |s| && at[j + 1] <= |s|
    ensures LineIn(s, at[j], ls[j]) && at[j + 1] == at[j] + |ls[j]| + 1
  {
    assert LineIn(s, at[j], ls[j]);
  }

  /** A closing brace held as line `j` is read back as a pair named `}`. */
  lemma CloseHeld(s: string, ls: seq<string>, at: seq<nat>, j: nat)
    requires HoldsLines(s, ls, at)
    requires j < |ls| && ls[j] == "}"
    ensures at[j] <= |s| && at[j + 1] <= |s| && ReadNameValuePair(s, at[j]) == (Pair("}", []), at[j + 1])
  {
    assert LineIn(s, at[j], ls[j]) && at[j + 1] == at[j] + 2;
    CloseIn(s, at[j]);
  }

  /** Lines `k` to `k + |ps| - 1` of `ls` are the pairs `ps`, and line `k + |ps|` closes them. */
  ghost predicate PairLinesAt(ls: seq<string>, k: nat, ps: seq<Pair>) {
    && k + |ps| < |ls| && ls[k + |ps|] == "}"
    && forall i | 0 <= i < |ps| :: ls[k + i] == PairText(ps[i])
  }

  /**
   * Written pairs from line `k + m` on (`rest`, starting at `x`), then a
   * closing brace (ending at `e`), are read back in order.
   */
  lemma {:induction false} PairsHeld(s: string, ls: seq<string>, at: seq<nat>, k: nat, ps: seq<Pair>, m: nat, x: nat, rest: seq<Pair>, e: nat)
    requires HoldsLines(s, ls, at) && PairLinesAt(ls, k, ps)
    requires forall i | 0 <= i < |ps| :: IsWritablePair(ps[i])
    requires m <= |ps| && x == at[k + m] && rest == ps[m..] && e == at[k + |ps| + 1]
    ensures PairsFrom(s, x, rest, e)
    decreases |ps| - m
  {
    if m == |ps| {
      CloseHeld(s, ls, at, k + m);
      SameAt(at, k + m + 1, k + |ps| + 1);
      PairsClose(s, at[k + m], at[k + m + 1]);
      assert rest == [];
    } else {
      PairHeld(s, ls, at, k + m, ps[m]);
      PairsHeld(s, ls, at, k, ps, m + 1, at[k + m + 1], ps[m + 1..], e);
      PairsStep(s, at[k + m], ps[m], at[k + m + 1], ps[m + 1..], e);
      ConsSuffix(ps, m);
    }
  }

  /** A suffix is its first element followed by the rest. */
  lemma ConsSuffix<X>(xs: seq<X>, m: nat)
    requires m < |xs|
    ensures [xs[m]] + xs[m + 1..] == xs[m..]
  {
    assert ([xs[m]] + xs[m + 1..])[0] == xs[m];
  }

  /** A non-empty sequence is its head followed by its tail. */
  lemma ConsTail<X>(xs: seq<X>)
    requires xs != []
    ensures [xs[0]] + xs[1..] == xs
  {
    assert ([xs[0]] + xs[1..])[0] == xs[0];
  }

  /** Dropping nothing from the front leaves the whole sequence. */
  lemma DropNone<X>(xs: seq<X>)
    ensures xs[0..] == xs
  {
  }

  /** Equal indices, equal entries: the step the solver misses when they are written apart. */
  lemma SameAt<X>(xs: seq<X>, i: nat, j: nat)
    requires i == j < |xs|
    ensures xs[i] == xs[j]
  {
  }

  /** One step of the header reader: a header pair, then whatever follows it. */
  lemma HeaderStep(s: string, x: nat, p: Pair, y: nat, rest: seq<Pair>, e: nat)
    requires x <= |s| && ReadNameValuePair(s, x) == (p, y) && IsHeaderName(p.name)
    requires y <= |s| && ReadHeader(s, y) == Success((rest, e))
    ensures ReadHeader(s, x) == Success(([p] + rest, e))
  {
  }

  /** One step of the body reader: a body pair, then whatever follows it. */
  lemma BodyStep(s: string, x: nat, p: Pair, y: nat, rest: seq<Pair>, e: nat)
    requires x <= |s| && ReadNameValuePair(s, x) == (p, y) && p.name != [] && p.name != "}"
    requires y <= |s| && ReadBody(s, y) == Success((rest, e))
    ensures ReadBody(s, x) == Success(([p] + rest, e))
  {
  }

  /** The header reader stops at a closing brace. */
  lemma HeaderClose(s: string, x: nat, y: nat)
    requires x <= |s| && ReadNameValuePair(s, x) == (Pair("}", []), y)
    ensures ReadHeader(s, x) == Success(([], y))
  {
  }

  /** The body reader stops at a closing brace. */
  lemma BodyClose(s: string, x: nat, y: nat)
    requires x <= |s| && ReadNameValuePair(s, x) == (Pair("}", []), y)
    ensures ReadBody(s, x) == Success(([], y))
  {
  }

  /** A run of header pairs from `x` is what the header reader reads from `x`. */
  lemma {:induction false} ReadHeaderOf(s: string, x: nat, h: seq<Pair>, e: nat)
    requires PairsFrom(s, x, h, e)
    requires forall i | 0 <= i < |h| :: IsHeaderName(h[i].name)
    ensures ReadHeader(s, x) == Success((h, e))
    decreases |h|
  {
    var (p, y) := ReadNameValuePair(s, x);
    if h == [] {
      HeaderClose(s, x, y);
    } else {
      assert forall i | 0 <= i < |h[1..]| :: IsHeaderName(h[1..][i].name) by {
        forall i | 0 <= i < |h[1..]| ensures IsHeaderName(h[1..][i].name) {
          assert h[1..][i] == h[i + 1];
        }
      }
      ReadHeaderOf(s, y, h[1..], e);
      HeaderStep(s, x, h[0], y, h[1..], e);
      ConsTail(h);
    }
  }

  /** A run of body pairs from `x` is what the body reader reads from `x`. */
  lemma {:induction false} ReadBodyOf(s: string, x: nat, b: seq<Pair>, e: nat)
    requires PairsFrom(s, x, b, e)
    requires forall i | 0 <= i < |b| :: b[i].name != [] && b[i].name != "}"
    ensures ReadBody(s, x) == Success((b, e))
    decreases |b|
  {
    var (p, y) := ReadNameValuePair(s, x);
    if b == [] {
      BodyClose(s, x, y);
    } else {
      assert forall i | 0 <= i < |b[1..]| :: b[1..][i].name != [] && b[1..][i].name != "}" by {
        forall i | 0 <= i < |b[1..]| ensures b[1..][i].name != [] && b[1..][i].name != "}" {
          assert b[1..][i] == b[i + 1];
        }
      }
      ReadBodyOf(s, y, b[1..], e);
      BodyStep(s, x, b[0], y, b[1..], e);
      ConsTail(b);
    }
  }

  /** The frame reader, given what each of its reading steps finds. */
  lemma ReadFrameOf(s: string, f: Frame, p0: nat, p1: nat, p2: nat, p3: nat, p4: nat, p5: nat)
    requires ReadLine(s, 0) == (f.typeLine, p0)
    requires p0 <= |s| && ReadLine(s, p0) == ("{", p1)
    requires p1 <= |s| && ReadHeader(s, p1) == Success((f.header, p2))
    requires p2 <= |s| && ReadLine(s, p2) == (f.schemaLine, p3)
    requires p3 <= |s| && ReadLine(s, p3) == ("{", p4)
    requires p4 <= |s| && ReadBody(s, p4) == Success((f.body, p5))
    ensures ReadFrame(s) == Success((f, p5))
  {
  }

  /** `ls` holds the lines `GetRawData` writes for `f`. */
  ghost predicate LaidOut(ls: seq<string>, f: Frame) {
    && |ls| == 6 + |f.header| + |f.body|
    && ls[0] == f.typeLine && ls[1] == "{"
    && PairLinesAt(ls, 2, f.header)
    && ls[3 + |f.header|] == f.schemaLine && ls[4 + |f.header|] == "{"
    && PairLinesAt(ls, 5 + |f.header|, f.body)
  }

  /** The type line and the opening brace of a held frame are read back. */
  lemma HeldOpening(s: string, ls: seq<string>, at: seq<nat>, f: Frame)
    requires IsWritable(f) && LaidOut(ls, f) && HoldsLines(s, ls, at)
    ensures ReadLine(s, 0) == (f.typeLine, at[1])
    ensures at[1] <= |s| && ReadLine(s, at[1]) == ("{", at[2])
  {
    LineHeld(s, ls, at, 0, 1);
    LineHeld(s, ls, at, 1, 2);
  }

  /** The header pairs of a held frame, and the brace after them, are what the pair reader finds. */
  lemma HeldHeaderPairs(s: string, ls: seq<string>, at: seq<nat>, f: Frame, e: nat)
    requires IsWritable(f) && LaidOut(ls, f) && HoldsLines(s, ls, at)
    requires e == at[2 + |f.header| + 1]
    ensures at[2] <= |s| && PairsFrom(s, at[2], f.header, e)
  {
    SameAt(at, 2, 2 + 0);
    DropNone(f.header);
    PairsHeld(s, ls, at, 2, f.header, 0, at[2], f.header, e);
  }

  /** The header pairs of a held frame, and the brace after them, are read back. */
  lemma HeldHeader(s: string, ls: seq<string>, at: seq<nat>, f: Frame)
    requires IsWritable(f) && LaidOut(ls, f) && HoldsLines(s, ls, at)
    ensures at[2] <= |s| && ReadHeader(s, at[2]) == Success((f.header, at[2 + |f.header| + 1]))
  {
    HeldHeaderPairs(s, ls, at, f, at[2 + |f.header| + 1]);
    ReadHeaderOf(s, at[2], f.header, at[2 + |f.header| + 1]);
  }

  /** The schema line and the second opening brace of a held frame are read back. */
  lemma HeldSchema(s: string, ls: seq<string>, at: seq<nat>, f: Frame)
    requires IsWritable(f) && LaidOut(ls, f) && HoldsLines(s, ls, at)
    ensures at[2 + |f.header| + 1] <= |s| && ReadLine(s, at[2 + |f.header| + 1]) == (f.schemaLine, at[4 + |f.header|])
    ensures at[4 + |f.header|] <= |s| && ReadLine(s, at[4 + |f.header|]) == ("{", at[5 + |f.header|])
  {
    LineHeld(s, ls, at, 3 + |f.header|, 4 + |f.header|);
    LineHeld(s, ls, at, 4 + |f.header|, 5 + |f.header|);
    SameAt(at, 2 + |f.header| + 1, 3 + |f.header|);
  }

  /** Every body pair of a writable frame is one the body reader accepts. */
  lemma WritableBodyNames(f: Frame)
    requires IsWritable(f)
    ensures forall i | 0 <= i < |f.body| :: f.body[i].name != [] && f.body[i].name != "}"
  {
    forall i | 0 <= i < |f.body| ensures f.body[i].name != [] && f.body[i].name != "}" {
      assert IsWritablePair(f.body[i]);
    }
  }

  /** The body pairs of a held frame, and the brace after them, are what the pair reader finds. */
  lemma HeldBodyPairs(s: string, ls: seq<string>, at: seq<nat>, f: Frame, e: nat)
    requires IsWritable(f) && LaidOut(ls, f) && HoldsLines(s, ls, at)
    requires e == at[5 + |f.header| + |f.body| + 1]
    ensures at[5 + |f.header|] <= |s| && PairsFrom(s, at[5 + |f.header|], f.body, e)
  {
    SameAt(at, 5 + |f.header|, 5 + |f.header| + 0);
    DropNone(f.body);
    PairsHeld(s, ls, at, 5 + |f.header|, f.body, 0, at[5 + |f.header|], f.body, e);
  }

  /** The body pairs of a held frame, and the brace after them, are read back. */
  lemma HeldBody(s: string, ls: seq<string>, at: seq<nat>, f: Frame)
    requires IsWritable(f) && LaidOut(ls, f) && HoldsLines(s, ls, at)
    ensures at[5 + |f.header|] <= |s|
    ensures ReadBody(s, at[5 + |f.header|]) == Success((f.body, at[5 + |f.header| + |f.body| + 1]))
  {
    HeldBodyPairs(s, ls, at, f, at[5 + |f.header| + |f.body| + 1]);
    WritableBodyNames(f);
    ReadBodyOf(s, at[5 + |f.header|], f.body, at[5 + |f.header| + |f.body| + 1]);
  }

  /** The last line of a held frame ends the text. */
  lemma HeldEnd(s: string, ls: seq<string>, at: seq<nat>, f: Frame)
    requires LaidOut(ls, f) && HoldsLines(s, ls, at)
    ensures at[5 + |f.header| + |f.body| + 1] == |s|
  {
    SameAt(at, 5 + |f.header| + |f.body| + 1, |ls|);
  }

  /** Text made of a frame's lines is read back as that frame, to its end. */
  lemma ReadHeldFrame(s: string, ls: seq<string>, at: seq<nat>, f: Frame)
    requires IsWritable(f) && LaidOut(ls, f) && HoldsLines(s, ls, at)
    ensures ReadFrame(s) == Success((f, |s|))
  {
    HeldOpening(s, ls, at, f);
    HeldHeader(s, ls, at, f);
    HeldSchema(s, ls, at, f);
    HeldBody(s, ls, at, f);
    HeldEnd(s, ls, at, f);
    ReadFrameOf(s, f, at[1], at[2], at[2 + |f.header| + 1], at[4 + |f.header|], at[5 + |f.header|], at[5 + |f.header| + |f.body| + 1]);
  }

  /** The lines written for a frame up to the body: type, brace, header pairs, brace, schema, brace. */
  lemma FrameLinesHead(f: Frame)
    ensures FrameLines(f)[0] == f.typeLine && FrameLines(f)[1] == "{"
    ensures PairLinesAt(FrameLines(f), 2, f.header)
    ensures FrameLines(f)[3 + |f.header|] == f.schemaLine && FrameLines(f)[4 + |f.header|] == "{"
  {
    var ls := FrameLines(f);
    var nh := |f.header|;
    assert forall i | 0 <= i < nh :: ls[2 + i] == PairText(f.header[i]);
    assert ls[2 + nh] == "}";
  }

  /** The lines written for a frame's body: its pairs and the closing brace. */
  lemma FrameLinesBody(f: Frame)
    ensures PairLinesAt(FrameLines(f), 5 + |f.header|, f.body)
  {
    var ls := FrameLines(f);
    var nh := |f.header|;
    var nb := |f.body|;
    assert forall i | 0 <= i < nb :: ls[5 + nh + i] == PairText(f.body[i]);
    assert ls[5 + nh + nb] == "}";
  }

  /** The lines written for a frame are laid out as the reader expects. */
  lemma FrameLinesLaidOut(f: Frame)
    ensures LaidOut(FrameLines(f), f)
  {
    FrameLinesHead(f);
    FrameLinesBody(f);
  }

  /** What the writer produces, the reader takes back whole: same frame, all text consumed. */
  lemma FrameRoundTrip(f: Frame)
    requires IsWritable(f)
    ensures ReadFrame(Write(f)) == Success((f, |Write(f)|))
  {
    var ls := FrameLines(f);
    FrameLinesLaidOut(f);
    LinesHeld(ls);
    ReadHeldFrame(Write(f), ls, Offsets(ls, 0, |ls| + 1), f);
  }
}

=== FILE: wrappers.dfy ===
/**
 * The two shapes of result the C++ operations return besides plain
 * values: a pointer that may be NULL, and a parse that either yields a value
 * or throws an exception carrying an error.
 */
module Wrappers {

  /** A pointer result: `None` where the C++ code returns NULL, as `GetMsgItem` does for a missing name. */
  datatype Option<+T> = None | Some(value: T)

  /** A parse result: `Failure` where the C++ code throws, as `XplMsg::ParseFromString` does. */
  datatype Result<+R, +E> = Success(value: R) | Failure(error: E)
}

=== FILE: xpl_msg.dfy ===
/**
 * The message class of the Poco port, `XplMsg`: its fields, the validating
 * setters (with their individual ways of treating the raw-text cache), the
 * parse of received text, and the cached canonical rendering.
 *
 * A message is a value; every operation that changes a field returns the new
 * message, and the setters return their `bool` result beside it. The address
 * class `XPLAddress` is not part of this model: its `toString` is the
 * parameter `show`, and its default-constructed value is the parameter
 * `addr0`.
 */
module XplMsg {
  import opened Wrappers
  import opened StringUtils
  import opened Numbers
  import opened WireFormat
  import opened MsgItems

  datatype Address = Address(vendor: string, device: string, instance: string, bcast: bool)

  /** `XPLAddress::toString`. */
  type Show = Address -> string

  /**
   * The fields of an `XplMsg`. `raw` is the rendering cache `m_raw`; the
   * empty string means "not cached", exactly as `XplMsg.cpp` tests it.
   */
  datatype Msg = Msg(
    msgType: string,
    hop: uint32,
    source: Address,
    target: Address,
    schemaClass: string,
    schemaType: string,
    items: seq<Item>,
    raw: string)

  /** The three message types a message may carry. */
  predicate IsMsgType(t: string) {
    t == "xpl-trig" || t == "xpl-cmnd" || t == "xpl-stat"
  }

  /** A lower-case spelling `SetType` accepts: a type name or its last four letters. */
  predicate IsTypeSpelling(l: string) {
    IsMsgType(l) || l == "trig" || l == "cmnd" || l == "stat"
  }

  /** `InvalidateRawData`. */
  function Invalidate(m: Msg): (r: Msg)
    ensures r.raw == [] && r == m.(raw := [])
  {
    m.(raw := [])
  }

  // ----- Field setters -----------------------------------------------------------------

  /** `SetHop`: at most 9; the cache is cleared even when the value is refused. */
  function SetHop(m: Msg, hop: uint32): (r: (bool, Msg))
    ensures r.0 <==> hop <= 9
    ensures r.0 ==> r.1 == m.(raw := [], hop := hop)
    ensures !r.0 ==> r.1 == m.(raw := [])
  {
    var m1 := Invalidate(m);
    if hop > 9 then (false, m1) else (true, m1.(hop := hop))
  }

  /** The type `SetType` tries to store: lower-cased, with "xpl-" put in front of four letters. */
  function FullType(t: string): (r: string)
    ensures |t| == 4 ==> r == "xpl-" + Lower(t)
    ensures |t| != 4 ==> r == Lower(t)
  {
    var lower := Lower(t);
    if |lower| == 4 then "xpl-" + lower else lower
  }

  /**
   * `SetType`: accepts the three type names and their four-letter short
   * forms in any case, stores the full lower-case name, and otherwise leaves
   * the type as it was. The cache is cleared either way.
   */
  function SetType(m: Msg, t: string): (r: (bool, Msg))
    ensures r.0 <==> IsTypeSpelling(Lower(t))
    ensures r.0 ==> IsMsgType(r.1.msgType) && r.1 == m.(raw := [], msgType := r.1.msgType)
    ensures r.0 && |t| == 4 ==> r.1.msgType == "xpl-" + Lower(t)
    ensures r.0 && |t| != 4 ==> r.1.msgType == Lower(t)
    ensures !r.0 ==> r.1 == m.(raw := [])
  {
    var full := FullType(t);
    FullTypeAccepted(t);
    if !IsMsgType(full) then (false, Invalidate(m))
    else (true, Invalidate(m).(msgType := full))
  }

  /** The text of an address in the form `vendor-device.instance`. */
  function AddressText(v: string, d: string, i: string): string {
    v + "-" + d + "." + i
  }

  /**
   * Parts that `SetSource`/`SetTarget` accept when joined with `AddressText`:
   * vendor of 1 to `vendorMax` characters without '-', device of 1 to 8
   * characters without '.', instance of 1 to 16 characters, none with white
   * space at either end.
   */
  predicate IsAddressParts(v: string, d: string, i: string, vendorMax: nat) {
    && 1 <= |v| <= vendorMax && 1 <= |d| <= 8 && 1 <= |i| <= 16
    && IsTrimmed(v) && IsTrimmed(d) && IsTrimmed(i)
    && '-' !in v && '.' !in d
  }

  /**
   * `SetSource(string)`: the text is cut at its first '-' into vendor and
   * rest, and the rest at its first '.' into device and instance. The vendor
   * is stored as given (not lower-cased) as soon as it has passed its own
   * check, before device and instance are checked; those two are stored
   * lower-cased. The cache is never cleared.
   */
  function SetSource(m: Msg, text: string): (r: (bool, Msg))
    ensures r.1 == m.(source := r.1.source)
    ensures r.1.source.bcast == m.source.bcast
    ensures r.0 ==> 1 <= |r.1.source.vendor| <= 8 && 1 <= |r.1.source.device| <= 8 && 1 <= |r.1.source.instance| <= 16
    ensures r.0 ==> IsLower(r.1.source.device) && IsLower(r.1.source.instance)
    ensures !r.0 ==> r.1.source.device == m.source.device && r.1.source.instance == m.source.instance
    ensures '-' !in text ==> r == (false, m)
  {
    var (vendor, rest) := SplitParts(text, '-');
    if |vendor| > 8 || vendor == [] || rest == [] then (false, m)
    else
      var m1 := m.(source := m.source.(vendor := vendor));
      var (device, instance) := SplitParts(rest, '.');
      if |device| > 8 || device == [] || |instance| > 16 || instance == [] then (false, m1)
      else
        LowerIsLower(device);
        LowerIsLower(instance);
        (true, m1.(source := m1.source.(device := Lower(device), instance := Lower(instance))))
  }

  /** `SetSource(XPLAddress)`: clears the cache and stores the address. Its result is not modelled. */
  function SetSourceAddress(m: Msg, a: Address): (r: Msg)
    ensures r.source == a && r.raw == []
    ensures r == m.(source := a, raw := [])
  {
    Invalidate(m).(source := a)
  }

  /**
   * `SetTarget(string)`: "*" marks the target as a broadcast (leaving its
   * other parts alone). Otherwise as `SetSource`, except that a vendor longer
   * than 8 characters is accepted (the C++ code only logs a warning), and the
   * cache is cleared first.
   */
  function SetTarget(m: Msg, text: string): (r: (bool, Msg))
    ensures r.1 == m.(raw := [], target := r.1.target)
    ensures text == "*" ==> r == (true, m.(raw := [], target := m.target.(bcast := true)))
    ensures text != "*" ==> r.1.target.bcast == m.target.bcast
    ensures r.0 && text != "*" ==> 1 <= |r.1.target.vendor| && 1 <= |r.1.target.device| <= 8 && 1 <= |r.1.target.instance| <= 16
    ensures r.0 && text != "*" ==> IsLower(r.1.target.device) && IsLower(r.1.target.instance)
    ensures !r.0 ==> r.1.target.device == m.target.device && r.1.target.instance == m.target.instance
    ensures text != "*" && '-' !in text ==> r == (false, m.(raw := []))
  {
    var m0 := Invalidate(m);
    if text == "*" then (true, m0.(target := m0.target.(bcast := true)))
    else
      var (vendor, rest) := SplitParts(text, '-');
      if vendor == [] || rest == [] then (false, m0)
      else
        var m1 := m0.(target := m0.target.(vendor := vendor));
        var (device, instance) := SplitParts(rest, '.');
        if |device| > 8 || device == [] || |instance| > 16 || instance == [] then (false, m1)
        else
          LowerIsLower(device);
          LowerIsLower(instance);
          (true, m1.(target := m1.target.(device := Lower(device), instance := Lower(instance))))
  }

  /** `SetTarget(XPLAddress)`: clears the cache and stores the address. Its result is not modelled. */
  function SetTargetAddress(m: Msg, a: Address): (r: Msg)
    ensures r.target == a && r.raw == []
    ensures r == m.(target := a, raw := [])
  {
    Invalidate(m).(target := a)
  }

  /** The check both schema setters make: 1 to 8 characters. */
  predicate IsSchemaPart(p: string) {
    1 <= |p| <= 8
  }

  /** `SetSchemaClass`: 1 to 8 characters, stored lower-cased; the cache is cleared either way. */
  function SetSchemaClass(m: Msg, c: string): (r: (bool, Msg))
    ensures r.0 <==> c != [] && |c| <= 8
    ensures r.0 ==> r.1 == m.(raw := [], schemaClass := Lower(c))
    ensures !r.0 ==> r.1 == m.(raw := [])
  {
    var m1 := Invalidate(m);
    if !IsSchemaPart(c) then (false, m1) else (true, m1.(schemaClass := Lower(c)))
  }

  /** `SetSchemaType`: 1 to 8 characters, stored lower-cased; the cache is cleared either way. */
  function SetSchemaType(m: Msg, t: string): (r: (bool, Msg))
    ensures r.0 <==> t != [] && |t| <= 8
    ensures r.0 ==> r.1 == m.(raw := [], schemaType := Lower(t))
    ensures !r.0 ==> r.1 == m.(raw := [])
  {
    var m1 := Invalidate(m);
    if !IsSchemaPart(t) then (false, m1) else (true, m1.(schemaType := Lower(t)))
  }

  // ----- Setter properties ------------------------------------------------------------------

  /** `SetType` does not see case: two spellings that lower-case alike act alike. */
  lemma SetTypeIgnoresCase(m: Msg, t: string, u: string)
    requires Lower(t) == Lower(u)
    ensures SetType(m, t) == SetType(m, u)
  {
    LowerIsLower(t);
    assert |t| == |Lower(t)| == |Lower(u)| == |u|;
  }

  /** Setting a valid hop and reading it back gives it; a refused hop leaves the old one. */
  lemma SetHopKeepsOldOnRefusal(m: Msg, hop: uint32)
    ensures SetHop(m, hop).1.hop == (if hop <= 9 then hop else m.hop)
    ensures SetHop(m, hop).1.raw == []
  {
  }

  lemma FullTypeAccepted(t: string)
    ensures IsMsgType(FullType(t)) <==> IsTypeSpelling(Lower(t))
  {
    var l := Lower(t);
    if |l| == 4 {
      var f := "xpl-" + l;
      assert f[4..] == l;
      if IsMsgType(f) {
        assert l == "trig" || l == "cmnd" || l == "stat";
      }
    }
  }

  /** The joined form of valid parts is cut back into the same parts. */
  lemma SplitAddressText(v: string, d: string, i: string, vendorMax: nat)
    requires IsAddressParts(v, d, i, vendorMax)
    ensures SplitParts(AddressText(v, d, i), '-') == (v, d + "." + i)
    ensures SplitParts(d + "." + i, '.') == (d, i)
  {
    var rest := d + "." + i;
    assert rest[0] == d[0] && rest[|rest| - 1] == i[|i| - 1];
    assert AddressText(v, d, i) == v + ['-'] + rest;
    assert rest == d + ['.'] + i;
    SplitJoin(v, '-', rest);
    SplitJoin(d, '.', i);
  }

  /** `SetSource` on the joined text of valid parts stores exactly those parts. */
  lemma SetSourceOfParts(m: Msg, v: string, d: string, i: string)
    requires IsAddressParts(v, d, i, 8)
    ensures SetSource(m, AddressText(v, d, i)) == (true, m.(source := Address(v, Lower(d), Lower(i), m.source.bcast)))
  {
    var rest := d + "." + i;
    SplitAddressText(v, d, i, 8);
    assert SplitParts(AddressText(v, d, i), '-') == (v, rest) && rest != [];
    assert SplitParts(rest, '.') == (d, i);
  }

  /** `SetTarget` on the joined text of valid parts stores exactly those parts, whatever the vendor's length. */
  lemma SetTargetOfParts(m: Msg, v: string, d: string, i: string)
    requires IsAddressParts(v, d, i, |v|)
    ensures SetTarget(m, AddressText(v, d, i)) == (true, m.(raw := [], target := Address(v, Lower(d), Lower(i), m.target.bcast)))
  {
    SplitAddressText(v, d, i, |v|);
    assert AddressText(v, d, i) != "*";
  }

  /**
   * When the device part fails its check, `SetSource` has already replaced
   * the vendor: "acme-lamp" (no '.') is refused, yet the source vendor is
   * now "acme".
   */
  lemma SetSourceRefusedKeepsVendor(m: Msg)
    ensures SetSource(m, "acme-lamp") == (false, m.(source := m.source.(vendor := "acme")))
  {
    AcmeLampParts();
    LampHasNoDot();
  }

  lemma AcmeLampParts()
    ensures SplitParts("acme-lamp", '-') == ("acme", "lamp")
  {
    assert "acme-lamp" == "acme" + ['-'] + "lamp";
    SplitJoin("acme", '-', "lamp");
  }

  lemma LampHasNoDot()
    ensures SplitParts("lamp", '.') == ([], [])
  {
    assert '.' !in "lamp";
  }

  /** A vendor of nine characters is refused as a source and accepted as a target. */
  lemma LongVendorSourceVersusTarget(m: Msg)
    ensures !SetSource(m, "vendorabc-lamp.hall").0
    ensures SetTarget(m, "vendorabc-lamp.hall").0
  {
    assert AddressText("vendorabc", "lamp", "hall") == "vendorabc-lamp.hall";
    SplitAddressText("vendorabc", "lamp", "hall", 9);
    SetTargetOfParts(m, "vendorabc", "lamp", "hall");
  }

  // ----- Body values ---------------------------------------------------------------------------

  /** `XplMsg::AddValue`: clears the cache and adds the value to the items. */
  function AddMsgValue(m: Msg, name: string, value: string, delim: char, split: Splitter): (r: Msg)
    ensures r.raw == [] && r == m.(raw := [], items := r.items)
    ensures r.items == AddValue(m.items, name, value, delim, split)
  {
    Invalidate(m).(items := AddValue(m.items, name, value, delim, split))
  }

  /** `XplMsg::SetValue`: clears the cache whether or not an item is found. */
  function SetMsgValue(m: Msg, name: string, value: string, index: uint32): (r: (bool, Msg))
    ensures r.1.raw == [] && r.1 == m.(raw := [], items := r.1.items)
    ensures (r.0, r.1.items) == SetValue(m.items, name, value, index)
  {
    var (ok, items) := SetValue(m.items, name, value, index);
    (ok, Invalidate(m).(items := items))
  }

  // ----- Parsing -------------------------------------------------------------------------------

  /**
   * The message `XplMsg(string)` parses into: every field default-constructed
   * except `m_hop`, which that constructor leaves uninitialised (`hop0`).
   */
  function Fresh(hop0: uint32, addr0: Address): Msg {
    Msg([], hop0, addr0, addr0, [], [], [], [])
  }

  /**
   * One header line handed to its setter; the setter's result is ignored.
   * The frame reader lets through no other name, so the last case is never
   * reached from a parse.
   */
  function HeaderItem(m: Msg, p: Pair): (r: Msg)
    ensures r.msgType == m.msgType && r.schemaClass == m.schemaClass && r.schemaType == m.schemaType && r.items == m.items
    ensures p.name != "hop" ==> r.hop == m.hop
  {
    if p.name == "hop" then SetHop(m, ToUint32(Atol(p.value))).1
    else if p.name == "source" then SetSource(m, p.value).1
    else if p.name == "target" then SetTarget(m, p.value).1
    else m
  }

  /** The header lines, in order. */
  function ApplyHeader(m: Msg, h: seq<Pair>): (r: Msg)
    ensures r.msgType == m.msgType && r.schemaClass == m.schemaClass && r.schemaType == m.schemaType && r.items == m.items
    ensures (forall k | 0 <= k < |h| :: h[k].name != "hop") ==> r.hop == m.hop
    decreases |h|
  {
    if |h| == 0 then m else ApplyHeader(HeaderItem(m, h[0]), h[1..])
  }

  /** The items after `AddValue` of each body line in turn, with the default delimiter. */
  function AddAll(items: seq<Item>, ps: seq<Pair>, split: Splitter): seq<Item>
    decreases |ps|
  {
    if |ps| == 0 then items
    else
      var p := ps[|ps| - 1];
      AddValue(AddAll(items, ps[..|ps| - 1], split), p.name, p.value, Comma, split)
  }

  /** The body lines, in order; each `AddValue` also clears the cache. */
  function ApplyBody(m: Msg, ps: seq<Pair>, split: Splitter): (r: Msg)
    ensures r == m.(raw := r.raw, items := r.items)
    ensures |ps| > 0 ==> r.raw == []
    ensures |ps| == 0 ==> r == m
  {
    if |ps| == 0 then m else Invalidate(m).(items := AddAll(m.items, ps, split))
  }

  /** What the setters make of a frame, before the input is stored as the cache. */
  function FromFrame(f: Frame, hop0: uint32, addr0: Address, split: Splitter): Msg
  {
    var m1 := SetType(Fresh(hop0, addr0), f.typeLine).1;
    var m2 := ApplyHeader(m1, f.header);
    var (schemaClass, schemaType) := SplitParts(f.schemaLine, '.');
    var m3 := SetSchemaType(SetSchemaClass(m2, schemaClass).1, schemaType).1;
    ApplyBody(m3, f.body, split)
  }

  /**
   * `XplMsg(string)` / `ParseFromString`: the frame reader decides success
   * alone (no setter's result is looked at), and a parsed message caches the
   * whole input as its raw text.
   */
  function Parse(s: string, hop0: uint32, addr0: Address, split: Splitter): (r: Result<Msg, ParseError>)
    ensures r.Success? <==> ReadFrame(s).Success?
    ensures r.Failure? ==> r.error == ReadFrame(s).error
    ensures r.Success? ==> r.value.raw == s
  {
    match ReadFrame(s)
    case Failure(e) => Failure(e)
    case Success((f, _)) => Success(FromFrame(f, hop0, addr0, split).(raw := s))
  }

  // ----- Rendering -------------------------------------------------------------------------------

  /** One `name=value` pair per value of an item. */
  function ItemPairs(it: Item): (r: seq<Pair>)
    ensures |r| == |it.values| && forall j | 0 <= j < |r| :: r[j] == Pair(it.name, it.values[j])
  {
    seq(|it.values|, j requires 0 <= j < |it.values| => Pair(it.name, it.values[j]))
  }

  /** The body pairs in item order, then value order. */
  function BodyPairs(items: seq<Item>): seq<Pair>
    decreases |items|
  {
    if |items| == 0 then [] else BodyPairs(items[..|items| - 1]) + ItemPairs(items[|items| - 1])
  }

  /** The lines `GetRawData` writes, as a frame. */
  function FrameOf(m: Msg, show: Show): Frame {
    Frame(m.msgType, HeaderOf(m, show), m.schemaClass + "." + m.schemaType, BodyPairs(m.items))
  }

  /** The three header lines, in the order `GetRawData` writes them. */
  function HeaderOf(m: Msg, show: Show): seq<Pair> {
    [Pair("hop", Decimal(m.hop)), Pair("source", show(m.source)), Pair("target", show(m.target))]
  }

  /**
   * The canonical text of a message: the type line, the three header lines
   * in a brace block, the schema line and the body lines in a brace block,
   * each line ended by a line feed.
   */
  function Render(m: Msg, show: Show): (r: string)
    ensures r == Lines(FrameLines(FrameOf(m, show)))
    ensures r != []
  {
    RenderNotEmpty(m, show);
    Write(FrameOf(m, show))
  }

  /**
   * `GetRawData`: the cached text when there is one, otherwise the rendering,
   * which is then cached.
   */
  function GetRawData(m: Msg, show: Show): (r: (string, Msg))
    ensures m.raw != [] ==> r == (m.raw, m)
    ensures m.raw == [] ==> r == (Render(m, show), m.(raw := Render(m, show)))
    ensures r.0 != [] && r.1.raw == r.0
  {
    if m.raw == [] then
      var text := Render(m, show);
      RenderNotEmpty(m, show);
      (text, m.(raw := text))
    else (m.raw, m)
  }

  lemma RenderNotEmpty(m: Msg, show: Show)
    ensures Write(FrameOf(m, show)) != []
  {
    var ls := FrameLines(FrameOf(m, show));
    TextAppend(ls, 0, |ls| - 1, |ls|);
  }

  /** `operator==`: the two texts `GetRawData` returns are equal; both caches get filled. */
  function Equal(a: Msg, b: Msg, show: Show): (r: (bool, Msg, Msg))
    ensures r.0 <==> GetRawData(a, show).0 == GetRawData(b, show).0
    ensures r.1 == GetRawData(a, show).1 && r.2 == GetRawData(b, show).1
    ensures a == b ==> r.0
  {
    var (ta, a1) := GetRawData(a, show);
    var (tb, b1) := GetRawData(b, show);
    (ta == tb, a1, b1)
  }

  // ----- Parse and render properties ---------------------------------------------------------------

  /** Filling the cache once is enough: a second `GetRawData` returns the same text and changes nothing. */
  lemma GetRawDataIdempotent(m: Msg, show: Show)
    ensures var (t, m1) := GetRawData(m, show); GetRawData(m1, show) == (t, m1)
  {
  }

  /** Text that reads as a frame is not empty. */
  lemma FrameNotEmpty(s: string)
    requires ReadFrame(s).Success?
    ensures s != []
  {
  }

  /** After a successful parse, `GetRawData` returns the input verbatim. */
  lemma ParseCachesInput(s: string, hop0: uint32, addr0: Address, split: Splitter, show: Show)
    requires Parse(s, hop0, addr0, split).Success?
    ensures var m := Parse(s, hop0, addr0, split).value; GetRawData(m, show) == (s, m)
  {
    FrameNotEmpty(s);
  }

  /** Two parsed messages are equal exactly when their input texts were. */
  lemma ParsedEqual(s1: string, s2: string, hop0: uint32, addr0: Address, split: Splitter, show: Show)
    requires Parse(s1, hop0, addr0, split).Success? && Parse(s2, hop0, addr0, split).Success?
    ensures Equal(Parse(s1, hop0, addr0, split).value, Parse(s2, hop0, addr0, split).value, show).0 <==> s1 == s2
  {
    ParseCachesInput(s1, hop0, addr0, split, show);
    ParseCachesInput(s2, hop0, addr0, split, show);
  }

  /** A type line that `SetType` refuses does not stop the parse: the type stays empty. */
  lemma ParseKeepsRefusedType(s: string, hop0: uint32, addr0: Address, split: Splitter)
    requires ReadFrame(s).Success? && !SetType(Fresh(hop0, addr0), ReadFrame(s).value.0.typeLine).0
    ensures Parse(s, hop0, addr0, split).Success?
    ensures Parse(s, hop0, addr0, split).value.msgType == []
  {
  }

  /** Without a `hop=` header line the hop is whatever the constructor left in the field. */
  lemma ParseWithoutHop(s: string, hop0: uint32, addr0: Address, split: Splitter)
    requires ReadFrame(s).Success?
    requires var h := ReadFrame(s).value.0.header; forall k | 0 <= k < |h| :: h[k].name != "hop"
    ensures Parse(s, hop0, addr0, split).Success?
    ensures Parse(s, hop0, addr0, split).value.hop == hop0
  {
  }

  // ----- Rendering then parsing gives the message back -------------------------------------------

  /** An address whose `vendor-device.instance` text the setters store back unchanged. */
  predicate IsCanonicalAddress(a: Address, vendorMax: nat) {
    && IsAddressParts(a.vendor, a.device, a.instance, vendorMax)
    && IsLower(a.device) && IsLower(a.instance)
    && IsSingleLine(a.vendor) && IsSingleLine(a.device) && IsSingleLine(a.instance)
  }

  /** `show` prints `a` as its `vendor-device.instance` text. */
  predicate ShowsParts(show: Show, a: Address) {
    show(a) == AddressText(a.vendor, a.device, a.instance)
  }

  /**
   * A target that a parse stores back unchanged: either an address printed
   * as `vendor-device.instance`, with the default address's broadcast flag,
   * or a broadcast printed as "*", which `SetTarget` turns into the default
   * address with the broadcast flag set.
   */
  predicate IsCanonicalTarget(t: Address, show: Show, addr0: Address) {
    || (IsCanonicalAddress(t, |t.vendor|) && ShowsParts(show, t) && t.bcast == addr0.bcast)
    || (show(t) == "*" && t == addr0.(bcast := true))
  }

  /**
   * Type and header fields the setters store back unchanged: a type name, a
   * hop of one digit, a source that prints as `vendor-device.instance` with
   * the default broadcast flag (a parse never changes it), and a canonical
   * target.
   */
  predicate IsCanonicalHeader(m: Msg, show: Show, addr0: Address) {
    && IsMsgType(m.msgType) && m.hop <= 9
    && IsCanonicalAddress(m.source, 8) && ShowsParts(show, m.source) && m.source.bcast == addr0.bcast
    && IsCanonicalTarget(m.target, show, addr0)
  }

  /** A schema class and type that the schema line and its setters give back unchanged. */
  predicate IsCanonicalSchema(c: string, t: string) {
    && IsSchemaPart(c) && IsSchemaPart(t)
    && IsLower(c) && IsLower(t)
    && IsTrimmed(c) && IsTrimmed(t)
    && IsSingleLine(c) && IsSingleLine(t)
    && '.' !in c
  }

  /** The item class keeps each of these values whole. */
  predicate KeepsWhole(split: Splitter, vs: seq<string>) {
    forall j | 0 <= j < |vs| :: split(vs[j], Comma) == [vs[j]]
  }

  /**
   * An item that `AddValue` rebuilds from its written lines: a lower-case
   * name that reads back as a name, at least one value, and values that read
   * back and that the item class keeps whole.
   */
  predicate IsCanonicalItem(it: Item, split: Splitter) {
    && IsLineText(it.name) && '=' !in it.name && it.name != "}" && IsLower(it.name)
    && |it.values| > 0
    && (forall j | 0 <= j < |it.values| :: IsTrimmed(it.values[j]) && IsSingleLine(it.values[j]))
    && KeepsWhole(split, it.values)
  }

  predicate DistinctNames(items: seq<Item>) {
    forall i, j | 0 <= i < j < |items| :: items[i].name != items[j].name
  }

  predicate IsCanonicalBody(items: seq<Item>, split: Splitter) {
    DistinctNames(items) && forall k | 0 <= k < |items| :: IsCanonicalItem(items[k], split)
  }

  /** A message whose rendering parses back into itself. */
  predicate IsCanonical(m: Msg, show: Show, addr0: Address, split: Splitter) {
    && IsCanonicalHeader(m, show, addr0)
    && IsCanonicalSchema(m.schemaClass, m.schemaType)
    && IsCanonicalBody(m.items, split)
  }

  // Writing: the frame of a canonical message is writable.

  lemma DigitsAreLineText(s: string)
    requires s != [] && AllDigits(s)
    ensures IsLineText(s)
  {
  }

  lemma MsgTypeIsLineText(t: string)
    requires IsMsgType(t)
    ensures IsLineText(t)
  {
  }

  /** Three single-line pieces joined by two separators make one line. */
  lemma JoinedIsLineText(a: string, x: char, b: string, y: char, c: string)
    requires a != [] && c != [] && IsTrimmed(a) && IsTrimmed(c)
    requires IsSingleLine(a) && IsSingleLine(b) && IsSingleLine(c)
    requires !IsBreak(x) && x != '\0' && !IsBreak(y) && y != '\0'
    ensures IsLineText(a + [x] + b + [y] + c)
  {
    var l := a + [x] + b + [y] + c;
    assert l[0] == a[0] && l[|l| - 1] == c[|c| - 1];
    forall k | 0 <= k < |l| ensures !IsBreak(l[k]) && l[k] != '\0' {
      if k < |a| {
        assert l[k] == a[k];
      } else if |a| < k < |a| + 1 + |b| {
        assert l[k] == b[k - |a| - 1];
      } else if k > |a| + 1 + |b| {
        assert l[k] == c[k - |a| - |b| - 2];
      }
    }
  }

  lemma AddressIsLineText(a: Address, vendorMax: nat)
    requires IsCanonicalAddress(a, vendorMax)
    ensures IsLineText(AddressText(a.vendor, a.device, a.instance))
  {
    assert AddressText(a.vendor, a.device, a.instance) == a.vendor + ['-'] + a.device + ['.'] + a.instance;
    JoinedIsLineText(a.vendor, '-', a.device, '.', a.instance);
  }

  lemma SchemaIsLineText(c: string, t: string)
    requires c != [] && t != [] && IsTrimmed(c) && IsTrimmed(t) && IsSingleLine(c) && IsSingleLine(t)
    ensures IsLineText(c + "." + t)
  {
    var l := c + "." + t;
    assert l[0] == c[0] && l[|l| - 1] == t[|t| - 1];
    forall k | 0 <= k < |l| ensures !IsBreak(l[k]) && l[k] != '\0' {
      if k < |c| {
        assert l[k] == c[k];
      } else if k > |c| {
        assert l[k] == t[k - |c| - 1];
      }
    }
  }

  predicate AllWritable(ps: seq<Pair>) {
    forall k | 0 <= k < |ps| :: IsWritablePair(ps[k]) && ps[k].name != "}"
  }

  lemma ItemWritable(it: Item, split: Splitter)
    requires IsCanonicalItem(it, split)
    ensures AllWritable(ItemPairs(it))
  {
  }

  lemma AllWritableAppend(a: seq<Pair>, b: seq<Pair>)
    requires AllWritable(a) && AllWritable(b)
    ensures AllWritable(a + b)
  {
    forall k | 0 <= k < |a| + |b| ensures IsWritablePair((a + b)[k]) && (a + b)[k].name != "}" {
      if k < |a| {
        assert (a + b)[k] == a[k];
      } else {
        assert (a + b)[k] == b[k - |a|];
      }
    }
  }

  lemma {:induction false} BodyWritable(items: seq<Item>, split: Splitter)
    requires forall k | 0 <= k < |items| :: IsCanonicalItem(items[k], split)
    ensures AllWritable(BodyPairs(items))
    decreases |items|
  {
    if |items| > 0 {
      var init := items[..|items| - 1];
      assert forall k | 0 <= k < |init| :: init[k] == items[k];
      BodyWritable(init, split);
      ItemWritable(items[|items| - 1], split);
      AllWritableAppend(BodyPairs(init), ItemPairs(items[|items| - 1]));
    }
  }

  lemma HeaderWritable(m: Msg, show: Show, addr0: Address)
    requires IsCanonicalHeader(m, show, addr0)
    ensures forall k | 0 <= k < |HeaderOf(m, show)| :: IsWritablePair(HeaderOf(m, show)[k]) && IsHeaderName(HeaderOf(m, show)[k].name)
  {
    DigitsAreLineText(Decimal(m.hop));
    AddressIsLineText(m.source, 8);
    if show(m.target) != "*" {
      AddressIsLineText(m.target, |m.target.vendor|);
    }
    HeaderLinesWritable(Decimal(m.hop), show(m.source), show(m.target));
  }

  /** The frame of a canonical message is one the writer and reader agree on. */
  lemma FrameWritable(m: Msg, show: Show, addr0: Address, split: Splitter)
    requires IsCanonical(m, show, addr0, split)
    ensures IsWritable(FrameOf(m, show))
  {
    MsgTypeIsLineText(m.msgType);
    HeaderWritable(m, show, addr0);
    SchemaIsLineText(m.schemaClass, m.schemaType);
    BodyWritable(m.items, split);
  }

  // Reading: the setters rebuild a canonical message from its frame.

  lemma SetTypeOfType(x: Msg, t: string)
    requires IsMsgType(t)
    ensures SetType(x, t).1 == x.(raw := [], msgType := t)
  {
    MsgTypeIsLower(t);
    assert |t| == 8;
    assert IsTypeSpelling(Lower(t));
  }

  lemma MsgTypeIsLower(t: string)
    requires IsMsgType(t)
    ensures Lower(t) == t
  {
    assert IsLower(t);
    LowerOfLower(t);
  }

  lemma HopLine(x: Msg, hop: uint32)
    requires hop <= 9
    ensures HeaderItem(x, Pair("hop", Decimal(hop))) == x.(raw := [], hop := hop)
  {
    AtolDecimal(hop);
  }

  lemma SourceLine(x: Msg, a: Address)
    requires IsCanonicalAddress(a, 8) && x.source.bcast == a.bcast
    ensures HeaderItem(x, Pair("source", AddressText(a.vendor, a.device, a.instance))) == x.(source := a)
  {
    SetSourceOfParts(x, a.vendor, a.device, a.instance);
    LowerOfLower(a.device);
    LowerOfLower(a.instance);
  }

  lemma TargetLine(x: Msg, a: Address)
    requires IsCanonicalAddress(a, |a.vendor|) && x.target.bcast == a.bcast
    ensures HeaderItem(x, Pair("target", AddressText(a.vendor, a.device, a.instance))) == x.(raw := [], target := a)
  {
    SetTargetOfParts(x, a.vendor, a.device, a.instance);
    LowerOfLower(a.device);
    LowerOfLower(a.instance);
  }

  /** The target line of a canonical target, applied to a message still holding the default target, sets it back. */
  lemma CanonicalTargetLine(x: Msg, t: Address, show: Show, addr0: Address)
    requires IsCanonicalTarget(t, show, addr0) && x.target == addr0
    ensures HeaderItem(x, Pair("target", show(t))) == x.(raw := [], target := t)
  {
    if show(t) != "*" {
      TargetLine(x, t);
    }
  }

  /** Three header lines apply one after the other. */
  lemma ApplyHeaderThree(x: Msg, a: Pair, b: Pair, c: Pair)
    ensures ApplyHeader(x, [a, b, c]) == HeaderItem(HeaderItem(HeaderItem(x, a), b), c)
  {
    var x1 := HeaderItem(x, a);
    var x2 := HeaderItem(x1, b);
    ApplyHeaderStep(x, [a, b, c]);
    assert [a, b, c][1..] == [b, c];
    ApplyHeaderStep(x1, [b, c]);
    assert [b, c][1..] == [c];
    ApplyHeaderStep(x2, [c]);
    assert [c][1..] == [];
  }

  lemma ApplyHeaderStep(x: Msg, h: seq<Pair>)
    requires |h| > 0
    ensures ApplyHeader(x, h) == ApplyHeader(HeaderItem(x, h[0]), h[1..])
  {
  }

  /** The three header lines of a canonical message set hop, source and target back. */
  lemma HeaderOfCanonical(x: Msg, m: Msg, show: Show, addr0: Address)
    requires IsCanonicalHeader(m, show, addr0)
    requires x.source.bcast == addr0.bcast && x.target == addr0
    ensures ApplyHeader(x, HeaderOf(m, show)) == x.(raw := [], hop := m.hop, source := m.source, target := m.target)
  {
    var x1 := x.(raw := [], hop := m.hop);
    var x2 := x1.(source := m.source);
    HopLine(x, m.hop);
    SourceLine(x1, m.source);
    CanonicalTargetLine(x2, m.target, show, addr0);
    ApplyHeaderThree(x, HeaderOf(m, show)[0], HeaderOf(m, show)[1], HeaderOf(m, show)[2]);
  }

  lemma {:induction false} AddAllAppend(items: seq<Item>, a: seq<Pair>, b: seq<Pair>, split: Splitter)
    ensures AddAll(items, a + b, split) == AddAll(AddAll(items, a, split), b, split)
    decreases |b|
  {
    if |b| == 0 {
      assert a + b == a;
    } else {
      var ab := a + b;
      assert ab[..|ab| - 1] == a + b[..|b| - 1];
      assert ab[|ab| - 1] == b[|b| - 1];
      AddAllAppend(items, a, b[..|b| - 1], split);
    }
  }

  /** Adding one more value of a lower-case name to the last item, which carries that name. */
  lemma AddToLast(prefix: seq<Item>, name: string, vs: seq<string>, v: string, split: Splitter)
    requires forall k | 0 <= k < |prefix| :: prefix[k].name != name
    requires IsLower(name) && split(v, Comma) == [v]
    ensures AddValue(prefix + [Item(name, vs)], name, v, Comma, split) == prefix + [Item(name, vs + [v])]
  {
    FindExactAppend(prefix, Item(name, vs), name);
  }

  /** The first value of a lower-case name that no item carries yet starts a new item. */
  lemma AddFirst(prefix: seq<Item>, name: string, v: string, split: Splitter)
    requires forall k | 0 <= k < |prefix| :: prefix[k].name != name
    requires IsLower(name) && split(v, Comma) == [v]
    ensures AddValue(prefix, name, v, Comma, split) == prefix + [Item(name, [v])]
  {
    LowerOfLower(name);
  }

  /** The value lines of an item, added to items that lack its name, form the item. */
  lemma {:induction false} ItemAdded(prefix: seq<Item>, it: Item, split: Splitter)
    requires forall k | 0 <= k < |prefix| :: prefix[k].name != it.name
    requires IsLower(it.name) && KeepsWhole(split, it.values) && |it.values| > 0
    ensures AddAll(prefix, ItemPairs(it), split) == prefix + [it]
    decreases |it.values|
  {
    var n := |it.values|;
    var ps := ItemPairs(it);
    var v := it.values[n - 1];
    assert ps[n - 1] == Pair(it.name, v);
    assert split(v, Comma) == [v];
    assert AddAll(prefix, ps, split) == AddValue(AddAll(prefix, ps[..n - 1], split), it.name, v, Comma, split);
    if n == 1 {
      assert ps[..0] == [];
      assert it.values == [v];
      AddFirst(prefix, it.name, v, split);
    } else {
      var init := Item(it.name, it.values[..n - 1]);
      assert ps[..n - 1] == ItemPairs(init);
      assert KeepsWhole(split, init.values) by {
        forall j | 0 <= j < n - 1 ensures split(init.values[j], Comma) == [init.values[j]] {
          assert init.values[j] == it.values[j];
        }
      }
      ItemAdded(prefix, init, split);
      AddToLast(prefix, it.name, init.values, v, split);
      SnocLast(it.values);
      assert Item(it.name, init.values + [v]) == it;
    }
  }

  /** A non-empty sequence is its front followed by its last element. */
  lemma SnocLast<X>(xs: seq<X>)
    requires |xs| > 0
    ensures xs[..|xs| - 1] + [xs[|xs| - 1]] == xs
  {
  }

  lemma {:induction false} ItemsAdded(items: seq<Item>, n: nat, split: Splitter)
    requires IsCanonicalBody(items, split)
    requires n <= |items|
    ensures AddAll([], BodyPairs(items[..n]), split) == items[..n]
    decreases n
  {
    if n == 0 {
      assert items[..0] == [];
    } else {
      var pre := items[..n];
      var it := items[n - 1];
      assert pre[..n - 1] == items[..n - 1] && pre[n - 1] == it;
      assert BodyPairs(pre) == BodyPairs(items[..n - 1]) + ItemPairs(it);
      ItemsAdded(items, n - 1, split);
      AddAllAppend([], BodyPairs(items[..n - 1]), ItemPairs(it), split);
      assert IsCanonicalItem(it, split);
      var init := items[..n - 1];
      assert forall k | 0 <= k < |init| :: init[k] == items[k];
      ItemAdded(init, it, split);
      assert items[..n - 1] + [it] == pre;
    }
  }

  lemma BodyOfCanonical(y: Msg, items: seq<Item>, split: Splitter)
    requires y.items == [] && y.raw == []
    requires IsCanonicalBody(items, split)
    ensures ApplyBody(y, BodyPairs(items), split) == y.(items := items)
  {
    BodyRebuilt(items, split);
  }

  /** `AddValue` of the body lines of canonical items, in order, gives the items back. */
  lemma BodyRebuilt(items: seq<Item>, split: Splitter)
    requires IsCanonicalBody(items, split)
    ensures AddAll([], BodyPairs(items), split) == items
  {
    ItemsAdded(items, |items|, split);
    assert items[..|items|] == items;
  }

  lemma SchemaOfCanonical(x: Msg, c: string, t: string)
    requires IsCanonicalSchema(c, t)
    ensures SplitParts(c + "." + t, '.') == (c, t)
    ensures SetSchemaType(SetSchemaClass(x, c).1, t).1 == x.(raw := [], schemaClass := c, schemaType := t)
  {
    assert c + "." + t == c + ['.'] + t;
    SplitJoin(c, '.', t);
    LowerOfLower(c);
    LowerOfLower(t);
  }

  /** The setters rebuild a canonical message from its own frame. */
  lemma FromFrameOfCanonical(m: Msg, show: Show, hop0: uint32, addr0: Address, split: Splitter)
    requires IsCanonical(m, show, addr0, split)
    ensures FromFrame(FrameOf(m, show), hop0, addr0, split) == m.(raw := [])
  {
    var f := FrameOf(m, show);
    var m0 := Fresh(hop0, addr0);
    SetTypeOfType(m0, m.msgType);
    var m1 := m0.(raw := [], msgType := m.msgType);
    HeaderOfCanonical(m1, m, show, addr0);
    var m2 := m1.(raw := [], hop := m.hop, source := m.source, target := m.target);
    SchemaOfCanonical(m2, m.schemaClass, m.schemaType);
    var m3 := m2.(raw := [], schemaClass := m.schemaClass, schemaType := m.schemaType);
    BodyOfCanonical(m3, m.items, split);
  }

  /**
   * Parsing the rendering of a canonical message gives the message back,
   * with the rendering as its cached raw text.
   */
  lemma ParseRendered(m: Msg, show: Show, hop0: uint32, addr0: Address, split: Splitter)
    requires IsCanonical(m, show, addr0, split)
    ensures Parse(Render(m, show), hop0, addr0, split) == Success(m.(raw := Render(m, show)))
  {
    FrameWritable(m, show, addr0, split);
    FrameRoundTrip(FrameOf(m, show));
    FromFrameOfCanonical(m, show, hop0, addr0, split);
  }
}
